=== FILE: README.md ===
# ZiggyMusic audio core and player rules, in Dafny

This project models the logic of the ZiggyMusic Android player that sits
below its UI, and proves properties of that model. It has three parts.

- **Native preview path.**
  - `AudioIOEngine` owns a power-of-two ring of stereo frames with unbounded
    read/write counters. Enqueue keeps the newest frames and drops the oldest
    on overflow. The audio callback dequeues in FIFO order and fills the rest
    with silence, or plays a clamped test tone.
  - The engine also has a start/stop lifecycle.
  - `AudioDspChain` has scratch growth, the fixed stage order
    EQ → compressor → spatial → reverb, the exact bypass branches, the
    parameter setters and the convex wet/dry mix.
- **Kotlin audio control.**
  - `AudioProcessorAdapter`: format validation, framing and PCM16↔float
    conversion, and the pending-output / ended / flush state machine.
  - `PlayerAudioGraph`: the chain, preview and Media3 flags and the
    head-tracking sensor policy.
  - `AudioDspChainHolder`: one chain per device sample rate.
  - `HeadTracker`: angle wrap, smoothing with a noise cut, and start/stop modes.
  - `SoundEQSettings`: the band guard and the progress→dB slider mapping.
- **Small rules.**
  - The last-played store and its per-type key tables.
  - `PlayerModel` and `LocalStore.addAll`.
  - The `SharedPreference` list helpers.
  - The skip, repeat, shuffle, selection and seek rules of the player screens.
  - The `m:ss` timer label.

Modelling choices:

- Samples are reals.
- The Superpowered filter, reverb and spatializer are function-valued
  parameters (`Externals.Primitives`), and so are `exp`, `sin` and the dB
  conversion (`Externals.Numerics`).
- Native calls made by the Kotlin objects are recorded in a `calls` log, so
  that "called at most once" and "no call is made" can be stated.
- Every operation is one atomic, sequential step.
- Kotlin/C++ truncating division and remainder are modelled by `Numeric.Quot`
  and `Numeric.Rem`.
- An `Int` product that can overflow wraps through `Numeric.WrapInt32`.
- Float-to-int casts truncate through `Numeric.Trunc`.

Files, one module each:

- `wrappers.dfy`, `numeric.dfy`, `text.dfy`, `audio.dfy`, `externals.dfy`,
  `angles.dfy`: shared helpers.
- `preview_ring.dfy`, `audio_io_engine.dfy`: the preview ring and the engine.
- `dsp_chain.dfy`: the DSP chain; `dsp_chain_order.dfy` (`AudioDspChainOrder`):
  the lemmas that pin the order of its stages.
- `processor_adapter.dfy`, `player_audio_graph.dfy`, `chain_holder.dfy`,
  `head_tracker.dfy`, `sound_eq.dfy`: the Kotlin audio control.
- `playback_content.dfy`, `last_played_media.dfy`,
  `playback_state_store.dfy`, `player_model.dfy`, `local_store.dfy`,
  `shared_preference.dfy`: the stores.
- `transport.dfy`, `player_screen.dfy`, `main_events.dfy`, `timer.dfy`: the
  player-screen rules.

## Model

| member | source | states |
|---|---|---|
| Angles.Normalize180 | app/src/main/cpp/AudioDspChain.cpp:269-273 | the spatializer's angle wrap lands in [-180, 180], differs from its input by a whole number of turns, and leaves an angle already in range alone |
| Angles.Normalize180Idempotent | app/src/main/cpp/AudioDspChain.cpp:269-273 | wrapping an already wrapped angle changes nothing |
| AudioIoEngine.NewEngine | app/src/main/cpp/AudioIoEngine.h:70-92 | a fresh engine is stopped with no stream or chain, its tone is off at 220 Hz and level 0.12, its ring has capacity 0 with both counters at 0, and its rate is 48000 |
| AudioIoEngine.NextPow2 | app/src/main/cpp/AudioIoEngine.cpp:20-29 | the 32-bit bit-smearing round-up gives 1 for 0, the least power of two at or above v for 0 < v <= 2^31, and wraps to 0 above that |
| AudioIoEngine.LeastPowerOfTwoAtLeast | app/src/main/cpp/AudioIoEngine.cpp:20-29 | the reference definition: a power of two at or above v whose half is below v, so it is the least such power |
| AudioIoEngine.PowerOfTwoBelowDouble | app/src/main/cpp/AudioIoEngine.cpp:20-29 | a power of two below twice another is at most it, which is why the round-up is the least one |
| AudioIoEngine.LeastPowerOfTwoIn | app/src/main/cpp/AudioIoEngine.cpp:20-29 | a power of two hi with hi/2 < v <= hi is the least power of two covering v |
| AudioIoEngine.NextPow2Between | app/src/main/cpp/AudioIoEngine.cpp:20-29 | on 32-bit input the bit-smearing round-up maps every v in (hi/2, hi] to hi, for each power of two hi up to 2^31 |
| AudioIoEngine.NextPow2AgreesWithReference | app/src/main/cpp/AudioIoEngine.cpp:20-29 | for every 32-bit v in (0, 2^31] the bit-smearing round-up equals the least power of two at or above v, the reference definition |
| AudioIoEngine.RingTarget | app/src/main/cpp/AudioIoEngine.cpp:80-84 | the ring target is callbackFrames*64 as a wrapping int32 product clamped to [2048, 32768], so it lies in that range and equals the product when the product does |
| AudioIoEngine.RingCapacity | app/src/main/cpp/AudioIoEngine.cpp:80-88 | the ring size is a power of two in [2048, 32768] at or above the clamped target and below twice it, so it is the least power of two covering the target |
| AudioIoEngine.RingCapacityIsNextPow2 | app/src/main/cpp/AudioIoEngine.cpp:84-85 | the ring size equals nextPow2 of the clamped target cast to uint32_t |
| AudioIoEngine.ClearPreviewBuffer | app/src/main/cpp/AudioIoEngine.cpp:216-221 | the ring reads as empty with both counters at 0, the producer-rate diagnosis is reset, and nothing else changes |
| AudioIoEngine.Start | app/src/main/cpp/AudioIoEngine.cpp:32-95 | starting a running engine is a no-op returning true; otherwise the chain and rate (48000 for a non-positive one) are installed, success needs both open and start to succeed, success leaves a zeroed ring of the computed size with counters at 0, and failure leaves the engine stopped with no stream but the chain installed |
| AudioIoEngine.Stop | app/src/main/cpp/AudioIoEngine.cpp:98-111 | the engine ends stopped with no stream and no chain, everything else untouched |
| AudioIoEngine.StopIdempotent | app/src/main/cpp/AudioIoEngine.cpp:98-111 | stopping twice is the same as stopping once |
| AudioIoEngine.OnErrorAfterClose | app/src/main/cpp/AudioIoEngine.cpp:279-282 | a stream error after close only clears the running flag |
| AudioIoEngine.SetTestToneEnabled | app/src/main/cpp/AudioIoEngine.cpp:126-128 | only the tone switch changes |
| AudioIoEngine.SetTestToneFrequency | app/src/main/cpp/AudioIoEngine.cpp:130-134 | the stored frequency is the request clamped to [20, 20000] Hz, each side of the clamp stated; nothing else changes |
| AudioIoEngine.SetTestToneLevel | app/src/main/cpp/AudioIoEngine.cpp:136-140 | the stored level is the request clamped to [0, 1], each side of the clamp stated; nothing else changes |
| AudioIoEngine.NoteProducerRate | app/src/main/cpp/AudioIoEngine.cpp:228-238 | the first producer rate is recorded; a later different rate sets the sticky warning and nothing is resampled |
| AudioIoEngine.EnqueuePreviewPcm | app/src/main/cpp/AudioIoEngine.cpp:223-276 | a null buffer, no frames, a stopped engine or an unsized ring change nothing; otherwise the unread frames become the last `capacity` frames of the old ones followed by the batch, the write counter advances by the frames admitted and the read counter by exactly the overrun |
| AudioIoEngine.EnqueueAccepted | app/src/main/cpp/AudioIoEngine.cpp:240-275 | the accepted path of enqueue: the ring keeps the newest `capacity` frames in order and the counters move by the admitted and dropped counts |
| AudioIoEngine.EnqueueBeforeStart | app/src/main/cpp/AudioIoEngine.h:81-84 | any enqueue into a never-started engine leaves it exactly as constructed |
| AudioIoEngine.AdvancePhase | app/src/main/cpp/AudioIoEngine.cpp:165-166 | the phase advances by the increment, wrapping once by 2*pi, and stays in [0, 2*pi] |
| AudioIoEngine.Tone | app/src/main/cpp/AudioIoEngine.cpp:163-170 | the test tone fills exactly the requested frames with left equal to right, starting at sin(phase)*level, and keeps the phase in [0, 2*pi] |
| AudioIoEngine.PhaseIncrement | app/src/main/cpp/AudioIoEngine.cpp:158-161 | the per-frame phase step is non-negative and at most 2*pi for a frequency up to the stream rate |
| AudioIoEngine.RenderSource | app/src/main/cpp/AudioIoEngine.cpp:156-203 | with the tone on, the ring is not read and every frame has left equal to right; with no ring the source is silence; otherwise min(unread, requested) frames are taken in order, the rest zero-filled, and the read counter advances by exactly that count |
| AudioIoEngine.Source | app/src/main/cpp/AudioIoEngine.cpp:156-203 | a stereo callback's frames before the chain: the tone when it is on, silence with no ring, else the oldest min(unread, requested) ring frames then silence, numFrames in all |
| AudioIoEngine.OnAudioReady | app/src/main/cpp/AudioIoEngine.cpp:144-214 | a non-stereo stream gets numFrames*channels zeros and no state change; a stereo callback leaves the ring alone while the tone plays and otherwise dequeues in order with zero fill; the output is the source frames interleaved, or with a chain installed the chain's process of them at the stream rate, whose new state the engine keeps |
| AudioIoEngine.RunChain | app/src/main/cpp/AudioIoEngine.cpp:205-211 | without a chain the frames pass through untouched; with one the frames are the chain's process of them at the stream rate and the engine keeps the chain's new state, nothing else changing |
| AudioIoEngine.PreviewPassThrough | app/src/main/cpp/AudioIoEngine.cpp:185-194 | frames enqueued without overflow come out of the next callback in order, after what was already buffered, none lost, across the wrap |
| PreviewRing.Contents | app/src/main/cpp/AudioIoEngine.cpp:185-194 | the unread frames, oldest first, are exactly write-read of them, frame j living in slot (read+j) mod capacity |
| PreviewRing.WriteChunks | app/src/main/cpp/AudioIoEngine.cpp:263-273 | the two-chunk copy writes the batch from the start slot to the end of the array and the remainder from slot 0, leaving every other slot as it was |
| PreviewRing.ChunksAreOffsets | app/src/main/cpp/AudioIoEngine.cpp:263-273 | the two chunks together put frame k of the batch at slot (pos+k) mod capacity and keep the slots the batch does not reach |
| PreviewRing.ReadWrapped | app/src/main/cpp/AudioIoEngine.cpp:185-194 | the two-chunk read returns the slots (pos+k) mod capacity in order |
| PreviewRing.Overrun | app/src/main/cpp/AudioIoEngine.cpp:251-261 | the frames dropped on overflow are exactly what brings write-read back to capacity, and none are dropped when there is room |
| PreviewRing.Push | app/src/main/cpp/AudioIoEngine.cpp:240-275 | write-read stays within capacity, and the unread frames become the last `capacity` of the old unread frames followed by the batch, the write counter advancing by the admitted frames and the read counter by the overrun |
| PreviewRing.PushContents | app/src/main/cpp/AudioIoEngine.cpp:252-275 | a write of at most `capacity` frames leaves the newest `capacity` frames of old-plus-new in the ring, in order |
| PreviewRing.PushDropCount | app/src/main/cpp/AudioIoEngine.cpp:252-261 | the read counter advances by exactly the number of oldest frames that no longer fit |
| PreviewRing.Take | app/src/main/cpp/AudioIoEngine.cpp:177-182 | a read takes min(unread, requested) frames |
| PreviewRing.Pop | app/src/main/cpp/AudioIoEngine.cpp:172-202 | the output is the oldest min(unread, requested) frames followed by zeros, the read counter advances by exactly that count, and what stays unread is the rest in order |
| PreviewRing.PushThenDrain | app/src/main/cpp/AudioIoEngine.cpp:264-275 | without overflow, frames pushed then drained come out in FIFO order after the earlier ones and the ring is empty afterwards |
| PreviewRing.PushOverflowKeepsNewest | app/src/main/cpp/AudioIoEngine.cpp:241-261 | on overflow the ring is full and holds the newest `capacity` frames of old-plus-new |
| AudioDspChain.Create | app/src/main/cpp/AudioDspChain.cpp:17-60 | a new chain has five flat bands at the given rate with fresh filter memory, a fresh reverb present but off with wet 0.25, fresh spatializers, ratio 1, threshold dbToLinear(-24), makeup dbToLinear(0), envelope 0, no scratch, spatial and head tracking off, and base input volume 0.5 |
| AudioDspChain.EnsureCapacity | app/src/main/cpp/AudioDspChain.cpp:124-131 | the scratch capacity never shrinks, covers the request afterwards, changes only when too small, and keeps left/right at capacity and both interleaved buffers at twice it |
| AudioDspChain.EqGrow | app/src/main/cpp/AudioDspChain.cpp:135-140 | applyEQ's own growth covers the frames but never resizes the spatial output scratch |
| AudioDspChain.EqGrowthAloneSkipsSpatialScratch | app/src/main/cpp/AudioDspChain.cpp:135-142 | a concrete case where the EQ's growth branch alone would leave the spatial scratch too small, which is why process grows first |
| AudioDspChain.RunBands | app/src/main/cpp/AudioDspChain.cpp:151-157 | the bands run in index order, each shared filter over the left channel and then the right, carrying its memory from one to the other; lengths are kept and each band keeps one memory |
| AudioDspChain.RunBandsFlat | app/src/main/cpp/AudioDspChain.cpp:151-157 | bands at 0 dB pass both channels through, whatever memory the filters hold, when a flat filter is transparent |
| AudioDspChain.RunBandsLeftIgnoresRight | app/src/main/cpp/AudioDspChain.cpp:151-157 | each filter sees the left channel first, so the left output does not depend on the right input |
| AudioDspChain.RunBandsRightIgnoresLeftWhenMemoryless | app/src/main/cpp/AudioDspChain.cpp:151-157 | the right output is free of the left input when the filters' output does not depend on their memory, the shared filter being the only path between the channels |
| AudioDspChain.ApplyEQ | app/src/main/cpp/AudioDspChain.cpp:134-164 | each band's filter gain is set from the stored gains, the buffer keeps its length, and within capacity only the bands and the filters' memory change |
| AudioDspChain.EqLeftIgnoresRight | app/src/main/cpp/AudioDspChain.cpp:145-163 | the left channel of the EQ output depends only on the left channel of its input |
| AudioDspChain.EqRightIgnoresLeftWhenMemoryless | app/src/main/cpp/AudioDspChain.cpp:145-163 | with memoryless filters the right channel of the EQ output depends only on the right channel of its input |
| AudioDspChain.EqFlatIsIdentity | app/src/main/cpp/AudioDspChain.cpp:134-164 | with every gain at 0 dB the EQ leaves the buffer unchanged |
| AudioDspChain.ApplyCompressor | app/src/main/cpp/AudioDspChain.cpp:167-217 | zero frames change nothing; ratio <= 1 leaves the buffer untouched when |makeup-1| < 1e-6 and otherwise scales every sample by makeup, touching no state; above ratio 1 only the envelope changes |
| AudioDspChain.InputVolume | app/src/main/cpp/AudioDspChain.cpp:284-291 | the spatializer input volume lies in (0, 0.5], is 0.5 within 1 m and falls as the inverse square beyond |
| AudioDspChain.InputVolumeMonotone | app/src/main/cpp/AudioDspChain.cpp:284-291 | a farther source is never louder |
| AudioDspChain.EffectiveYaw | app/src/main/cpp/AudioDspChain.cpp:251-252 | the yaw used is 0 unless head tracking is on, else the stored yaw |
| AudioDspChain.SourceParams | app/src/main/cpp/AudioDspChain.cpp:259-291 | each source azimuth lies in [-180, 180] and is offset + azimuth - yaw up to whole turns; elevation, reverb mix 0.1 and input volume are as set |
| AudioDspChain.ApplySpatial | app/src/main/cpp/AudioDspChain.cpp:243-303 | disabled, the output is an exact copy and nothing changes; enabled, the left source at -30 and the right at +30 degrees get their parameters, the output is the right source rendered over the left over silence, and each spatializer keeps the memory its render leaves |
| AudioDspChain.MixEndpoints | app/src/main/cpp/AudioDspChain.cpp:234-239 | weight 0 gives the dry signal, weight 1 the wet one, and mixing a signal with itself gives it back |
| AudioDspChain.MixBetween | app/src/main/cpp/AudioDspChain.cpp:234-239 | for w in [0, 1] every mixed sample lies between its dry and wet values (the mix is convex) |
| AudioDspChain.MixSampleBetween | app/src/main/cpp/AudioDspChain.cpp:238 | one mixed sample with w in [0, 1] lies between its dry and wet values |
| AudioDspChain.ApplyReverb | app/src/main/cpp/AudioDspChain.cpp:220-240 | off, the buffer and chain are untouched; on, the output is the mix of input and render with the wet weight clamped to [0, 1], the input standing in when the render yields nothing, and the reverb keeps the tail its render leaves |
| AudioDspChain.ReverbSilentRenderIsIdentity | app/src/main/cpp/AudioDspChain.cpp:226-239 | when the reverb renders nothing the buffer comes out unchanged |
| AudioDspChain.Retune | app/src/main/cpp/AudioDspChain.cpp:313-316 | recording a new rate changes only the chain's rate and the reverb's |
| AudioDspChain.Process | app/src/main/cpp/AudioDspChain.cpp:306-331 | a null buffer or zero frames change nothing; otherwise the length is kept, no user setting changes, the rate is recorded and the scratch covers the frames (spatial output included) before any stage runs |
| AudioDspChain.Stages | app/src/main/cpp/AudioDspChain.cpp:317-330 | within capacity the stages keep the length, the settings and the scratch, and change only the envelope and the units' state |
| AudioDspChainOrder.ProcessBypassIsIdentity | app/src/main/cpp/AudioDspChain.cpp:306-331 | with flat EQ, a bypassed compressor at unity makeup, and spatial and reverb off, process returns its input |
| AudioDspChainOrder.ProcessDryPath | app/src/main/cpp/AudioDspChain.cpp:317-330 | with spatial and reverb off the result is the compressor applied to the EQ output, in that order |
| AudioDspChainOrder.ProcessReverbLast | app/src/main/cpp/AudioDspChain.cpp:317-330 | with the other stages bypassed the output is the reverb mix of the input, so reverb runs last on what the others produced |
| AudioDspChainOrder.ProcessCompressorThenSpatial | app/src/main/cpp/AudioDspChain.cpp:317-330 | with flat EQ and reverb off, the output is the spatializer applied to the compressor's output, so spatial consumes what the compressor produced |
| AudioDspChainOrder.ProcessSpatialThenReverb | app/src/main/cpp/AudioDspChain.cpp:317-330 | with flat EQ and a bypassed compressor but spatial and reverb on, the output is the reverb mix of the spatializer's output with the reverb's render of it, at the stored wet weight |
| AudioDspChain.SetEQBand | app/src/main/cpp/AudioDspChain.cpp:334-337 | an index in [0, 5) stores the gain for that band only; any other index changes nothing |
| AudioDspChain.FloorMs | app/src/main/cpp/AudioDspChain.cpp:345-347 | attack and release times are floored at 0.1 ms |
| AudioDspChain.SmoothingCoeff | app/src/main/cpp/AudioDspChain.cpp:352-356 | the smoothing coefficient is 0 at rate 0 and otherwise exp of a negative number |
| AudioDspChain.SetCompressor | app/src/main/cpp/AudioDspChain.cpp:340-359 | ratio is max(ratio, 1), times are floored at 0.1 ms with coefficients from them, threshold and makeup are converted from dB, the envelope is kept and nothing outside the compressor changes |
| AudioDspChain.SetReverb | app/src/main/cpp/AudioDspChain.cpp:362-366 | the switch is stored in the chain and the unit, the wet weight is clamped to [0, 1], nothing else changes |
| AudioDspChain.SetSpatialEnabled | app/src/main/cpp/AudioDspChain.cpp:369-371 | only the spatial switch changes |
| AudioDspChain.SetSpatialPosition | app/src/main/cpp/AudioDspChain.cpp:374-378 | only azimuth, elevation and distance change, stored as given |
| AudioDspChain.SetHeadTrackingYaw | app/src/main/cpp/AudioDspChain.cpp:381-385 | the yaw is clamped to [-180, 180], each side stated; nothing else changes |
| AudioDspChain.SetHeadTrackingEnabled | app/src/main/cpp/AudioDspChain.cpp:388-390 | only the head-tracking switch changes |
| AudioDspChain.AsUnsigned32 | app/src/main/cpp/AudioDspChain.cpp:65 | the int-to-unsigned conversion keeps non-negative rates and adds 2^32 to negative ones |
| AudioDspChain.Prepare | app/src/main/cpp/AudioDspChain.cpp:64-121 | a zero or unchanged rate changes nothing; a new rate rebuilds bands with fresh memory and spatializers at it and retunes the reverb (keeping its tail), keeping gains, the reverb switch, every setting and the envelope, and recomputes the compressor coefficients |
| ProcessorAdapter.Configure | app/src/main/java/com/hero/ziggymusic/audio/AudioProcessorAdapter.kt:31-48 | the format, encoding and channel count are recorded first; the format is accepted and returned unchanged exactly when it is stereo PCM_FLOAT or PCM_16BIT, otherwise it is rejected |
| ProcessorAdapter.ConfigureActivates | app/src/main/java/com/hero/ziggymusic/audio/AudioProcessorAdapter.kt:31-34 | after configure the adapter is active exactly when the format is not NOT_SET, accepted or not |
| ProcessorAdapter.RejectedFormatStaysActive | app/src/main/java/com/hero/ziggymusic/audio/AudioProcessorAdapter.kt:31-50 | a rejected mono format still leaves the adapter active |
| ProcessorAdapter.FrameWidth | app/src/main/java/com/hero/ziggymusic/audio/AudioProcessorAdapter.kt:61-62 | the frame width is channels*bytesPerSample wrapped to an Int: equal to the product when it fits and congruent to it mod 2^32 |
| ProcessorAdapter.FrameWidthWraps | app/src/main/java/com/hero/ziggymusic/audio/AudioProcessorAdapter.kt:61-62 | 2^30 float channels and -2^31 16-bit channels give a zero-byte frame, 2^30+1 float channels a four-byte one |
| ProcessorAdapter.FrameCount | app/src/main/java/com/hero/ziggymusic/audio/AudioProcessorAdapter.kt:60-64 | for float and PCM16 the frames are remaining divided toward zero by the wrapped frame width, the largest whole count that fits when it is positive and never positive when it is negative; other encodings give 0; it faults exactly when a supported encoding has a wrapped width of 0 |
| ProcessorAdapter.FrameBounds | app/src/main/java/com/hero/ziggymusic/audio/AudioProcessorAdapter.kt:60-64 | Kotlin division by a positive frame width gives the largest whole count that fits and never a negative one |
| ProcessorAdapter.DecodeS16 | app/src/main/java/com/hero/ziggymusic/audio/AudioProcessorAdapter.kt:95-97 | two little-endian bytes give a short in [-32768, 32767] |
| ProcessorAdapter.DecodeEncodeS16 | app/src/main/java/com/hero/ziggymusic/audio/AudioProcessorAdapter.kt:95-97 | decoding the bytes of a short gives it back |
| ProcessorAdapter.FromPcm16 | app/src/main/java/com/hero/ziggymusic/audio/AudioProcessorAdapter.kt:95-98 | s/32768 lies in [-1, 1) and has the sign of s |
| ProcessorAdapter.ToPcm16 | app/src/main/java/com/hero/ziggymusic/audio/AudioProcessorAdapter.kt:131-135 | output shorts stay in [-32767, 32766], hitting the ends for inputs at or beyond -1 and the ceiling |
| ProcessorAdapter.ToPcm16Monotone | app/src/main/java/com/hero/ziggymusic/audio/AudioProcessorAdapter.kt:131-135 | a larger float never gives a smaller short |
| ProcessorAdapter.Pcm16RoundTrip | app/src/main/java/com/hero/ziggymusic/audio/AudioProcessorAdapter.kt:95-135 | a short decoded to float and encoded back moves one step toward zero, so it is off by at most 1 |
| ProcessorAdapter.InputSamples | app/src/main/java/com/hero/ziggymusic/audio/AudioProcessorAdapter.kt:81-105 | the requested number of samples are decoded, PCM16 ones in [-1, 1) |
| ProcessorAdapter.DspRate | app/src/main/java/com/hero/ziggymusic/audio/AudioProcessorAdapter.kt:70-72 | the provider's rate when positive, else the format's |
| ProcessorAdapter.QueueInput | app/src/main/java/com/hero/ziggymusic/audio/AudioProcessorAdapter.kt:52-143 | an empty input or an unconsumed output changes nothing; a zero wrapped width is a division fault; no whole frame consumes the whole input and produces nothing; otherwise, unless the float byte count samples*4 wraps an Int, exactly frames*channels*bytesPerSample bytes are consumed, less than one frame is left, and an output of the input's encoding is pending; it stops exactly in the three fault cases (zero width, wrapped positive width, wrapped float byte count), and the last only for PCM16 |
| ProcessorAdapter.WrappedWidthFaults | app/src/main/java/com/hero/ziggymusic/audio/AudioProcessorAdapter.kt:58-64 | 2^30 float channels divide by zero on any input, and 2^30+1 float channels count whole frames by a wrapped width |
| ProcessorAdapter.ProcessFrames | app/src/main/java/com/hero/ziggymusic/audio/AudioProcessorAdapter.kt:70-142 | it faults exactly when samples*4 does not fit an Int, and then only for PCM16 input; otherwise whole frames advance the input position by exactly their byte size and leave a pending output of the input's encoding |
| ProcessorAdapter.QueueInputIsProcessFrames | app/src/main/java/com/hero/ziggymusic/audio/AudioProcessorAdapter.kt:58-78 | with at least one whole frame of a width that fits an Int, the frame count is the exact quotient and queueInput goes on to the float-buffer step with it |
| ProcessorAdapter.LargePcm16InputFaults | app/src/main/java/com/hero/ziggymusic/audio/AudioProcessorAdapter.kt:74-97 | mono or stereo PCM16 input throws at the conversion loop exactly when it holds 2^30 bytes or more, because samples*4 wraps negative and the float buffer keeps fewer than 2^29 floats; below that it leaves a PCM16 output |
| ProcessorAdapter.Render | app/src/main/java/com/hero/ziggymusic/audio/AudioProcessorAdapter.kt:115-142 | float input gives the processed floats; PCM16 gives as many shorts, each in [-32767, 32766] |
| ProcessorAdapter.QueueInputOutput | app/src/main/java/com/hero/ziggymusic/audio/AudioProcessorAdapter.kt:52-143 | when samples*4 fits an Int, which float input always does, the pending output is the DSP applied to the decoded whole-frame samples at the DSP rate, rendered in the input's encoding; otherwise queueInput faults with the wrapped float byte count |
| ProcessorAdapter.Pcm16PassThrough | app/src/main/java/com/hero/ziggymusic/audio/AudioProcessorAdapter.kt:81-135 | with an identity DSP and under 2^30 input bytes each PCM16 sample comes out within 1 of what went in; from 2^30 bytes on queueInput faults |
| ProcessorAdapter.GetOutput | app/src/main/java/com/hero/ziggymusic/audio/AudioProcessorAdapter.kt:145-149 | the pending output is handed over and left empty; nothing else changes |
| ProcessorAdapter.QueueEndOfStream | app/src/main/java/com/hero/ziggymusic/audio/AudioProcessorAdapter.kt:151-153 | only the ended flag is set |
| ProcessorAdapter.Flush | app/src/main/java/com/hero/ziggymusic/audio/AudioProcessorAdapter.kt:157-160 | pending output and the ended flag are cleared, so the adapter is not ended; nothing else changes |
| ProcessorAdapter.Reset | app/src/main/java/com/hero/ziggymusic/audio/AudioProcessorAdapter.kt:162-169 | the adapter returns to NOT_SET, INVALID encoding, 0 channels and empty buffers, so it is neither active nor ended |
| ProcessorAdapter.GetOutputDrains | app/src/main/java/com/hero/ziggymusic/audio/AudioProcessorAdapter.kt:145-149 | a second getOutput returns nothing |
| ProcessorAdapter.EndedOnceDrained | app/src/main/java/com/hero/ziggymusic/audio/AudioProcessorAdapter.kt:151-155 | after end of stream the adapter is ended exactly when no output is pending, and always once it is drained |
| ProcessorAdapter.PendingOutputBlocksInput | app/src/main/java/com/hero/ziggymusic/audio/AudioProcessorAdapter.kt:56 | while an output is unconsumed, queueInput consumes nothing and changes nothing |
| HeadTracker.NewTracker | app/src/main/java/com/hero/ziggymusic/audio/HeadTracker.kt:43-51 | a new tracker is not tracking, has no smoothing history and has made no sensor calls |
| HeadTracker.NormalizeDeg180 | app/src/main/java/com/hero/ziggymusic/audio/HeadTracker.kt:178-183 | the result is in [-180, 180] and congruent to the input mod 360 |
| HeadTracker.ShortestAngleDelta | app/src/main/java/com/hero/ziggymusic/audio/HeadTracker.kt:188-193 | the delta is in [-180, 180] and congruent to to-from mod 360 |
| HeadTracker.DeltaReachesTarget | app/src/main/java/com/hero/ziggymusic/audio/HeadTracker.kt:178-193 | adding the shortest delta to the start and wrapping lands on the target |
| HeadTracker.Stop | app/src/main/java/com/hero/ziggymusic/audio/HeadTracker.kt:92-100 | not tracking is a no-op; otherwise the listener is unregistered, tracking ends with no mode and the smoothing history is cleared |
| HeadTracker.StopIdempotent | app/src/main/java/com/hero/ziggymusic/audio/HeadTracker.kt:92-100 | stopping twice is the same as stopping once |
| HeadTracker.Start | app/src/main/java/com/hero/ziggymusic/audio/HeadTracker.kt:59-89 | no sensor changes nothing; the current mode while tracking is a no-op; a different mode unregisters and re-registers; a missing mode means FOREGROUND; tracking afterwards holds exactly when registration succeeded or nothing had to change, and then the mode is the requested one |
| HeadTracker.StartTwiceRegistersOnce | app/src/main/java/com/hero/ziggymusic/audio/HeadTracker.kt:70 | starting twice in the same mode registers once |
| HeadTracker.Smooth | app/src/main/java/com/hero/ziggymusic/audio/HeadTracker.kt:150-167 | the first sample is only wrapped; a wrapped delta below 0.2 degrees keeps the last yaw; otherwise the yaw is last + 0.15*delta, wrapped |
| HeadTracker.OnSensorChanged | app/src/main/java/com/hero/ziggymusic/audio/HeadTracker.kt:107-172 | events from other sensors are ignored; a rotation event emits the smoothed yaw and stores exactly it as the last yaw |
| HeadTracker.FirstEventAfterStopIsRaw | app/src/main/java/com/hero/ziggymusic/audio/HeadTracker.kt:96 | the first sample after stop is emitted unsmoothed, only wrapped |
| HeadTracker.SmoothingClosesGap | app/src/main/java/com/hero/ziggymusic/audio/HeadTracker.kt:160-166 | outside the noise cut each sample shrinks the angular gap to the target by the factor 0.85 |
| HeadTracker.NoiseCutHoldsYaw | app/src/main/java/com/hero/ziggymusic/audio/HeadTracker.kt:161-162 | a change below 0.2 degrees emits and keeps the previous yaw |
| PlayerAudioGraph.InitialValid | app/src/main/java/com/hero/ziggymusic/audio/PlayerAudioGraph.kt:19-39 | a new graph has no chain and allows Media3 processing, and its flags are consistent |
| PlayerAudioGraph.Media3BlockedDuringPreview | app/src/main/java/com/hero/ziggymusic/audio/PlayerAudioGraph.kt:116 | Media3 processes exactly when a chain exists and no preview runs |
| PlayerAudioGraph.EnsureChainCreated | app/src/main/java/com/hero/ziggymusic/audio/PlayerAudioGraph.kt:82-89 | createChain is called only when no chain exists, and a chain exists afterwards |
| PlayerAudioGraph.EnsureChainCreatedOnce | app/src/main/java/com/hero/ziggymusic/audio/PlayerAudioGraph.kt:82-89 | a second call creates nothing more |
| PlayerAudioGraph.StopPreviewIfRunning | app/src/main/java/com/hero/ziggymusic/audio/PlayerAudioGraph.kt:139-150 | a running preview stops its I/O; afterwards no preview runs and Media3 is allowed; chain and tracker are kept |
| PlayerAudioGraph.StopPreviewIdempotent | app/src/main/java/com/hero/ziggymusic/audio/PlayerAudioGraph.kt:139-150 | stopping twice is the same as stopping once |
| PlayerAudioGraph.StartPreview | app/src/main/java/com/hero/ziggymusic/audio/PlayerAudioGraph.kt:124-137 | the chain is ensured, and if no preview ran Media3 is blocked and I/O started; afterwards the preview runs and Media3 is blocked |
| PlayerAudioGraph.StartPreviewTwice | app/src/main/java/com/hero/ziggymusic/audio/PlayerAudioGraph.kt:124-137 | a repeated start is a no-op |
| PlayerAudioGraph.DestroyChainIfNeeded | app/src/main/java/com/hero/ziggymusic/audio/PlayerAudioGraph.kt:94-110 | without a chain nothing happens; otherwise preview stops, the tracker stops, the chain is destroyed, and Media3 is allowed |
| PlayerAudioGraph.SetHeadTrackingActive | app/src/main/java/com/hero/ziggymusic/audio/PlayerAudioGraph.kt:63-77 | the native toggle is set to spatial and head; an attached tracker starts only when both are on and stops otherwise |
| PlayerAudioGraph.ApplySensorPolicy | app/src/main/java/com/hero/ziggymusic/audio/PlayerAudioGraph.kt:194-219 | the tracker stops unless spatial and head are on and the app is in the foreground or kept alive in the background during playback; then, with a sensor, it ends tracking exactly when either start call registers or it already tracked in the mode, and tracks in FOREGROUND or BACKGROUND_LOW_POWER mode as the app is placed |
| PlayerAudioGraph.PolicyAlwaysStops | app/src/main/java/com/hero/ziggymusic/audio/PlayerAudioGraph.kt:38-39 | since nothing in the graph sets the spatial or head flags, the policy always leaves the tracker stopped |
| PlayerAudioGraph.AttachHeadTracker | app/src/main/java/com/hero/ziggymusic/audio/PlayerAudioGraph.kt:45-49 | the tracker becomes the attached one and the flags stay consistent |
| PlayerAudioGraph.DetachHeadTracker | app/src/main/java/com/hero/ziggymusic/audio/PlayerAudioGraph.kt:51-57 | only the attached tracker is detached, and it is stopped; another one changes nothing |
| PlayerAudioGraph.OnAppForeground | app/src/main/java/com/hero/ziggymusic/audio/PlayerAudioGraph.kt:157-164 | the app is marked foreground and the engine told |
| PlayerAudioGraph.OnAppBackground | app/src/main/java/com/hero/ziggymusic/audio/PlayerAudioGraph.kt:175-182 | the app is marked background and the engine told |
| PlayerAudioGraph.SetKeepHeadTrackingInBackground | app/src/main/java/com/hero/ziggymusic/audio/PlayerAudioGraph.kt:184-187 | the keep-alive flag is stored with no native call |
| PlayerAudioGraph.OnPlaybackActiveChanged | app/src/main/java/com/hero/ziggymusic/audio/PlayerAudioGraph.kt:189-192 | the playback flag is stored with no native call |
| PlayerAudioGraph.ForwardIfChain | app/src/main/java/com/hero/ziggymusic/audio/PlayerAudioGraph.kt:222-235 | the test-tone calls reach the engine only when a chain exists |
| PlayerAudioGraph.Step | app/src/main/java/com/hero/ziggymusic/audio/PlayerAudioGraph.kt:45-235 | every public operation keeps the flags consistent |
| PlayerAudioGraph.Run | app/src/main/java/com/hero/ziggymusic/audio/PlayerAudioGraph.kt:45-235 | any sequence of public operations keeps the flags consistent |
| PlayerAudioGraph.NeverBothPaths | app/src/main/java/com/hero/ziggymusic/audio/PlayerAudioGraph.kt:108 | from a new graph, no sequence of operations reaches a state where Media3 and the preview both process |
| ChainHolder.OutputSampleRate | app/src/main/java/com/hero/ziggymusic/audio/AudioDspChainHolder.kt:60-66 | the device rate is the positive platform property, else 48000, so always positive |
| ChainHolder.EnsureInitialized | app/src/main/java/com/hero/ziggymusic/audio/AudioDspChainHolder.kt:21-44 | the same rate returns it with no calls; otherwise an existing chain is destroyed and one created at the new rate, and a create failure propagates and leaves the holder uninitialized at rate 0 |
| ChainHolder.EnsureInitializedIdempotent | app/src/main/java/com/hero/ziggymusic/audio/AudioDspChainHolder.kt:24-27 | a second call at the same rate changes nothing and cannot fail |
| ChainHolder.ReleaseForcesCreate | app/src/main/java/com/hero/ziggymusic/audio/AudioDspChainHolder.kt:21-54 | after release the next call creates the chain again |
| ChainHolder.Release | app/src/main/java/com/hero/ziggymusic/audio/AudioDspChainHolder.kt:49-54 | uninitialized is a no-op; otherwise the chain is destroyed and the holder ends uninitialized at rate 0 |
| SoundEq.SetBandGain | app/src/main/java/com/hero/ziggymusic/view/main/setting/SoundEQSettings.kt:28-33 | an index outside [0, 5) changes nothing and calls nothing; in range only that slot changes and the same gain is forwarded |
| SoundEq.MapEqProgressToDb | app/src/main/java/com/hero/ziggymusic/view/main/setting/SoundEQSettings.kt:93-97 | 0 dB when max <= 0; otherwise in [-12, 12], -12 at or below progress 0 and +12 at or above max |
| SoundEq.MapEqProgressMonotone | app/src/main/java/com/hero/ziggymusic/view/main/setting/SoundEQSettings.kt:93-97 | more progress never gives fewer dB |
| SoundEq.MapEqMidpointIsFlat | app/src/main/java/com/hero/ziggymusic/view/main/setting/SoundEQSettings.kt:95-96 | the slider midpoint maps to 0 dB |
| SoundEq.ApplySettingsFromPrefs | app/src/main/java/com/hero/ziggymusic/view/main/setting/SoundEQSettings.kt:75-91 | spatial is forwarded, head tracking only as spatial and head, then bands 0 to min(bandCount, 5)-1 get their stored progress (missing counts as 0) and the others are kept |
| SharedPreference.StoreList | app/src/main/java/com/hero/ziggymusic/utils/SharedPreference.kt:180-189 | the list's JSON goes under the key, JSON null for a null list, no other key changes |
| SharedPreference.LoadList | app/src/main/java/com/hero/ziggymusic/utils/SharedPreference.kt:191-206 | an absent key reads as null, a stored array as itself, and a stored JSON null fails the null check |
| SharedPreference.LoadWellFormed | app/src/main/java/com/hero/ziggymusic/utils/SharedPreference.kt:191-206 | a file without JSON null never fails to load |
| SharedPreference.RemoveFirst | app/src/main/java/com/hero/ziggymusic/utils/SharedPreference.kt:212 | list removal drops the first occurrence only, or nothing when absent |
| SharedPreference.RemoveFirstOnce | app/src/main/java/com/hero/ziggymusic/utils/SharedPreference.kt:212 | removing an item present once leaves none and one fewer element |
| SharedPreference.AddList | app/src/main/java/com/hero/ziggymusic/utils/SharedPreference.kt:208-216 | an absent key gets [item]; a present list loses its first copy of the item and gets it appended; no other key changes |
| SharedPreference.AddListMovesToEnd | app/src/main/java/com/hero/ziggymusic/utils/SharedPreference.kt:208-216 | after addList the item is last, the others keep their order, the list grows by one if the item was new and keeps its length if it was there once |
| SharedPreference.RemoveList | app/src/main/java/com/hero/ziggymusic/utils/SharedPreference.kt:218-224 | an absent key writes nothing; otherwise the first copy of the item is dropped |
| SharedPreference.DeleteListAsWritten | app/src/main/java/com/hero/ziggymusic/utils/SharedPreference.kt:226-230 | a present key gets an empty list; an absent key gets JSON null |
| SharedPreference.DeleteAbsentBreaksLoad | app/src/main/java/com/hero/ziggymusic/utils/SharedPreference.kt:226-230 | after deleting a never-stored key, loading or adding to it fails |
| SharedPreference.DeleteList | app/src/main/java/com/hero/ziggymusic/utils/SharedPreference.kt:226-230 | the corrected delete: a present key gets an empty list, an absent key stays absent |
| SharedPreference.OperationsKeepWellFormed | app/src/main/java/com/hero/ziggymusic/utils/SharedPreference.kt:180-230 | add, remove and the corrected delete keep the file free of JSON null, so later loads never fail |
| LocalStore.IndexOf | app/src/main/java/com/hero/ziggymusic/database/LocalStore.kt:32 | the first index whose element equals the given one, or none |
| LocalStore.Upsert | app/src/main/java/com/hero/ziggymusic/database/LocalStore.kt:31-40 | when an element with the same identity is present, exactly the first such position is overwritten and every other position is unchanged; a new identity is appended; identities at the old positions are kept |
| LocalStore.AddAll | app/src/main/java/com/hero/ziggymusic/database/LocalStore.kt:27-41 | a null list changes nothing; otherwise each element is upserted in turn |
| LocalStore.UpsertAll | app/src/main/java/com/hero/ziggymusic/database/LocalStore.kt:31-40 | the length never decreases and grows by at most the input's, and existing positions keep their identity |
| LocalStore.UpsertAllKeys | app/src/main/java/com/hero/ziggymusic/database/LocalStore.kt:31-40 | the resulting identities are the old ones followed by the distinct new ones in input order |
| LocalStore.AddAllGrowth | app/src/main/java/com/hero/ziggymusic/database/LocalStore.kt:31-40 | the list grows by exactly the distinct input elements not already present, every input element is present afterwards, and a duplicate-free list stays duplicate-free |
| LocalStore.UpsertAllKeepsOthers | app/src/main/java/com/hero/ziggymusic/database/LocalStore.kt:32-39 | an element not matched by any input is left where it was |
| LocalStore.LastWriteWins | app/src/main/java/com/hero/ziggymusic/database/LocalStore.kt:32-39 | the last input element of each identity is in the result |
| PlayerModel.FindById | app/src/main/java/com/hero/ziggymusic/database/music/entity/PlayerModel.kt:20-23 | the first track with the id, or none when no track has it |
| PlayerModel.ReplaceMusicList | app/src/main/java/com/hero/ziggymusic/database/music/entity/PlayerModel.kt:11-14 | the list becomes the argument and the current track is kept |
| PlayerModel.UpdateCurrentMusic | app/src/main/java/com/hero/ziggymusic/database/music/entity/PlayerModel.kt:16-18 | the current track becomes the argument and the list is kept |
| PlayerModel.ChangedMusic | app/src/main/java/com/hero/ziggymusic/database/music/entity/PlayerModel.kt:20-28 | the current track becomes the first with the id, or stays when none has it; the list is kept |
| PlayerModel.ChangedMusicIdempotent | app/src/main/java/com/hero/ziggymusic/database/music/entity/PlayerModel.kt:20-28 | selecting the same id twice is the same as once |
| PlayerModel.ChangedMusicSelects | app/src/main/java/com/hero/ziggymusic/database/music/entity/PlayerModel.kt:20-28 | with distinct ids, selecting a track's id makes it current |
| PlayerScreen.NextRepeatMode | app/src/main/java/com/hero/ziggymusic/view/main/player/PlayerFragment.kt:374-387 | the repeat button always changes the mode, OFF going to ALL |
| PlayerScreen.RepeatCycle | app/src/main/java/com/hero/ziggymusic/view/main/player/PlayerFragment.kt:374-387 | three presses return to the start and two never do: OFF, ALL, ONE is a 3-cycle |
| PlayerScreen.PressRepeat | app/src/main/java/com/hero/ziggymusic/view/main/player/PlayerFragment.kt:374-387 | only the repeat mode changes |
| PlayerScreen.PressShuffle | app/src/main/java/com/hero/ziggymusic/view/main/player/PlayerFragment.kt:361-372 | only the shuffle flag changes, and it flips |
| PlayerScreen.ShuffleTwice | app/src/main/java/com/hero/ziggymusic/view/main/player/PlayerFragment.kt:361-372 | two presses restore the player |
| PlayerScreen.SelectShown | app/src/main/java/com/hero/ziggymusic/view/main/player/PlayerFragment.kt:426-429 | the shown track is the one with the player's media id, else the one with the stored key, else the first, and none only for an empty list |
| PlayerScreen.IndexOf | app/src/main/java/com/hero/ziggymusic/view/main/player/PlayerFragment.kt:710 | the first index of the track, or -1 exactly when it is absent |
| PlayerScreen.MediaIds | app/src/main/java/com/hero/ziggymusic/view/main/player/PlayerFragment.kt:696-708 | the queue holds the tracks' ids in list order |
| PlayerScreen.PlayMusic | app/src/main/java/com/hero/ziggymusic/view/main/player/PlayerFragment.kt:690-717 | the track becomes current, the queue is the list, and playback seeks to position 0 at max(indexOf, 0), which is the track's index when it is in the list and never negative |
| PlayerScreen.OnMusicList | app/src/main/java/com/hero/ziggymusic/view/main/player/PlayerFragment.kt:417-443 | the list is stored, the shown track becomes current, and the player is loaded only when it has no current item and the list is non-empty |
| PlayerScreen.OnMusicListStable | app/src/main/java/com/hero/ziggymusic/view/main/player/PlayerFragment.kt:417-443 | for any non-empty list, a second delivery of the same list changes neither the player nor the shown track |
| PlayerScreen.ChangeMusic | app/src/main/java/com/hero/ziggymusic/view/main/player/PlayerFragment.kt:445-457 | an unknown id changes nothing; a known one seeks to its first index in the screen's list at 0, which Media3 ignores when that index is past the end of a non-empty queue, and sets play-when-ready; queue, state and settings kept |
| PlayerScreen.ChangeMusicSelects | app/src/main/java/com/hero/ziggymusic/view/main/player/PlayerFragment.kt:445-457 | with distinct ids, changing to a track makes it the current media item |
| PlayerScreen.OnPlaybackStateChanged | app/src/main/java/com/hero/ziggymusic/view/main/player/PlayerFragment.kt:578-592 | the new state is recorded; when the last track ends with repeat off the player seeks to (0, 0) and play-when-ready is cleared; otherwise nothing else changes |
| PlayerScreen.RewindLandsOnFirst | app/src/main/java/com/hero/ziggymusic/view/main/player/PlayerFragment.kt:584-591 | the rewind lands on the first track, and a further end event is then ignored |
| PlayerScreen.UpdateSeek | app/src/main/java/com/hero/ziggymusic/view/main/player/PlayerFragment.kt:638-669 | a negative duration counts as 0; minutes*60 + seconds is the whole seconds with seconds in [0, 60); bar max and progress are the whole seconds while they fit an Int |
| PlayerScreen.ProgressWithinBar | app/src/main/java/com/hero/ziggymusic/view/main/player/PlayerFragment.kt:653-667 | a position within the duration never puts the progress beyond the bar |
| Transport.CurrentMediaId | app/src/main/java/com/hero/ziggymusic/view/main/player/PlayerFragment.kt:426 | the current media id exists exactly when the index is valid, and is one of the queued ids |
| Transport.SeekTo | app/src/main/java/com/hero/ziggymusic/view/main/player/PlayerFragment.kt:453-454 | a seek to an index the queue holds, or on an empty queue, moves index and position; one past the end of a non-empty queue changes nothing; nothing but index and position ever changes |
| Transport.SeekKeepsCurrentItem | app/src/main/java/com/hero/ziggymusic/view/main/player/PlayerFragment.kt:445-457 | a seek never leaves a player with a current item without one, and a seek past the end keeps the current item |
| Transport.Play | app/src/main/java/com/hero/ziggymusic/view/main/player/PlayerFragment.kt:455 | play() sets only play-when-ready, so the player is playing afterwards exactly when it is ready and unsuppressed |
| Transport.Pause | app/src/main/java/com/hero/ziggymusic/view/main/player/PlayerFragment.kt:590 | pause() clears only play-when-ready, so the player is not playing afterwards |
| MainEvents.PrevIndex | app/src/main/java/com/hero/ziggymusic/view/main/MainActivity.kt:228-237 | SKIP_PREV targets the previous index when valid, else the last track under repeat-all and 0 otherwise; for a non-empty queue it is always a valid index, and it is negative exactly for an empty queue under repeat-all |
| MainEvents.NextIndex | app/src/main/java/com/hero/ziggymusic/view/main/MainActivity.kt:248-252 | SKIP_NEXT targets the next index when valid, else 0, so the last track wraps to 0; for a non-empty queue it is always a valid index |
| MainEvents.SkipInverse | app/src/main/java/com/hero/ziggymusic/view/main/MainActivity.kt:228-252 | inside the queue next and previous undo each other, and under repeat-all everywhere |
| MainEvents.PrevStopsAtFirst | app/src/main/java/com/hero/ziggymusic/view/main/MainActivity.kt:232-236 | without repeat-all, SKIP_PREV on the first track stays there |
| MainEvents.DoEvent | app/src/main/java/com/hero/ziggymusic/view/main/MainActivity.kt:208-259 | PLAY/PAUSE sets play-when-ready to the negation of isPlaying (play-when-ready, ready and unsuppressed); skips seek to the target at 0; SKIP_PREV on an empty queue under repeat-all is rejected before the service restart; the other known events restart the service and any other event changes nothing |
| MainEvents.PlayPauseTwice | app/src/main/java/com/hero/ziggymusic/view/main/MainActivity.kt:216-224 | two play/pause events restore the player exactly when it wanted to play or was ready and unsuppressed |
| MainEvents.PlayPauseKeepsWaitingPlayer | app/src/main/java/com/hero/ziggymusic/view/main/MainActivity.kt:216-224 | a player that wants to play but is not playing yet (buffering, say) still wants to play after PLAY or PAUSE |
| MainEvents.NextThenPrevReturns | app/src/main/java/com/hero/ziggymusic/view/main/MainActivity.kt:225-252 | under repeat-all, next then previous returns to the same track at its start |
| Timer.TimerFields | app/src/main/java/com/hero/ziggymusic/view/main/nowplaying/NowPlayingActivity.kt:171-172 | for a non-negative count, minutes and seconds are both in [0, 60): the minute and second within the hour |
| Timer.SecondsString | app/src/main/java/com/hero/ziggymusic/view/main/nowplaying/NowPlayingActivity.kt:174-178 | seconds in [0, 60) render as exactly two digits that read back as the value |
| Timer.Label | app/src/main/java/com/hero/ziggymusic/view/main/nowplaying/NowPlayingActivity.kt:180 | the label's parts before and after the colon read back as the minutes and the two-digit seconds |
| Timer.MilliSecondsToTimer | app/src/main/java/com/hero/ziggymusic/view/main/nowplaying/NowPlayingActivity.kt:167-183 | for a non-negative count the label is m:ss whose parts read back as the minute and second within the hour |
| Timer.HoursDiscarded | app/src/main/java/com/hero/ziggymusic/view/main/nowplaying/NowPlayingActivity.kt:171-172 | ms and ms + 3600000 render identically |
| Timer.TimerDeterminedByFields | app/src/main/java/com/hero/ziggymusic/view/main/nowplaying/NowPlayingActivity.kt:167-183 | two labels are equal exactly when the counts fall on the same minute and second of their hours |
| Timer.TimerExampleZero | app/src/main/java/com/hero/ziggymusic/view/main/nowplaying/NowPlayingActivity.kt:167-183 | 0 ms renders as 0:00 |
| Timer.TimerExampleOneMinute | app/src/main/java/com/hero/ziggymusic/view/main/nowplaying/NowPlayingActivity.kt:167-183 | 65000 ms renders as 1:05 |
| PlaybackContent.ValueOf | app/src/main/java/com/hero/ziggymusic/view/main/player/PlaybackStateStore.kt:52 | a name maps to the type with exactly that name, or to none when no type has it |
| PlaybackContent.ValueOfName | app/src/main/java/com/hero/ziggymusic/view/main/player/PlaybackContentType.kt:3-23 | each type's name maps back to it |
| PlaybackContent.KeysDistinct | app/src/main/java/com/hero/ziggymusic/view/main/player/PlaybackContentType.kt:8-22 | a type's id, position and play-when-ready keys are three distinct keys |
| PlaybackContent.KeysDisjoint | app/src/main/java/com/hero/ziggymusic/view/main/player/PlaybackContentType.kt:8-22 | two types share no key, and no type key is a global key of the store |
| LastPlayed.Make | app/src/main/java/com/hero/ziggymusic/view/main/player/model/LastPlayedMedia.kt:13-24 | construction succeeds exactly for a non-blank id, a non-negative position and a positive timestamp, failing on the first violated check in declaration order |
| LastPlayed.MakeWithDefaults | app/src/main/java/com/hero/ziggymusic/view/main/player/model/LastPlayedMedia.kt:16-18 | the defaults are position 0, not playing, timestamp now |
| PlaybackStateStore.SaveLastPlayedId | app/src/main/java/com/hero/ziggymusic/view/main/player/PlaybackStateStore.kt:19-28 | a blank id writes nothing; otherwise the type's id key, the last-type key and the timestamp are written and nothing else |
| PlaybackStateStore.SaveIdKeepsPosition | app/src/main/java/com/hero/ziggymusic/view/main/player/PlaybackStateStore.kt:23-27 | saving an id keeps that type's position and play-when-ready as they were |
| PlaybackStateStore.SaveLastPlayedMedia | app/src/main/java/com/hero/ziggymusic/view/main/player/PlaybackStateStore.kt:34-45 | the type's three keys and the two global keys get the media's values (the clock when its timestamp is not positive), and nothing else changes |
| PlaybackStateStore.LoadLastPlayedMedia | app/src/main/java/com/hero/ziggymusic/view/main/player/PlaybackStateStore.kt:50-67 | no last type, an unknown type name or no id gives null, and with all three present the result is never null; the media read back has the stored type and id, the stored or default position and play-when-ready, the stored save time when positive and now otherwise, and is valid |
| PlaybackStateStore.LoadLastPlayedId | app/src/main/java/com/hero/ziggymusic/view/main/player/PlaybackStateStore.kt:72-73 | exactly what the type's id key holds, whatever the last type |
| PlaybackStateStore.SaveLoadRoundTrip | app/src/main/java/com/hero/ziggymusic/view/main/player/PlaybackStateStore.kt:34-67 | loading after saving a valid media gives it back field for field |
| PlaybackStateStore.SaveLeavesOtherTypes | app/src/main/java/com/hero/ziggymusic/view/main/player/PlaybackStateStore.kt:37-44 | saving for one type leaves another type's id, position and play-when-ready as they were |
| PlaybackStateStore.SaveIdLoadId | app/src/main/java/com/hero/ziggymusic/view/main/player/PlaybackStateStore.kt:19-28 | loading the id after saving a non-blank one gives it back |

## Left out

- Oboe stream building, burst sizing and callback registration are left out. `Start` takes the outcome of opening and starting the stream, and the burst size, as a `StreamEnv` parameter.
- The JNI glue is left out: AudioDspChainJni.cpp, BufferAddressHelper and AudioProcessorChainController. A direct-buffer address failure in `queueInput` is not modelled.
- Concurrency is left out: atomics, memory orders, mutexes, `shared_ptr` swaps, and the double-checked locking in PlayerAudioGraph.
  - Each call is one sequential step.
  - The producer thread writing the read counter during enqueue (a real race between producer and consumer) cannot show up in this model.
  - The chain the engine holds is a value, not shared with the JNI side.
- No in-flight or quiescence guard around chain destruction exists in the code; the model has none.
- IEEE float rounding is left out: samples, gains and angles are reals.
- The Superpowered Filter, Reverb and Spatializer are uninterpreted parameters. So are `powf`/`expf`/dB-to-linear and `sin`.
- AudioDspChain.ApplyEQ: each filter, reverb and spatializer object keeps internal state between calls. The model carries that state as an opaque `Memory` value: a render takes the unit's memory and returns the new one. It never looks inside it. So the EQ's right channel is stated independent of the left only for filters whose output ignores their memory (`EqRightIgnoresLeftWhenMemoryless`). One filter object serves both channels, so in general the left channel can reach the right.
- AudioDspChain.Process: its own contract states the length, the settings, the rate and the scratch, not the output. The output is pinned pair by pair by lemmas: `ProcessDryPath` (compressor after EQ), `ProcessCompressorThenSpatial` (spatial after compressor), `ProcessSpatialThenReverb` and `ProcessReverbLast` (reverb last), and `ProcessBypassIsIdentity`. No lemma states the output with every stage active at once, since each active stage is an external primitive.
- AudioDspChain.Stages: like `Process`, its contract states only the chain-side effects; the lemmas above state which stage consumes which stage's output.
- AudioDspChain.ApplyCompressor: the envelope and gain computation of the active branch (ratio > 1) is one external primitive. Only its length and the fact that only the envelope changes are stated.
- The ITD delay buffers allocated at AudioDspChain.cpp:55-59 and 104-108 are never read, so they are not modelled.
- The spatial fields, `eqGainsDb` and the compressor times are not initialised in AudioDspChain.cpp. The header that would hold their initialisers is stale, so the model starts them at off and 0.
- PreviewRing.Push: the 64-bit counters are unbounded; their wrap after 2^64 frames is not modelled. `index & (capacity-1)` is written `index mod capacity`, which is equal for a power-of-two capacity.
- AudioIoEngine.Tone: the sine values come from the `sin` parameter. Only left = right, the first sample and the phase range are stated.
- AudioIOEngine `onForeground`/`onBackground` are empty in the code. They appear only as recorded calls from PlayerAudioGraph.
- HeadTracker.OnSensorChanged: the rotation-vector to yaw computation (quaternion, rotation matrix, remap, orientation) is left out. The yaw in degrees is a parameter. Sensor availability and registration success are parameters too.
- Angles.Normalize180: the code's loops leave -180 as is, so the result lies in [-180, 180].
- Angles.Normalize180: the float loops of AudioDspChain.cpp:269-273 never end for an infinite angle, and above about 2^33 degrees subtracting 360 no longer changes a float. Over the reals the loops always end, so the model has neither case. The azimuth reaching them is not clamped by `setSpatialPosition`.
- ProcessorAdapter.Configure: the code records the format, encoding and channel count before validating. A rejected format therefore still makes the adapter active (`RejectedFormatStaysActive`). This is modelled as written.
- ProcessorAdapter.QueueInput: when the frame width wraps to a positive value (for example 2^30 + 1 float channels), the code counts frames by the wrapped width and then sizes its buffers from further wrapping products. What follows depends on the capacity of buffers left by earlier calls, which the model does not carry. The model stops there with `WidthOverflow` (`WrappedWidthFaults`).
- ProcessorAdapter.QueueInput: for 16-bit input of 2^30 bytes or more, `samples * 4` wraps negative, the float buffer is kept, and the conversion loop throws `IndexOutOfBoundsException`. The model returns `FloatBytesOverflow` there (`LargePcm16InputFaults`). The float samples the loop writes before it throws are not modelled; no output carries them.
- ProcessorAdapter.GetOutput: for float input the code hands out `floatBuffer` itself, so the buffer returned by `getOutput` is the one the next `queueInput` overwrites. Media3's buffer contract allows this. The model's `Output` is an independent value and does not model the aliasing.
- AudioIoEngine.RingCapacity computes the size through the reference definition `LeastPowerOfTwoAtLeast`. `RingCapacityIsNextPow2` proves it equal to the code's bit-smearing `nextPow2` of the clamped target.
- ProcessorAdapter.InputSamples: little-endian float decoding is a parameter (`FloatDecoder`). Only PCM16 samples are bounded.
- SoundEQSettings `init` (creating the platform Equalizer/BassBoost effects) is left out.
- `setCompressor`, `setReverb`, `setSpatialEnabled`, `setHeadTrackingEnabled`, `setHeadTrackingYaw` and `setSpatialPosition` are left out at SoundEQSettings.kt:35-69, where they are pure forwards to the chain setters modelled in `AudioDspChain`.
- The Gson and SharedPreferences internals are left out. The preference file is a map from key to JSON array or JSON `null`. The last-played store is three typed maps.
- `System.currentTimeMillis` and the device-rate property are parameters.
- PlayerScreen.PressShuffle: the random order Media3 picks when shuffle is on is not modelled; only the flag is.
- The `_binding` null guards, view updates, icons, colours, logging and Bluetooth/volume UI of the screens are left out. Only the player-state effects are modelled.
- MainEvents.PrevIndex: for an empty queue SKIP_PREV targets -1 under repeat-all and 0 otherwise. The function computes this, but the contract bounds the target only for a non-empty queue.
- Timer.MilliSecondsToTimer: for a negative count the label carries Kotlin's negative fields. The function computes them, but the contract describes only non-negative counts.
- Transport: the Media3 player changes its playback state on its own: a seek makes it buffer, and the end of the media ends it. The model takes the state and the suppression flag as the player reports them. Only the state listener (`OnPlaybackStateChanged`) records a new state.
- Transport.SeekTo: Media3 1.x ignores a seek past the end of a non-empty queue, and the model follows it. Older ExoPlayer versions throw `IllegalSeekPositionException` there. The library version comes from a version catalog that is not part of this model.
- MainEvents.DoEvent: `seekTo(-1, 0)` on an empty queue under repeat-all throws `IllegalArgumentException`. The model ends the handler there, with the player unchanged and no service restart. What the event bus does with the exception is not modelled.
- PlayerScreen.UpdateSeek: the bar values are `Long`-to-`Int` truncations. They are stated equal to the whole seconds only while those fit an `Int`.
- Text.IsBlank: whitespace is the Latin-1 set; other Unicode whitespace that Kotlin's `isBlank` accepts is not modelled.
- Room, Hilt, the repositories, MusicService, the fragments' other views, and SettingFragment (whose slider mapping duplicates SoundEQSettings) are outside this model.

## Findings

| source | as written | input that shows it | evidently intended | confidence | as-written member | corrected member |
|---|---|---|---|---|---|---|
| app/src/main/java/com/hero/ziggymusic/utils/SharedPreference.kt:226-230 | `deleteList` stores whatever `loadList` returned, and for a key never stored that is `null`, which Gson writes as the JSON text `null` | `deleteList(k)` on a key never stored, then `loadList(k)` or `addList(k, x)`: the JSON `null` is read back into a non-null list type and fails | leave an absent key absent, so deleting a missing list is a no-op | medium, not executed | SharedPreference.DeleteListAsWritten (exhibited by SharedPreference.DeleteAbsentBreaksLoad) | SharedPreference.DeleteList (proved by SharedPreference.OperationsKeepWellFormed) |

=== FILE: angles.dfy ===
/** The degree wrap used by the spatial stage (AudioDspChain.cpp) and by
    the head tracker (HeadTracker.kt): two loops that subtract, then add,
    whole turns until the angle lies in [-180, 180]. */
module Angles {

  /** `k` whole turns, in degrees. */
  function Turns(k: int): real {
    k as real * 360.0
  }

  /** `x` is a whole number of turns (a multiple of 360 degrees). */
  ghost predicate IsWholeTurns(x: real) {
    exists k: int :: x == Turns(k)
  }

  lemma NoTurns()
    ensures IsWholeTurns(0.0)
  {
    assert 0.0 == Turns(0);
  }

  lemma WholeTurnsNeg(x: real)
    requires IsWholeTurns(x)
    ensures IsWholeTurns(-x)
  {
    var k :| x == Turns(k);
    assert -x == Turns(-k);
  }

  lemma WholeTurnsAdd(x: real, y: real)
    requires IsWholeTurns(x) && IsWholeTurns(y)
    ensures IsWholeTurns(x + y)
  {
    var k :| x == Turns(k);
    var m :| y == Turns(m);
    assert x + y == Turns(k + m);
  }

  /** One turn more or less is still a whole number of turns. */
  lemma WholeTurnsShift(x: real)
    requires IsWholeTurns(x)
    ensures IsWholeTurns(x + 360.0) && IsWholeTurns(x - 360.0)
  {
    var k :| x == Turns(k);
    assert x + 360.0 == Turns(k + 1);
    assert x - 360.0 == Turns(k - 1);
  }

  /** Less than a turn away from zero and a whole number of turns: zero. */
  lemma WholeTurnsSmall(x: real)
    requires IsWholeTurns(x) && -360.0 < x < 360.0
    ensures x == 0.0
  {
    var k :| x == Turns(k);
  }

  /** Two angles in [-180, 180] that differ by whole turns are equal unless
      one of them is an end point. */
  lemma CongruentInRange(x: real, y: real)
    requires IsWholeTurns(x - y)
    requires -180.0 <= x <= 180.0 && -180.0 < y < 180.0
    ensures x == y
  {
    WholeTurnsSmall(x - y);
  }

  /** `while (d > 180) d -= 360` */
  function SubtractTurns(a: real): (r: real)
    ensures r <= 180.0
    ensures a <= 180.0 ==> r == a
    ensures a > 180.0 ==> r > -180.0
    ensures IsWholeTurns(a - r)
    decreases if a <= 180.0 then 0 else (a - 180.0).Floor + 1
  {
    if a > 180.0 then
      var r := SubtractTurns(a - 360.0);
      WholeTurnsShift((a - 360.0) - r);
      assert a - r == ((a - 360.0) - r) + 360.0;
      r
    else
      NoTurns();
      a
  }

  /** `while (d < -180) d += 360` */
  function AddTurns(a: real): (r: real)
    ensures r >= -180.0
    ensures a >= -180.0 ==> r == a
    ensures a < -180.0 ==> r < 180.0
    ensures IsWholeTurns(r - a)
    decreases if a >= -180.0 then 0 else (-180.0 - a).Floor + 1
  {
    if a < -180.0 then
      var r := AddTurns(a + 360.0);
      WholeTurnsShift(r - (a + 360.0));
      assert r - a == (r - (a + 360.0)) + 360.0;
      r
    else
      NoTurns();
      a
  }

  /** The two loops in sequence: the result lies in [-180, 180] (both ends
      reachable: -180 is left as it is) and differs from the input by whole turns. */
  function Normalize180(a: real): (r: real)
    ensures -180.0 <= r <= 180.0
    ensures IsWholeTurns(a - r)
    ensures -180.0 <= a <= 180.0 ==> r == a
  {
    var s := SubtractTurns(a);
    var r := AddTurns(s);
    WholeTurnsNeg(r - s);
    WholeTurnsAdd(a - s, s - r);
    assert a - r == (a - s) + (s - r);
    r
  }

  /** Normalizing an angle already in range changes nothing, so the wrap is idempotent. */
  lemma Normalize180Idempotent(a: real)
    ensures Normalize180(Normalize180(a)) == Normalize180(a)
  {
  }
}

=== FILE: audio.dfy ===
/** Interleaved stereo audio as a sequence of frames. A buffer of `n`
    frames stands for the `2 * n` interleaved floats (L, R, L, R, ...) of the
    source; samples are reals, not IEEE floats. */
module Audio {

  datatype Frame = Frame(left: real, right: real)

  const Silence: Frame := Frame(0.0, 0.0)

  /** `n` frames of silence (a `memset` to zero). */
  function Zeros(n: nat): (z: seq<Frame>)
    ensures |z| == n
    ensures forall i :: 0 <= i < n ==> z[i] == Silence
  {
    seq(n, _ => Silence)
  }

  /** The interleaved float layout of a frame buffer. */
  function Interleave(fs: seq<Frame>): (xs: seq<real>)
    ensures |xs| == 2 * |fs|
    ensures forall i :: 0 <= i < |fs| ==> xs[2 * i] == fs[i].left && xs[2 * i + 1] == fs[i].right
  {
    if |fs| == 0 then [] else [fs[0].left, fs[0].right] + Interleave(fs[1..])
  }

  /** Reads `n` frames out of an interleaved float buffer. */
  function Deinterleave(xs: seq<real>, n: nat): (fs: seq<Frame>)
    requires 2 * n <= |xs|
    ensures |fs| == n
    ensures forall i :: 0 <= i < n ==> fs[i] == Frame(xs[2 * i], xs[2 * i + 1])
  {
    seq(n, i requires 0 <= i < n => Frame(xs[2 * i], xs[2 * i + 1]))
  }

  /** De-interleaving undoes interleaving. */
  lemma DeinterleaveInterleave(fs: seq<Frame>)
    ensures Deinterleave(Interleave(fs), |fs|) == fs
  {
  }

  /** The left channel of a buffer (the `leftBuffer` scratch). */
  function Lefts(fs: seq<Frame>): (l: seq<real>)
    ensures |l| == |fs|
    ensures forall i :: 0 <= i < |fs| ==> l[i] == fs[i].left
  {
    seq(|fs|, i requires 0 <= i < |fs| => fs[i].left)
  }

  /** The right channel of a buffer (the `rightBuffer` scratch). */
  function Rights(fs: seq<Frame>): (r: seq<real>)
    ensures |r| == |fs|
    ensures forall i :: 0 <= i < |fs| ==> r[i] == fs[i].right
  {
    seq(|fs|, i requires 0 <= i < |fs| => fs[i].right)
  }

  /** Re-interleaves two channels of equal length. */
  function Join(l: seq<real>, r: seq<real>): (fs: seq<Frame>)
    requires |l| == |r|
    ensures |fs| == |l|
    ensures forall i :: 0 <= i < |l| ==> fs[i] == Frame(l[i], r[i])
  {
    seq(|l|, i requires 0 <= i < |l| => Frame(l[i], r[i]))
  }

  /** Splitting a buffer into channels and joining them again gives it back. */
  lemma JoinSplit(fs: seq<Frame>)
    ensures Join(Lefts(fs), Rights(fs)) == fs
  {
  }

  /** Joining two channels and splitting the result gives them back. */
  lemma SplitJoin(l: seq<real>, r: seq<real>)
    requires |l| == |r|
    ensures Lefts(Join(l, r)) == l && Rights(Join(l, r)) == r
  {
  }

  /** Multiplies both channels of every frame by `g`. */
  function Scale(fs: seq<Frame>, g: real): (out: seq<Frame>)
    ensures |out| == |fs|
    ensures forall i :: 0 <= i < |fs| ==> out[i] == Frame(g * fs[i].left, g * fs[i].right)
  {
    seq(|fs|, i requires 0 <= i < |fs| => Frame(g * fs[i].left, g * fs[i].right))
  }

  /** The last `n` elements of `s` (all of `s` when it is shorter). */
  function LastN<T>(s: seq<T>, n: nat): (r: seq<T>)
    ensures |r| == if |s| <= n then |s| else n
    ensures r == s[|s| - |r|..]
  {
    if |s| <= n then s else s[|s| - n..]
  }

  /** Keeping the last `n` of a suffix first and then the last `n` of the
      whole is the same as keeping the last `n` of the whole. */
  lemma LastNOfSuffix<T>(a: seq<T>, b: seq<T>, n: nat)
    ensures LastN(a + LastN(b, n), n) == LastN(a + b, n)
  {
    if |b| > n {
      var t := a + LastN(b, n);
      assert LastN(t, n) == b[|b| - n..];
      assert (a + b)[|a + b| - n..] == b[|b| - n..];
    }
  }
}

=== FILE: audio_io_engine.dfy ===
/** The native preview engine `AudioIOEngine` (AudioIoEngine.cpp/.h): an
    output stream whose callback renders either a test tone or frames taken
    from the preview ring, then runs the effects chain over them. The Oboe
    stream is reduced to what it reports back (whether opening and starting
    succeeded, its burst size, channel count and rate). */
module AudioIoEngine {
  import opened Audio
  import opened Wrappers
  import opened Externals
  import opened Numeric
  import PreviewRing
  import Dsp = AudioDspChain

  const DefaultSampleRate: int := 48000
  const DefaultToneHz: real := 220.0
  const DefaultToneLevel: real := 0.12
  const MinToneHz: real := 20.0
  const MaxToneHz: real := 20000.0
  /** The ring is sized at 64 callbacks' worth of frames, clamped to [2048, 32768]. */
  const CallbacksBuffered: int := 64
  const MinRingFrames: int := 2048
  const MaxRingFrames: int := 32768
  /** `2.0 * M_PI` as a double. */
  const TwoPi: real := 6.283185307179586

  datatype Engine = Engine(
    running: bool,
    hasStream: bool,
    chain: Option<Dsp.Chain>,
    toneEnabled: bool,
    toneHz: real,
    toneLevel: real,
    ring: PreviewRing.Ring,
    producerRate: int,
    rateWarned: bool,
    phase: real,
    currentSampleRate: int)

  predicate IsPowerOfTwo(n: nat) {
    n == 1 || (n >= 2 && n % 2 == 0 && IsPowerOfTwo(n / 2))
  }

  /** A ring size `start` can choose. */
  predicate RingSize(n: nat) {
    IsPowerOfTwo(n) && MinRingFrames <= n <= MaxRingFrames
  }

  /** What every operation preserves: a well-formed ring whose size, once
      allocated, is one `start` chooses; a valid chain; tone parameters in
      range; and a running engine always owns a stream and a ring. */
  predicate Valid(e: Engine) {
    && PreviewRing.Valid(e.ring)
    && (e.ring.capacity > 0 ==> RingSize(e.ring.capacity))
    && (e.chain.Some? ==> Dsp.Valid(e.chain.value))
    && MinToneHz <= e.toneHz <= MaxToneHz
    && 0.0 <= e.toneLevel <= 1.0
    && (e.running ==> e.hasStream && e.ring.capacity > 0)
  }

  /** A newly constructed engine (the field initialisers of the header). */
  function NewEngine(): (e: Engine)
    ensures Valid(e)
    ensures !e.running && !e.hasStream && e.chain.None?
    ensures !e.toneEnabled && e.toneHz == DefaultToneHz && e.toneLevel == DefaultToneLevel
    ensures e.ring.capacity == 0 && e.ring.writeIndex == 0 && e.ring.readIndex == 0
    ensures e.currentSampleRate == DefaultSampleRate && e.phase == 0.0
  {
    Engine(false, false, None, false, DefaultToneHz, DefaultToneLevel,
           PreviewRing.Unallocated, 0, false, 0.0, DefaultSampleRate)
  }

  // ---------------------------------------------------------------------
  // Ring sizing

  /** `nextPow2`: round up to a power of two by smearing the highest set bit
      of `v - 1` downwards. 0 gives 1; up to 2^31 the result is the least
      power of two not below `v`; above 2^31 the sum wraps to 0. */
  function NextPow2(v: bv32): (r: bv32)
    ensures v == 0 ==> r == 1
    ensures 0 < v <= 0x8000_0000 ==> r != 0 && r & (r - 1) == 0 && v <= r && r >> 1 < v
    ensures v > 0x8000_0000 ==> r == 0
  {
    if v == 0 then 1
    else
      var a := v - 1;
      var b := a | (a >> 1);
      var c := b | (b >> 2);
      var d := c | (c >> 4);
      var e := d | (d >> 8);
      var f := e | (e >> 16);
      f + 1
  }

  /** The least power of two not below `v`, on unbounded integers: the
      property `NextPow2` establishes for 32-bit inputs up to 2^31. */
  function LeastPowerOfTwoAtLeast(v: nat): (r: nat)
    ensures IsPowerOfTwo(r) && v <= r
    ensures r == 1 || r / 2 < v
    decreases v
  {
    if v <= 1 then 1
    else
      var h := LeastPowerOfTwoAtLeast((v + 1) / 2);
      assert IsPowerOfTwo(2 * h) by { assert (2 * h) / 2 == h; }
      2 * h
  }

  /** Of two powers of two, one below twice the other is at most the other. */
  lemma {:induction false} PowerOfTwoBelowDouble(n: nat, m: nat)
    requires IsPowerOfTwo(n) && IsPowerOfTwo(m) && n < 2 * m
    ensures n <= m
    decreases m
  {
    if n > 1 && m > 1 {
      PowerOfTwoBelowDouble(n / 2, m / 2);
    }
  }

  /** Every power of two a 32-bit `nextPow2` can return. */
  lemma PowersOfTwo32()
    ensures IsPowerOfTwo(1) && IsPowerOfTwo(2) && IsPowerOfTwo(4) && IsPowerOfTwo(8)
    ensures IsPowerOfTwo(16) && IsPowerOfTwo(32) && IsPowerOfTwo(64) && IsPowerOfTwo(128)
    ensures IsPowerOfTwo(256) && IsPowerOfTwo(512) && IsPowerOfTwo(1024) && IsPowerOfTwo(2048)
    ensures IsPowerOfTwo(4096) && IsPowerOfTwo(8192) && IsPowerOfTwo(16384) && IsPowerOfTwo(32768)
    ensures IsPowerOfTwo(65536) && IsPowerOfTwo(131072) && IsPowerOfTwo(262144) && IsPowerOfTwo(524288)
    ensures IsPowerOfTwo(1048576) && IsPowerOfTwo(2097152) && IsPowerOfTwo(4194304) && IsPowerOfTwo(8388608)
    ensures IsPowerOfTwo(16777216) && IsPowerOfTwo(33554432) && IsPowerOfTwo(67108864) && IsPowerOfTwo(134217728)
    ensures IsPowerOfTwo(268435456) && IsPowerOfTwo(536870912) && IsPowerOfTwo(1073741824) && IsPowerOfTwo(2147483648)
  {
    assert IsPowerOfTwo(1);
    assert IsPowerOfTwo(2);
    assert IsPowerOfTwo(4);
    assert IsPowerOfTwo(8);
    assert IsPowerOfTwo(16);
    assert IsPowerOfTwo(32);
    assert IsPowerOfTwo(64);
    assert IsPowerOfTwo(128);
    assert IsPowerOfTwo(256);
    assert IsPowerOfTwo(512);
    assert IsPowerOfTwo(1024);
    assert IsPowerOfTwo(2048);
    assert IsPowerOfTwo(4096);
    assert IsPowerOfTwo(8192);
    assert IsPowerOfTwo(16384);
    assert IsPowerOfTwo(32768);
    assert IsPowerOfTwo(65536);
    assert IsPowerOfTwo(131072);
    assert IsPowerOfTwo(262144);
    assert IsPowerOfTwo(524288);
    assert IsPowerOfTwo(1048576);
    assert IsPowerOfTwo(2097152);
    assert IsPowerOfTwo(4194304);
    assert IsPowerOfTwo(8388608);
    assert IsPowerOfTwo(16777216);
    assert IsPowerOfTwo(33554432);
    assert IsPowerOfTwo(67108864);
    assert IsPowerOfTwo(134217728);
    assert IsPowerOfTwo(268435456);
    assert IsPowerOfTwo(536870912);
    assert IsPowerOfTwo(1073741824);
    assert IsPowerOfTwo(2147483648);
  }

  /** A power of two `hi` with `hi / 2 < v <= hi` is the least one covering `v`. */
  lemma LeastPowerOfTwoIn(v: nat, hi: nat)
    requires IsPowerOfTwo(hi) && hi / 2 < v <= hi
    ensures LeastPowerOfTwoAtLeast(v) == hi
  {
    var r := LeastPowerOfTwoAtLeast(v);
    PowerOfTwoBelowDouble(r, hi);
    if hi > 1 {
      PowerOfTwoBelowDouble(hi, r);
    }
  }

  /** `nextPow2` of a value just above one power of two and at most the
      next is that next power. */
  lemma NextPow2Between(b: bv32, hi: bv32)
    requires hi != 0 && hi & (hi - 1) == 0 && hi <= 0x8000_0000 && hi >> 1 < b <= hi
    ensures NextPow2(b) == hi
  {
  }

  /** The bit trick agrees with the reference definition on every input
      up to 2^31. The proof goes interval by interval, each `(2^(k-1), 2^k]`
      mapping to `2^k` on both sides. */
  lemma NextPow2AgreesWithReference(b: bv32)
    requires 0 < b <= 0x8000_0000
    ensures NextPow2(b) as nat == LeastPowerOfTwoAtLeast(b as nat)
  {
    if b <= 8 {
      NextPow2AgreesUpTo2e3(b);
    } else if b <= 128 {
      NextPow2AgreesUpTo2e7(b);
    } else if b <= 2048 {
      NextPow2AgreesUpTo2e11(b);
    } else if b <= 32768 {
      NextPow2AgreesUpTo2e15(b);
    } else if b <= 0x8_0000 {
      NextPow2AgreesUpTo2e19(b);
    } else if b <= 0x80_0000 {
      NextPow2AgreesUpTo2e23(b);
    } else if b <= 0x800_0000 {
      NextPow2AgreesUpTo2e27(b);
    } else if b <= 0x2000_0000 {
      NextPow2AgreesUpTo2e29(b);
    } else {
      NextPow2AgreesUpTo2e31(b);
    }
  }

  lemma NextPow2AgreesUpTo2e3(b: bv32)
    requires 0 < b <= 8
    ensures NextPow2(b) as nat == LeastPowerOfTwoAtLeast(b as nat)
  {
    PowersOfTwo32();
    if b <= 1 {
      NextPow2Between(b, 1);
      LeastPowerOfTwoIn(b as nat, 1);
    } else if b <= 2 {
      NextPow2Between(b, 2);
      LeastPowerOfTwoIn(b as nat, 2);
    } else if b <= 4 {
      NextPow2Between(b, 4);
      LeastPowerOfTwoIn(b as nat, 4);
    } else {
      NextPow2Between(b, 8);
      LeastPowerOfTwoIn(b as nat, 8);
    }
  }

  lemma NextPow2AgreesUpTo2e7(b: bv32)
    requires 8 < b <= 128
    ensures NextPow2(b) as nat == LeastPowerOfTwoAtLeast(b as nat)
  {
    PowersOfTwo32();
    if b <= 16 {
      NextPow2Between(b, 16);
      LeastPowerOfTwoIn(b as nat, 16);
    } else if b <= 32 {
      NextPow2Between(b, 32);
      LeastPowerOfTwoIn(b as nat, 32);
    } else if b <= 64 {
      NextPow2Between(b, 64);
      LeastPowerOfTwoIn(b as nat, 64);
    } else {
      NextPow2Between(b, 128);
      LeastPowerOfTwoIn(b as nat, 128);
    }
  }

  lemma NextPow2AgreesUpTo2e11(b: bv32)
    requires 128 < b <= 2048
    ensures NextPow2(b) as nat == LeastPowerOfTwoAtLeast(b as nat)
  {
    PowersOfTwo32();
    if b <= 256 {
      NextPow2Between(b, 256);
      LeastPowerOfTwoIn(b as nat, 256);
    } else if b <= 512 {
      NextPow2Between(b, 512);
      LeastPowerOfTwoIn(b as nat, 512);
    } else if b <= 1024 {
      NextPow2Between(b, 1024);
      LeastPowerOfTwoIn(b as nat, 1024);
    } else {
      NextPow2Between(b, 2048);
      LeastPowerOfTwoIn(b as nat, 2048);
    }
  }

  lemma NextPow2AgreesUpTo2e15(b: bv32)
    requires 2048 < b <= 32768
    ensures NextPow2(b) as nat == LeastPowerOfTwoAtLeast(b as nat)
  {
    PowersOfTwo32();
    if b <= 4096 {
      NextPow2Between(b, 4096);
      LeastPowerOfTwoIn(b as nat, 4096);
    } else if b <= 8192 {
      NextPow2Between(b, 8192);
      LeastPowerOfTwoIn(b as nat, 8192);
    } else if b <= 16384 {
      NextPow2Between(b, 16384);
      LeastPowerOfTwoIn(b as nat, 16384);
    } else {
      NextPow2Between(b, 32768);
      LeastPowerOfTwoIn(b as nat, 32768);
    }
  }

  lemma NextPow2AgreesUpTo2e19(b: bv32)
    requires 32768 < b <= 0x8_0000
    ensures NextPow2(b) as nat == LeastPowerOfTwoAtLeast(b as nat)
  {
    PowersOfTwo32();
    if b <= 0x1_0000 {
      NextPow2Between(b, 0x1_0000);
      LeastPowerOfTwoIn(b as nat, 0x1_0000);
    } else if b <= 0x2_0000 {
      NextPow2Between(b, 0x2_0000);
      LeastPowerOfTwoIn(b as nat, 0x2_0000);
    } else if b <= 0x4_0000 {
      NextPow2Between(b, 0x4_0000);
      LeastPowerOfTwoIn(b as nat, 0x4_0000);
    } else {
      NextPow2Between(b, 0x8_0000);
      LeastPowerOfTwoIn(b as nat, 0x8_0000);
    }
  }

  lemma NextPow2AgreesUpTo2e23(b: bv32)
    requires 0x8_0000 < b <= 0x80_0000
    ensures NextPow2(b) as nat == LeastPowerOfTwoAtLeast(b as nat)
  {
    PowersOfTwo32();
    if b <= 0x10_0000 {
      NextPow2Between(b, 0x10_0000);
      LeastPowerOfTwoIn(b as nat, 0x10_0000);
    } else if b <= 0x20_0000 {
      NextPow2Between(b, 0x20_0000);
      LeastPowerOfTwoIn(b as nat, 0x20_0000);
    } else if b <= 0x40_0000 {
      NextPow2Between(b, 0x40_0000);
      LeastPowerOfTwoIn(b as nat, 0x40_0000);
    } else {
      NextPow2Between(b, 0x80_0000);
      LeastPowerOfTwoIn(b as nat, 0x80_0000);
    }
  }

  lemma NextPow2AgreesUpTo2e27(b: bv32)
    requires 0x80_0000 < b <= 0x800_0000
    ensures NextPow2(b) as nat == LeastPowerOfTwoAtLeast(b as nat)
  {
    PowersOfTwo32();
    if b <= 0x100_0000 {
      NextPow2Between(b, 0x100_0000);
      LeastPowerOfTwoIn(b as nat, 0x100_0000);
    } else if b <= 0x200_0000 {
      NextPow2Between(b, 0x200_0000);
      LeastPowerOfTwoIn(b as nat, 0x200_0000);
    } else if b <= 0x400_0000 {
      NextPow2Between(b, 0x400_0000);
      LeastPowerOfTwoIn(b as nat, 0x400_0000);
    } else {
      NextPow2Between(b, 0x800_0000);
      LeastPowerOfTwoIn(b as nat, 0x800_0000);
    }
  }

  lemma NextPow2AgreesUpTo2e29(b: bv32)
    requires 0x800_0000 < b <= 0x2000_0000
    ensures NextPow2(b) as nat == LeastPowerOfTwoAtLeast(b as nat)
  {
    PowersOfTwo32();
    if b <= 0x1000_0000 {
      NextPow2Between(b, 0x1000_0000);
      LeastPowerOfTwoIn(b as nat, 0x1000_0000);
    } else {
      NextPow2Between(b, 0x2000_0000);
      LeastPowerOfTwoIn(b as nat, 0x2000_0000);
    }
  }

  lemma NextPow2AgreesUpTo2e31(b: bv32)
    requires 0x2000_0000 < b <= 0x8000_0000
    ensures NextPow2(b) as nat == LeastPowerOfTwoAtLeast(b as nat)
  {
    PowersOfTwo32();
    if b <= 0x4000_0000 {
      NextPow2Between(b, 0x4000_0000);
      LeastPowerOfTwoIn(b as nat, 0x4000_0000);
    } else {
      NextPow2Between(b, 0x8000_0000);
      LeastPowerOfTwoIn(b as nat, 0x8000_0000);
    }
  }

  /** The clamped ring target for a callback size: `callbackFrames * 64`
      as a wrapping 32-bit product, clamped to [2048, 32768]. */
  function RingTarget(callbackFrames: int): (target: nat)
    ensures MinRingFrames <= target <= MaxRingFrames
    ensures MinRingFrames <= callbackFrames * CallbacksBuffered <= MaxRingFrames ==>
              target == callbackFrames * CallbacksBuffered
  {
    ClampInt(WrapInt32(callbackFrames * CallbacksBuffered), MinRingFrames, MaxRingFrames)
  }

  /** The ring size `start` picks for a callback size: the clamped target
      rounded up to a power of two, the least one covering it. */
  function RingCapacity(callbackFrames: int): (cap: nat)
    ensures RingSize(cap)
    ensures RingTarget(callbackFrames) <= cap < 2 * RingTarget(callbackFrames)
  {
    var cap := LeastPowerOfTwoAtLeast(RingTarget(callbackFrames));
    PowersOfTwo32();
    PowerOfTwoBelowDouble(cap, MaxRingFrames);
    cap
  }

  /** The ring size is what `nextPow2` makes of the clamped target cast
      to `uint32_t`. */
  lemma RingCapacityIsNextPow2(callbackFrames: int, target: bv32)
    requires target as nat == RingTarget(callbackFrames)
    ensures RingCapacity(callbackFrames) == NextPow2(target) as nat
  {
    NextPow2AgreesWithReference(target);
  }

  // ---------------------------------------------------------------------
  // Lifecycle

  /** What the stream reports during `start`. */
  datatype StreamEnv = StreamEnv(openOk: bool, framesPerBurst: int, startOk: bool)

  datatype Started = Started(engine: Engine, ok: bool)

  /** `clearPreviewBuffer`: empty the ring and forget the producer's rate. */
  function ClearPreviewBuffer(e: Engine): (e': Engine)
    requires Valid(e)
    ensures Valid(e')
    ensures PreviewRing.Contents(e'.ring) == []
    ensures e'.ring.writeIndex == 0 && e'.ring.readIndex == 0
    ensures e'.producerRate == 0 && !e'.rateWarned
    ensures e' == e.(ring := e'.ring, producerRate := 0, rateWarned := false)
    ensures e'.ring.slots == e.ring.slots && e'.ring.capacity == e.ring.capacity
  {
    e.(ring := e.ring.(writeIndex := 0, readIndex := 0), producerRate := 0, rateWarned := false)
  }

  /** The stream is open and the ring is reallocated, zeroed, at `cap` frames. */
  function Allocate(e: Engine, cap: nat): (e': Engine)
    requires Valid(e) && !e.running && RingSize(cap)
    ensures Valid(e') && e'.hasStream && !e'.running
    ensures e'.ring == PreviewRing.Ring(Zeros(cap), cap, 0, 0)
    ensures e' == e.(hasStream := true, ring := e'.ring)
  {
    e.(hasStream := true, ring := PreviewRing.Ring(Zeros(cap), cap, 0, 0))
  }

  /** `start`. Already running: success, nothing changes. Otherwise the chain
      is installed and the rate recorded (48000 for a non-positive rate)
      before the stream is opened; an open or start failure reports false
      with no stream, not running, and the chain left installed. On success
      the ring is reallocated, zeroed and emptied, and the engine runs. */
  function Start(e: Engine, sampleRate: int, framesPerCallback: int, chain: Option<Dsp.Chain>, env: StreamEnv): (r: Started)
    requires Valid(e)
    requires chain.Some? ==> Dsp.Valid(chain.value)
    ensures Valid(r.engine)
    ensures e.running ==> r == Started(e, true)
    ensures !e.running ==> r.engine.chain == chain
    ensures !e.running ==> r.engine.currentSampleRate == (if sampleRate > 0 then sampleRate else DefaultSampleRate)
    ensures !e.running ==> (r.ok <==> env.openOk && env.startOk)
    ensures !e.running && !r.ok ==> !r.engine.running && !r.engine.hasStream && r.engine.ring == e.ring
    ensures !e.running && r.ok ==>
              var cap := RingCapacity(if framesPerCallback > 0 then framesPerCallback else env.framesPerBurst);
              && r.engine.running && r.engine.hasStream
              && r.engine.ring == PreviewRing.Ring(Zeros(cap), cap, 0, 0)
              && r.engine.producerRate == 0 && !r.engine.rateWarned
    ensures r.engine.toneEnabled == e.toneEnabled && r.engine.toneHz == e.toneHz
    ensures r.engine.toneLevel == e.toneLevel && r.engine.phase == e.phase
  {
    if e.running then Started(e, true)
    else
      var e1 := e.(chain := chain, currentSampleRate := if sampleRate > 0 then sampleRate else DefaultSampleRate);
      if !env.openOk || !env.startOk then Started(e1.(hasStream := false), false)
      else
        var callbackFrames := if framesPerCallback > 0 then framesPerCallback else env.framesPerBurst;
        var cap := RingCapacity(callbackFrames);
        Started(ClearPreviewBuffer(Allocate(e1, cap)).(running := true), true)
  }

  /** `stop`: not running, no stream, no chain. The ring and tone settings stay. */
  function Stop(e: Engine): (e': Engine)
    requires Valid(e)
    ensures Valid(e')
    ensures !e'.running && !e'.hasStream && e'.chain.None?
    ensures e' == e.(running := false, hasStream := false, chain := None)
  {
    e.(running := false, hasStream := false, chain := None)
  }

  /** Stopping twice is stopping once. */
  lemma StopIdempotent(e: Engine)
    requires Valid(e)
    ensures Stop(Stop(e)) == Stop(e)
  {
  }

  /** `onErrorAfterClose`: only the running flag drops. */
  function OnErrorAfterClose(e: Engine): (e': Engine)
    requires Valid(e)
    ensures Valid(e') && !e'.running
    ensures e' == e.(running := false)
  {
    e.(running := false)
  }

  function SetTestToneEnabled(e: Engine, enabled: bool): (e': Engine)
    requires Valid(e)
    ensures Valid(e') && e'.toneEnabled == enabled
    ensures e' == e.(toneEnabled := enabled)
  {
    e.(toneEnabled := enabled)
  }

  /** `setTestToneFrequency`: clamped into [20, 20000] Hz. */
  function SetTestToneFrequency(e: Engine, hz: real): (e': Engine)
    requires Valid(e)
    ensures Valid(e') && MinToneHz <= e'.toneHz <= MaxToneHz
    ensures MinToneHz <= hz <= MaxToneHz ==> e'.toneHz == hz
    ensures hz < MinToneHz ==> e'.toneHz == MinToneHz
    ensures hz > MaxToneHz ==> e'.toneHz == MaxToneHz
    ensures e' == e.(toneHz := e'.toneHz)
  {
    e.(toneHz := Clamp(hz, MinToneHz, MaxToneHz))
  }

  /** `setTestToneLevel`: clamped into [0, 1]. */
  function SetTestToneLevel(e: Engine, level: real): (e': Engine)
    requires Valid(e)
    ensures Valid(e') && 0.0 <= e'.toneLevel <= 1.0
    ensures 0.0 <= level <= 1.0 ==> e'.toneLevel == level
    ensures level < 0.0 ==> e'.toneLevel == 0.0
    ensures level > 1.0 ==> e'.toneLevel == 1.0
    ensures e' == e.(toneLevel := e'.toneLevel)
  {
    e.(toneLevel := Clamp(level, 0.0, 1.0))
  }

  // ---------------------------------------------------------------------
  // Producer side

  /** The guards of `enqueuePreviewPcm` all pass: a buffer, at least one
      frame, a running engine, an allocated ring. */
  predicate Accepts(e: Engine, buf: Option<seq<Frame>>, frames: int) {
    buf.Some? && frames > 0 && e.running && e.ring.capacity > 0
  }

  /** The producer-rate diagnosis: the first nonzero-state call records the
      rate; a later different rate sets the (sticky) warned flag. Nothing is
      resampled. */
  function NoteProducerRate(e: Engine, sampleRate: int): (e': Engine)
    ensures e.producerRate == 0 ==> e' == e.(producerRate := sampleRate)
    ensures e.producerRate != 0 ==> e' == e.(rateWarned := e.rateWarned || e.producerRate != sampleRate)
  {
    if e.producerRate == 0 then e.(producerRate := sampleRate)
    else if e.producerRate != sampleRate then e.(rateWarned := true)
    else e
  }

  /** `enqueuePreviewPcm`. Rejected by a guard, nothing changes. Accepted,
      the unread frames become the newest `capacity` of (unread ++ the
      `frames` given), the write counter moves by the number admitted, and
      the read counter moves only as far as room requires. */
  method EnqueuePreviewPcm(e: Engine, buf: Option<seq<Frame>>, frames: int, sampleRate: int) returns (e': Engine)
    requires Valid(e)
    requires buf.Some? && frames > 0 ==> |buf.value| >= frames
    ensures Valid(e')
    ensures !Accepts(e, buf, frames) ==> e' == e
    ensures Accepts(e, buf, frames) ==>
              var src := buf.value[..frames];
              var admitted := |LastN(src, e.ring.capacity)|;
              && PreviewRing.Contents(e'.ring) == LastN(PreviewRing.Contents(e.ring) + src, e.ring.capacity)
              && e'.ring.capacity == e.ring.capacity
              && e'.ring.writeIndex == e.ring.writeIndex + admitted
              && e'.ring.readIndex == e.ring.readIndex + PreviewRing.Overrun(e.ring, admitted)
              && e' == NoteProducerRate(e, sampleRate).(ring := e'.ring)
  {
    if buf.None? || frames <= 0 {
      return e;
    }
    if !e.running {
      return e;
    }
    if e.ring.capacity == 0 || |e.ring.slots| == 0 {
      return e;
    }
    e' := EnqueueAccepted(e, buf.value[..frames], sampleRate);
  }

  /** The accepted path of `enqueuePreviewPcm`: note the rate, push the batch. */
  method EnqueueAccepted(e: Engine, src: seq<Frame>, sampleRate: int) returns (e': Engine)
    requires Valid(e) && e.running && e.ring.capacity > 0
    ensures Valid(e')
    ensures PreviewRing.Contents(e'.ring) == LastN(PreviewRing.Contents(e.ring) + src, e.ring.capacity)
    ensures e'.ring.capacity == e.ring.capacity
    ensures e'.ring.writeIndex == e.ring.writeIndex + |LastN(src, e.ring.capacity)|
    ensures e'.ring.readIndex == e.ring.readIndex + PreviewRing.Overrun(e.ring, |LastN(src, e.ring.capacity)|)
    ensures e' == NoteProducerRate(e, sampleRate).(ring := e'.ring)
  {
    var e1 := NoteProducerRate(e, sampleRate);
    var q := PreviewRing.Push(e.ring, src);
    e' := e1.(ring := q);
    assert e'.chain == e.chain && e'.running == e.running && e'.hasStream == e.hasStream;
    assert e'.toneHz == e.toneHz && e'.toneLevel == e.toneLevel;
  }

  /** Before any `start`, enqueue does nothing at all. */
  method EnqueueBeforeStart(buf: Option<seq<Frame>>, frames: int, sampleRate: int) returns (e: Engine)
    requires buf.Some? && frames > 0 ==> |buf.value| >= frames
    ensures e == NewEngine()
  {
    e := EnqueuePreviewPcm(NewEngine(), buf, frames, sampleRate);
  }

  // ---------------------------------------------------------------------
  // Consumer side

  /** One step of the oscillator phase: add the increment, subtract a full
      turn once when it passes 2*pi. */
  function AdvancePhase(phase: real, inc: real): (p: real)
    ensures 0.0 <= phase <= TwoPi && 0.0 <= inc <= TwoPi ==> 0.0 <= p <= TwoPi
    ensures p == phase + inc || p == phase + inc - TwoPi
  {
    var q := phase + inc;
    if q > TwoPi then q - TwoPi else q
  }

  datatype ToneRender = ToneRender(phase: real, frames: seq<Frame>)

  /** The test tone: `n` frames of `sin(phase) * level`, the same value in
      both channels, advancing the phase after each frame. */
  function Tone(phase: real, inc: real, level: real, n: nat, num: Numerics): (r: ToneRender)
    ensures |r.frames| == n
    ensures forall i :: 0 <= i < n ==> r.frames[i].left == r.frames[i].right
    ensures n > 0 ==> r.frames[0] == Frame(num.sin(phase) * level, num.sin(phase) * level)
    ensures 0.0 <= phase <= TwoPi && 0.0 <= inc <= TwoPi ==> 0.0 <= r.phase <= TwoPi
    ensures n == 0 ==> r.phase == phase
    decreases n
  {
    if n == 0 then ToneRender(phase, [])
    else
      var s := num.sin(phase) * level;
      var rest := Tone(AdvancePhase(phase, inc), inc, level, n - 1, num);
      ToneRender(rest.phase, [Frame(s, s)] + rest.frames)
  }

  /** The per-frame phase increment `2 * pi * hz / sr`; at most a full turn
      when the tone is not above the stream rate. */
  function PhaseIncrement(hz: real, streamRate: nat): (inc: real)
    requires streamRate > 0 && hz >= 0.0
    ensures inc >= 0.0
    ensures hz <= streamRate as real ==> inc <= TwoPi
  {
    var sr := streamRate as real;
    var inc := (TwoPi * hz) / sr;
    assert hz <= sr ==> inc <= TwoPi by {
      if hz <= sr {
        assert TwoPi * hz <= TwoPi * sr;
        assert inc * sr == TwoPi * hz;
      }
    }
    inc
  }

  /** The frames the callback produces before the chain runs. With the tone
      on: the tone, and the ring is not touched. Otherwise: silence when no
      ring is allocated, else the ring's oldest frames padded with silence,
      with the read counter advanced past exactly the frames taken. */
  method RenderSource(e: Engine, numFrames: nat, streamRate: nat, num: Numerics) returns (e': Engine, src: seq<Frame>)
    requires Valid(e) && streamRate > 0
    ensures Valid(e') && |src| == numFrames
    ensures e.toneEnabled ==>
              var t := Tone(e.phase, PhaseIncrement(e.toneHz, streamRate), e.toneLevel, numFrames, num);
              && src == t.frames
              && e' == e.(phase := t.phase)
    ensures e.toneEnabled ==> forall i :: 0 <= i < numFrames ==> src[i].left == src[i].right
    ensures !e.toneEnabled && e.ring.capacity == 0 ==> e' == e && src == Zeros(numFrames)
    ensures !e.toneEnabled && e.ring.capacity > 0 ==>
              var take := PreviewRing.Take(e.ring, numFrames);
              && src == PreviewRing.Contents(e.ring)[..take] + Zeros(numFrames - take)
              && e' == e.(ring := e.ring.(readIndex := e.ring.readIndex + take))
              && PreviewRing.Contents(e'.ring) == PreviewRing.Contents(e.ring)[take..]
  {
    if e.toneEnabled {
      var t := Tone(e.phase, PhaseIncrement(e.toneHz, streamRate), e.toneLevel, numFrames, num);
      src := t.frames;
      e' := e.(phase := t.phase);
    } else if e.ring.capacity == 0 || |e.ring.slots| == 0 {
      src := Zeros(numFrames);
      e' := e;
    } else {
      var q;
      src, q := PreviewRing.Pop(e.ring, numFrames);
      e' := e.(ring := q);
    }
  }

  /** The frames a stereo callback renders before the chain: the tone when
      it is on, else the ring's oldest frames padded with silence, or
      silence alone while no ring is allocated. */
  function Source(e: Engine, numFrames: nat, streamRate: nat, num: Numerics): (src: seq<Frame>)
    requires Valid(e) && streamRate > 0
    ensures |src| == numFrames
  {
    if e.toneEnabled then Tone(e.phase, PhaseIncrement(e.toneHz, streamRate), e.toneLevel, numFrames, num).frames
    else if e.ring.capacity == 0 then Zeros(numFrames)
    else
      var take := PreviewRing.Take(e.ring, numFrames);
      PreviewRing.Contents(e.ring)[..take] + Zeros(numFrames - take)
  }

  /** `numSamples` interleaved zeros. */
  function ZeroSamples(numSamples: nat): (z: seq<real>)
    ensures |z| == numSamples && forall i :: 0 <= i < numSamples ==> z[i] == 0.0
  {
    seq(numSamples, _ => 0.0)
  }

  /** `onAudioReady`. A stream that is not stereo gets silence (`numFrames *
      channels` zeros) and nothing else happens. Otherwise the source frames
      are rendered and, when a chain is installed, processed by it at the
      stream's rate; the result is written out interleaved. */
  method OnAudioReady(e: Engine, channels: nat, numFrames: nat, streamRate: nat, p: Primitives, num: Numerics)
    returns (e': Engine, out: seq<real>)
    requires Valid(e) && LengthPreserving(p) && streamRate > 0
    ensures Valid(e')
    ensures channels != 2 ==> e' == e && out == ZeroSamples(numFrames * channels)
    ensures channels == 2 ==> |out| == 2 * numFrames
    ensures channels == 2 ==> e'.running == e.running && e'.toneHz == e.toneHz && e'.toneLevel == e.toneLevel
    ensures channels == 2 && e.toneEnabled ==> e'.ring == e.ring
    ensures channels == 2 && e.toneEnabled && e.chain.None? ==>
              forall i :: 0 <= i < numFrames ==> out[2 * i] == out[2 * i + 1]
    ensures channels == 2 && !e.toneEnabled && e.ring.capacity > 0 ==>
              e'.ring == e.ring.(readIndex := e.ring.readIndex + PreviewRing.Take(e.ring, numFrames))
    ensures channels == 2 && !e.toneEnabled && e.chain.None? && e.ring.capacity > 0 ==>
              var take := PreviewRing.Take(e.ring, numFrames);
              out == Interleave(PreviewRing.Contents(e.ring)[..take] + Zeros(numFrames - take))
    ensures channels == 2 && e.chain.None? ==> out == Interleave(Source(e, numFrames, streamRate, num))
    ensures channels == 2 && e.chain.Some? ==>
              var r := Dsp.Process(e.chain.value, Some(Source(e, numFrames, streamRate, num)), streamRate, p);
              && out == Interleave(r.buffer.value) && e'.chain == Some(r.chain)
  {
    if channels != 2 {
      return e, ZeroSamples(numFrames * channels);
    }
    var e1, src := RenderSource(e, numFrames, streamRate, num);
    var frames;
    e', frames := RunChain(e1, src, streamRate, p);
    out := Interleave(frames);
  }

  /** The chain step of the callback: the installed chain processes the
      frames at the stream's rate; without one they pass as they are. */
  method RunChain(e: Engine, src: seq<Frame>, streamRate: nat, p: Primitives) returns (e': Engine, frames: seq<Frame>)
    requires Valid(e) && LengthPreserving(p)
    ensures Valid(e') && |frames| == |src|
    ensures e.chain.None? ==> e' == e && frames == src
    ensures e.chain.Some? ==>
              var r := Dsp.Process(e.chain.value, Some(src), streamRate, p);
              && frames == r.buffer.value && e' == e.(chain := Some(r.chain))
  {
    if e.chain.Some? {
      var r := Dsp.Process(e.chain.value, Some(src), streamRate, p);
      frames := r.buffer.value;
      e' := e.(chain := Some(r.chain));
    } else {
      e', frames := e, src;
    }
  }

  /** Without overflow and with neither tone nor chain, frames handed to a
      running engine come out of the next callback in order, interleaved,
      after the frames already waiting: none are lost or reordered across
      the wrap. */
  method PreviewPassThrough(e: Engine, batch: seq<Frame>, sampleRate: int, streamRate: nat, p: Primitives, num: Numerics)
    returns (e': Engine, out: seq<real>)
    requires Valid(e) && LengthPreserving(p) && streamRate > 0
    requires e.running && !e.toneEnabled && e.chain.None? && |batch| > 0
    requires e.ring.writeIndex - e.ring.readIndex + |batch| <= e.ring.capacity
    ensures Valid(e')
    ensures out == Interleave(PreviewRing.Contents(e.ring) + batch)
    ensures PreviewRing.Contents(e'.ring) == []
  {
    var e1 := EnqueueWithRoom(e, batch, sampleRate);
    var waiting := PreviewRing.Contents(e1.ring);
    var n := |waiting|;
    assert PreviewRing.Take(e1.ring, n) == n;
    e', out := OnAudioReady(e1, 2, n, streamRate, p, num);
    assert waiting[..n] + Zeros(0) == waiting;
  }

  /** An enqueue that fits appends the batch to the unread frames and
      touches nothing the callback reads besides the ring. */
  method EnqueueWithRoom(e: Engine, batch: seq<Frame>, sampleRate: int) returns (e': Engine)
    requires Valid(e) && e.running && |batch| > 0
    requires e.ring.writeIndex - e.ring.readIndex + |batch| <= e.ring.capacity
    ensures Valid(e') && e'.ring.capacity > 0
    ensures e'.chain == e.chain && e'.toneEnabled == e.toneEnabled
    ensures PreviewRing.Contents(e'.ring) == PreviewRing.Contents(e.ring) + batch
  {
    assert Accepts(e, Some(batch), |batch|);
    e' := EnqueuePreviewPcm(e, Some(batch), |batch|, sampleRate);
    var waiting := PreviewRing.Contents(e.ring) + batch;
    assert Some(batch).value[..|batch|] == batch;
    assert LastN(waiting, e.ring.capacity) == waiting;
  }
}

=== FILE: chain_holder.dfy ===
/** The holder that keeps one native DSP chain per device output sample
    rate: it recreates the chain when the rate changes and forgets it on
    release. Whether the native create succeeds is a parameter; a destroy
    failure is swallowed by the source and so has no effect here. */
module ChainHolder {
  import opened Wrappers

  const FallbackSampleRate := 48000

  datatype NativeCall = CreateChain(sampleRate: int) | DestroyChain

  datatype Holder = Holder(initialized: bool, sampleRateHz: int, calls: seq<NativeCall>)

  const Initial := Holder(false, 0, [])

  /** Initialized exactly when a (positive) rate is stored. */
  predicate Valid(h: Holder) {
    (h.initialized <==> h.sampleRateHz != 0) && h.sampleRateHz >= 0
  }

  /** `getOutputSampleRateHz`: the platform property parsed as an integer,
      if positive, else 48000. */
  function OutputSampleRate(property: Option<int>): (r: int)
    ensures r > 0
    ensures property.Some? && property.value > 0 ==> r == property.value
    ensures !(property.Some? && property.value > 0) ==> r == FallbackSampleRate
  {
    if property.Some? && property.value > 0 then property.value else FallbackSampleRate
  }

  /** The exception of a failed native create, rethrown to the caller. */
  datatype CreateFailed = CreateFailed

  /** `ensureNativeDspChainInitialized`: reuse a chain at the same rate,
      otherwise destroy any old one and create a new one. */
  function EnsureInitialized(h: Holder, property: Option<int>, createOk: bool)
    : (r: (Holder, Result<int, CreateFailed>))
    requires Valid(h)
    ensures Valid(r.0)
    ensures var rate := OutputSampleRate(property);
            && (h.initialized && h.sampleRateHz == rate ==> r == (h, Ok(rate)))
            && (!(h.initialized && h.sampleRateHz == rate) ==>
                  var destroyed := if h.initialized then h.calls + [DestroyChain] else h.calls;
                  && r.0.calls == destroyed + [CreateChain(rate)]
                  && (createOk ==> r.0.initialized && r.0.sampleRateHz == rate && r.1 == Ok(rate))
                  && (!createOk ==> !r.0.initialized && r.0.sampleRateHz == 0 && r.1 == Err(CreateFailed)))
  {
    var rate := OutputSampleRate(property);
    if h.initialized && h.sampleRateHz == rate then (h, Ok(rate))
    else
      var h1 := if h.initialized then Holder(false, 0, h.calls + [DestroyChain]) else h;
      var h2 := h1.(calls := h1.calls + [CreateChain(rate)]);
      if createOk then (h2.(sampleRateHz := rate, initialized := true), Ok(rate))
      else (h2, Err(CreateFailed))
  }

  /** Asking again at an unchanged rate makes no native call. */
  lemma EnsureInitializedIdempotent(h: Holder, property: Option<int>)
    requires Valid(h)
    ensures var first := EnsureInitialized(h, property, true).0;
            EnsureInitialized(first, property, true).0 == first &&
            EnsureInitialized(first, property, false) == EnsureInitialized(first, property, true)
  {
  }

  /** After a release, the next request always creates afresh. */
  lemma ReleaseForcesCreate(h: Holder, property: Option<int>, createOk: bool)
    requires Valid(h)
    ensures EnsureInitialized(Release(h), property, createOk).0.calls ==
              Release(h).calls + [CreateChain(OutputSampleRate(property))]
  {
  }

  /** `releaseNativeChain`. */
  function Release(h: Holder): (h': Holder)
    requires Valid(h)
    ensures Valid(h') && !h'.initialized && h'.sampleRateHz == 0
    ensures !h.initialized ==> h' == h
    ensures h.initialized ==> h'.calls == h.calls + [DestroyChain]
  {
    if !h.initialized then h else Holder(false, 0, h.calls + [DestroyChain])
  }
}

=== FILE: dsp_chain.dfy ===
/** The native effects chain `AudioDspChain` (AudioDspChain.cpp): a
    five-band parametric EQ, a compressor, an HRTF spatial stage and a global
    reverb, applied in place to interleaved stereo float buffers. The
    Superpowered objects and the float math they use are the function values
    of `Externals`; what is modelled here is the control skeleton around
    them: scratch growth, the stage order, the bypass branches, parameter
    clamping and the wet/dry mix. */
module AudioDspChain {
  import opened Audio
  import opened Wrappers
  import opened Externals
  import opened Numeric
  import Angles

  const NumBands: nat := 5
  /** Centre frequencies of the EQ bands, in Hz. */
  const CenterHz: seq<real> := [60.0, 250.0, 1000.0, 4000.0, 10000.0]
  const BandOctave: real := 1.0
  /** Attack and release times are floored here, in milliseconds. */
  const MinTimeMs: real := 0.1
  /** `fabsf(makeup - 1) < 1e-6` counts as unity makeup gain. */
  const UnityTolerance: real := 0.000001
  /** Each channel is a virtual source this many degrees either side of the global azimuth. */
  const SourceSpreadDeg: real := 30.0
  const SpatialReverbMix: real := 0.1
  const BaseInputVolume: real := 0.5
  const MinDistance: real := 0.2

  /** Sizes of the preallocated scratch vectors: `maxFramesAllocated`,
      `leftBuffer`, `rightBuffer`, `interleavedTemp`, `spatialOutputTemp`.
      Their contents are always written before they are read, so only the
      sizes are state. */
  datatype Scratch = Scratch(maxFrames: nat, leftLen: nat, rightLen: nat, interleavedLen: nat, spatialOutLen: nat)

  /** The per-channel vectors hold `maxFrames` samples and the interleaved ones twice that. */
  predicate ScratchSized(s: Scratch) {
    && s.leftLen == s.maxFrames && s.rightLen == s.maxFrames
    && s.interleavedLen == 2 * s.maxFrames && s.spatialOutLen == 2 * s.maxFrames
  }

  /** Compressor settings and envelope. Attack and release are kept both as
      milliseconds and as the smoothing coefficients derived from them. */
  datatype Compressor = Compressor(
    threshold: real, ratio: real, attackMs: real, releaseMs: real,
    attackCoeff: real, releaseCoeff: real, makeup: real, env: real)

  /** The Superpowered reverb object: its sample rate, `enabled` flag and tail. */
  datatype ReverbUnit = ReverbUnit(sampleRate: nat, enabled: bool, memory: Memory)

  /** A Superpowered spatializer: its sample rate, the parameters last
      written into it, and its memory. */
  datatype SpatialUnit = SpatialUnit(sampleRate: nat, params: SpatialParams, memory: Memory)

  datatype Chain = Chain(
    sampleRate: nat,
    bandRate: nat,
    bands: seq<FilterParams>,
    eqMemory: seq<Memory>,
    eqGainsDb: seq<real>,
    reverb: Option<ReverbUnit>,
    scratch: Scratch,
    comp: Compressor,
    reverbEnabled: bool,
    reverbWet: real,
    spatialEnabled: bool,
    headTrackingEnabled: bool,
    headYawDeg: real,
    azimuthDeg: real,
    elevationDeg: real,
    distanceMeters: real,
    spatialL: SpatialUnit,
    spatialR: SpatialUnit)

  /** What every public operation preserves. */
  predicate Valid(c: Chain) {
    && |c.bands| == NumBands && |c.eqMemory| == NumBands && |c.eqGainsDb| == NumBands
    && (forall i :: 0 <= i < NumBands ==>
          c.bands[i].frequency == CenterHz[i] && c.bands[i].octave == BandOctave)
    && ScratchSized(c.scratch)
    && c.reverb.Some? && c.reverb.value.enabled == c.reverbEnabled
    && c.reverb.value.sampleRate == c.sampleRate
    && 0.0 <= c.reverbWet <= 1.0
    && -180.0 <= c.headYawDeg <= 180.0
    && c.comp.ratio >= 1.0
  }

  /** The filter bands as (re)built: centre frequency, one octave, and the given gain. */
  function BuildBands(gains: seq<real>): (bands: seq<FilterParams>)
    requires |gains| == NumBands
    ensures |bands| == NumBands
    ensures forall i :: 0 <= i < NumBands ==>
              bands[i] == FilterParams(CenterHz[i], BandOctave, gains[i])
  {
    seq(NumBands, i requires 0 <= i < NumBands => FilterParams(CenterHz[i], BandOctave, gains[i]))
  }

  /** A spatializer as constructed: input volume 0.5 and fresh memory. The
      library's own defaults for the other parameters are not visible; they
      are 0 here and are overwritten before every render. */
  function FreshSpatializer(sampleRate: nat): (u: SpatialUnit)
    ensures u.sampleRate == sampleRate && u.params.inputVolume == BaseInputVolume
    ensures u.memory == FreshMemory
  {
    SpatialUnit(sampleRate, SpatialParams(0.0, 0.0, 0.0, BaseInputVolume), FreshMemory)
  }

  /** The memories of a freshly built set of EQ bands. */
  function FreshBandMemory(): (m: seq<Memory>)
    ensures |m| == NumBands && forall i :: 0 <= i < NumBands ==> m[i] == FreshMemory
  {
    seq(NumBands, _ => FreshMemory)
  }

  /** The constructor. */
  function Create(sampleRate: nat, num: Numerics): (c: Chain)
    ensures Valid(c)
    ensures c.sampleRate == sampleRate && c.bandRate == sampleRate
    ensures c.reverb == Some(ReverbUnit(sampleRate, false, FreshMemory)) && !c.reverbEnabled && c.reverbWet == 0.25
    ensures c.eqMemory == FreshBandMemory()
    ensures forall i :: 0 <= i < NumBands ==> c.eqGainsDb[i] == 0.0 && c.bands[i].decibel == 0.0
    ensures c.comp.ratio == 1.0 && c.comp.env == 0.0
    ensures c.comp.threshold == num.dbToLinear(-24.0) && c.comp.makeup == num.dbToLinear(0.0)
    ensures c.scratch.maxFrames == 0
    ensures !c.spatialEnabled && !c.headTrackingEnabled
    ensures c.spatialL == FreshSpatializer(sampleRate) && c.spatialR == FreshSpatializer(sampleRate)
  {
    var gains := seq(NumBands, _ => 0.0);
    Chain(
      sampleRate, sampleRate, BuildBands(gains), FreshBandMemory(), gains,
      Some(ReverbUnit(sampleRate, false, FreshMemory)),
      Scratch(0, 0, 0, 0, 0),
      Compressor(num.dbToLinear(-24.0), 1.0, 0.0, 0.0, 0.01, 0.1, num.dbToLinear(0.0), 0.0),
      false, 0.25,
      false, false, 0.0, 0.0, 0.0, 0.0,
      FreshSpatializer(sampleRate), FreshSpatializer(sampleRate))
  }

  // ---------------------------------------------------------------------
  // Scratch capacity

  /** `ensureCapacity`: grow every scratch vector to cover `frames`, never shrink. */
  function EnsureCapacity(s: Scratch, frames: nat): (s': Scratch)
    ensures s'.maxFrames >= frames && s'.maxFrames >= s.maxFrames
    ensures s'.maxFrames == frames || s'.maxFrames == s.maxFrames
    ensures frames <= s.maxFrames ==> s' == s
    ensures frames > s.maxFrames ==> ScratchSized(s')
    ensures ScratchSized(s) ==> ScratchSized(s')
  {
    if frames <= s.maxFrames then s
    else Scratch(frames, frames, frames, 2 * frames, 2 * frames)
  }

  /** The growth branch at the top of `applyEQ`, which resizes every
      scratch vector except `spatialOutputTemp`. */
  function EqGrow(s: Scratch, frames: nat): (s': Scratch)
    ensures frames <= s.maxFrames ==> s' == s
    ensures s'.spatialOutLen == s.spatialOutLen
    ensures s'.maxFrames >= frames
  {
    if frames > s.maxFrames then s.(maxFrames := frames, leftLen := frames, rightLen := frames, interleavedLen := 2 * frames)
    else s
  }

  /** Called on its own with a larger frame count, `applyEQ` would leave
      `spatialOutputTemp` shorter than the other vectors, since its growth
      branch fires first and the `ensureCapacity` after it then sees nothing
      to do. `Process` grows the scratch first, so that never happens there
      (see `Process`). */
  lemma EqGrowthAloneSkipsSpatialScratch()
    ensures var s := Scratch(0, 0, 0, 0, 0);
            ScratchSized(s) && !ScratchSized(EnsureCapacity(EqGrow(s, 1), 1))
  {
    var s := Scratch(0, 0, 0, 0, 0);
    assert EqGrow(s, 1) == Scratch(1, 1, 1, 2, 0);
  }

  // ---------------------------------------------------------------------
  // Stages

  /** A stage's result: the chain state it leaves and the buffer it produces. */
  datatype Stage = Stage(chain: Chain, out: seq<Frame>)

  /** One pass of the EQ over a callback's channels: the left and right
      channels after every band, and the memory each band's filter keeps. */
  datatype EqPass = EqPass(memory: seq<Memory>, left: seq<real>, right: seq<real>)

  /** The bands in index order. One filter object serves both channels: it
      runs over the left channel from the memory it brought from the last
      callback, then over the right channel from the memory the left pass
      left, and keeps what the right pass leaves. */
  function RunBands(p: Primitives, sampleRate: nat, bands: seq<FilterParams>, memory: seq<Memory>,
                    l: seq<real>, r: seq<real>): (e: EqPass)
    requires LengthPreserving(p) && |memory| == |bands|
    ensures |e.memory| == |bands| && |e.left| == |l| && |e.right| == |r|
    decreases |bands|
  {
    if |bands| == 0 then EqPass([], l, r)
    else
      var afterLeft := p.filter(bands[0], sampleRate, memory[0], l);
      var afterRight := p.filter(bands[0], sampleRate, afterLeft.0, r);
      var rest := RunBands(p, sampleRate, bands[1..], memory[1..], afterLeft.1, afterRight.1);
      EqPass([afterRight.0] + rest.memory, rest.left, rest.right)
  }

  /** A band at 0 dB passes its input through, whatever its memory. */
  ghost predicate FlatIsIdentity(p: Primitives) {
    forall fp: FilterParams, sr: nat, m: Memory, x: seq<real> ::
      fp.decibel == 0.0 ==> p.filter(fp, sr, m, x).1 == x
  }

  /** A filter whose output does not depend on its memory. */
  ghost predicate Memoryless(p: Primitives) {
    forall fp: FilterParams, sr: nat, m: Memory, m': Memory, x: seq<real> ::
      p.filter(fp, sr, m, x).1 == p.filter(fp, sr, m', x).1
  }

  /** Flat bands pass both channels through. */
  lemma {:induction false} RunBandsFlat(p: Primitives, sampleRate: nat, bands: seq<FilterParams>,
                                        memory: seq<Memory>, l: seq<real>, r: seq<real>)
    requires LengthPreserving(p) && FlatIsIdentity(p) && |memory| == |bands|
    requires forall i :: 0 <= i < |bands| ==> bands[i].decibel == 0.0
    ensures RunBands(p, sampleRate, bands, memory, l, r).left == l
    ensures RunBands(p, sampleRate, bands, memory, l, r).right == r
    decreases |bands|
  {
    if |bands| > 0 {
      var afterLeft := p.filter(bands[0], sampleRate, memory[0], l);
      assert afterLeft.1 == l;
      assert p.filter(bands[0], sampleRate, afterLeft.0, r).1 == r;
      RunBandsFlat(p, sampleRate, bands[1..], memory[1..], l, r);
    }
  }

  /** Each band sees the left channel before the right one, so the left
      output does not depend on the right input. */
  lemma {:induction false} RunBandsLeftIgnoresRight(p: Primitives, sampleRate: nat, bands: seq<FilterParams>,
                                                    memory: seq<Memory>, l: seq<real>, r: seq<real>, r': seq<real>)
    requires LengthPreserving(p) && |memory| == |bands|
    ensures RunBands(p, sampleRate, bands, memory, l, r).left == RunBands(p, sampleRate, bands, memory, l, r').left
    decreases |bands|
  {
    if |bands| > 0 {
      var afterLeft := p.filter(bands[0], sampleRate, memory[0], l);
      RunBandsLeftIgnoresRight(p, sampleRate, bands[1..], memory[1..], afterLeft.1,
        p.filter(bands[0], sampleRate, afterLeft.0, r).1, p.filter(bands[0], sampleRate, afterLeft.0, r').1);
    }
  }

  /** Only when the filters keep no memory that matters is the right
      output free of the left input: the shared filter object is the one
      path from the left channel into the right. */
  lemma {:induction false} RunBandsRightIgnoresLeftWhenMemoryless(
    p: Primitives, sampleRate: nat, bands: seq<FilterParams>, memory: seq<Memory>,
    l: seq<real>, l': seq<real>, r: seq<real>)
    requires LengthPreserving(p) && Memoryless(p) && |memory| == |bands|
    ensures RunBands(p, sampleRate, bands, memory, l, r).right == RunBands(p, sampleRate, bands, memory, l', r).right
    decreases |bands|
  {
    if |bands| > 0 {
      var afterLeft := p.filter(bands[0], sampleRate, memory[0], l);
      var afterLeft' := p.filter(bands[0], sampleRate, memory[0], l');
      var afterRight := p.filter(bands[0], sampleRate, afterLeft.0, r);
      assert afterRight.1 == p.filter(bands[0], sampleRate, afterLeft'.0, r).1;
      RunBandsRightIgnoresLeftWhenMemoryless(p, sampleRate, bands[1..], memory[1..], afterLeft.1, afterLeft'.1, afterRight.1);
    }
  }

  /** `applyEQ`: split the buffer into channels, copy each stored gain into
      its band, run the bands over both channels, join. The filters keep
      their memory across callbacks. */
  function ApplyEQ(c: Chain, x: seq<Frame>, p: Primitives): (r: Stage)
    requires Valid(c) && LengthPreserving(p)
    ensures |r.out| == |x|
    ensures |x| <= c.scratch.maxFrames ==> Valid(r.chain) && r.chain.scratch == c.scratch
    ensures |r.chain.bands| == NumBands && |r.chain.eqMemory| == NumBands
    ensures forall i :: 0 <= i < NumBands ==> r.chain.bands[i] == c.bands[i].(decibel := c.eqGainsDb[i])
    ensures r.chain == c.(scratch := r.chain.scratch, bands := r.chain.bands, eqMemory := r.chain.eqMemory)
  {
    var s := EnsureCapacity(EqGrow(c.scratch, |x|), |x|);
    var bands := BuildBands(c.eqGainsDb);
    var e := RunBands(p, c.bandRate, bands, c.eqMemory, Lefts(x), Rights(x));
    Stage(c.(scratch := s, bands := bands, eqMemory := e.memory), Join(e.left, e.right))
  }

  /** The left channel of the EQ output depends only on the left channel
      of its input. */
  lemma EqLeftIgnoresRight(c: Chain, x: seq<Frame>, x': seq<Frame>, p: Primitives)
    requires Valid(c) && LengthPreserving(p) && |x| == |x'| && Lefts(x) == Lefts(x')
    ensures Lefts(ApplyEQ(c, x, p).out) == Lefts(ApplyEQ(c, x', p).out)
  {
    var bands := BuildBands(c.eqGainsDb);
    RunBandsLeftIgnoresRight(p, c.bandRate, bands, c.eqMemory, Lefts(x), Rights(x), Rights(x'));
    var e := RunBands(p, c.bandRate, bands, c.eqMemory, Lefts(x), Rights(x));
    var e' := RunBands(p, c.bandRate, bands, c.eqMemory, Lefts(x'), Rights(x'));
    SplitJoin(e.left, e.right);
    SplitJoin(e'.left, e'.right);
  }

  /** With memoryless filters the right channel of the EQ output depends
      only on the right channel of its input. */
  lemma EqRightIgnoresLeftWhenMemoryless(c: Chain, x: seq<Frame>, x': seq<Frame>, p: Primitives)
    requires Valid(c) && LengthPreserving(p) && Memoryless(p) && |x| == |x'| && Rights(x) == Rights(x')
    ensures Rights(ApplyEQ(c, x, p).out) == Rights(ApplyEQ(c, x', p).out)
  {
    var bands := BuildBands(c.eqGainsDb);
    RunBandsRightIgnoresLeftWhenMemoryless(p, c.bandRate, bands, c.eqMemory, Lefts(x), Lefts(x'), Rights(x));
    var e := RunBands(p, c.bandRate, bands, c.eqMemory, Lefts(x), Rights(x));
    var e' := RunBands(p, c.bandRate, bands, c.eqMemory, Lefts(x'), Rights(x'));
    SplitJoin(e.left, e.right);
    SplitJoin(e'.left, e'.right);
  }

  /** With every band at 0 dB and flat bands transparent, the EQ leaves the buffer unchanged. */
  lemma EqFlatIsIdentity(c: Chain, x: seq<Frame>, p: Primitives)
    requires Valid(c) && LengthPreserving(p) && FlatIsIdentity(p)
    requires forall i :: 0 <= i < NumBands ==> c.eqGainsDb[i] == 0.0
    ensures ApplyEQ(c, x, p).out == x
  {
    var bands := BuildBands(c.eqGainsDb);
    RunBandsFlat(p, c.bandRate, bands, c.eqMemory, Lefts(x), Rights(x));
    JoinSplit(x);
  }

  /** `fabsf(makeup - 1) < 1e-6`. */
  predicate UnityMakeup(makeup: real) {
    -UnityTolerance < makeup - 1.0 < UnityTolerance
  }

  /** The result of `applyCompressor`: the compressor state after it and the buffer. */
  datatype Compressed = Compressed(comp: Compressor, out: seq<Frame>)

  /** `applyCompressor`. With ratio at most 1 it only applies the makeup gain,
      skipping even that when the makeup is unity. Otherwise the envelope
      passes run (an external primitive) and only the envelope changes in the
      compressor state. */
  function ApplyCompressor(k: Compressor, x: seq<Frame>, p: Primitives): (r: Compressed)
    requires LengthPreserving(p)
    ensures |r.out| == |x|
    ensures |x| == 0 ==> r == Compressed(k, x)
    ensures k.ratio <= 1.0 ==> r.comp == k
    ensures k.ratio <= 1.0 && UnityMakeup(k.makeup) ==> r.out == x
    ensures k.ratio <= 1.0 && |x| > 0 && !UnityMakeup(k.makeup) ==>
              forall i :: 0 <= i < |x| ==>
                r.out[i] == Frame(k.makeup * x[i].left, k.makeup * x[i].right)
    ensures r.comp == k.(env := r.comp.env)
  {
    if |x| == 0 then Compressed(k, x)
    else if k.ratio <= 1.0 then
      if UnityMakeup(k.makeup) then Compressed(k, x) else Compressed(k, Scale(x, k.makeup))
    else
      var res := p.compress(CompressorParams(k.threshold, k.ratio, k.attackCoeff, k.releaseCoeff, k.makeup), k.env, x);
      Compressed(k.(env := res.0), res.1)
  }

  /** The spatializer input volume for a source at `distance` metres:
      0.5 scaled by an inverse-square attenuation that never amplifies,
      with distances below 0.2 m treated as 0.2 m. */
  function InputVolume(distance: real): (v: real)
    ensures 0.0 < v <= BaseInputVolume
    ensures distance <= 1.0 ==> v == BaseInputVolume
    ensures distance >= 1.0 ==> v * distance * distance == BaseInputVolume
  {
    var d := if distance > MinDistance then distance else MinDistance;
    var inv := 1.0 / (d * d);
    var attenuation := if inv < 1.0 then inv else 1.0;
    InverseSquare(d);
    BaseInputVolume * attenuation
  }

  lemma InverseSquare(d: real)
    requires d > 0.0
    ensures d <= 1.0 ==> 1.0 / (d * d) >= 1.0
    ensures d >= 1.0 ==> 1.0 / (d * d) <= 1.0 && 1.0 / (d * d) * (d * d) == 1.0
  {
    if d <= 1.0 {
      assert d * d <= d * 1.0;
    } else {
      assert d * d >= d * 1.0;
    }
  }

  /** The input volume does not grow as the source moves away. */
  lemma InputVolumeMonotone(d1: real, d2: real)
    requires d1 <= d2
    ensures InputVolume(d2) <= InputVolume(d1)
  {
    if d2 > 1.0 {
      var v1 := InputVolume(d1);
      var v2 := InputVolume(d2);
      if d1 >= 1.0 {
        assert d1 * d1 <= d2 * d2 by {
          MulNonneg(d1, d2 - d1);
          MulNonneg(d2, d2 - d1);
        }
        assert v2 * (d2 * d2) == v1 * (d1 * d1);
      }
    }
  }

  /** The yaw the spatial stage subtracts: the stored head yaw when head
      tracking is on, otherwise 0. */
  function EffectiveYaw(c: Chain): (yaw: real)
    ensures !c.headTrackingEnabled ==> yaw == 0.0
    ensures c.headTrackingEnabled ==> yaw == c.headYawDeg
  {
    if c.headTrackingEnabled then c.headYawDeg else 0.0
  }

  /** The parameters written into one source's spatializer: its direction
      relative to the head, wrapped into [-180, 180]; the global elevation;
      a 0.1 reverb mix; and the distance-based input volume. */
  function SourceParams(c: Chain, offsetDeg: real): (sp: SpatialParams)
    ensures -180.0 <= sp.azimuth <= 180.0
    ensures Angles.IsWholeTurns((offsetDeg + c.azimuthDeg - EffectiveYaw(c)) - sp.azimuth)
    ensures sp.elevation == c.elevationDeg && sp.reverbmix == SpatialReverbMix
    ensures sp.inputVolume == InputVolume(c.distanceMeters)
  {
    SpatialParams(
      Angles.Normalize180((offsetDeg + c.azimuthDeg) - EffectiveYaw(c)),
      c.elevationDeg, SpatialReverbMix, InputVolume(c.distanceMeters))
  }

  /** `applySpatial`, writing into `spatialOutputTemp`. Disabled, it is a
      copy. Enabled, the left channel is rendered as a source 30 degrees to
      the left of the global azimuth and the right channel 30 degrees to the
      right, both ADDED into a zeroed output; each spatializer carries its
      memory on to the next callback. */
  function ApplySpatial(c: Chain, x: seq<Frame>, p: Primitives): (r: Stage)
    requires Valid(c) && LengthPreserving(p)
    ensures |r.out| == |x|
    ensures Valid(r.chain)
    ensures !c.spatialEnabled ==> r == Stage(c, x)
    ensures c.spatialEnabled ==>
              var left := p.spatialize(SourceParams(c, -SourceSpreadDeg), c.spatialL.sampleRate,
                                       c.spatialL.memory, Lefts(x), Zeros(|x|));
              var right := p.spatialize(SourceParams(c, SourceSpreadDeg), c.spatialR.sampleRate,
                                        c.spatialR.memory, Rights(x), left.1);
              && r.chain.spatialL == SpatialUnit(c.spatialL.sampleRate, SourceParams(c, -SourceSpreadDeg), left.0)
              && r.chain.spatialR == SpatialUnit(c.spatialR.sampleRate, SourceParams(c, SourceSpreadDeg), right.0)
              && r.out == right.1
    ensures r.chain == c.(spatialL := r.chain.spatialL, spatialR := r.chain.spatialR)
    ensures r.chain.spatialL.sampleRate == c.spatialL.sampleRate
    ensures r.chain.spatialR.sampleRate == c.spatialR.sampleRate
  {
    if !c.spatialEnabled then Stage(c, x)
    else
      var pl := SourceParams(c, -SourceSpreadDeg);
      var pr := SourceParams(c, SourceSpreadDeg);
      var left := p.spatialize(pl, c.spatialL.sampleRate, c.spatialL.memory, Lefts(x), Zeros(|x|));
      var right := p.spatialize(pr, c.spatialR.sampleRate, c.spatialR.memory, Rights(x), left.1);
      Stage(c.(spatialL := SpatialUnit(c.spatialL.sampleRate, pl, left.0),
               spatialR := SpatialUnit(c.spatialR.sampleRate, pr, right.0)), right.1)
  }

  /** One sample of the mix: `dry * (1 - w) + wet * w`. */
  function MixSample(dry: real, wet: real, w: real): (o: real)
    ensures o == dry + w * (wet - dry)
  {
    dry * (1.0 - w) + wet * w
  }

  /** The wet/dry mix of two buffers, sample by sample. */
  function Mix(dry: seq<Frame>, wet: seq<Frame>, w: real): (out: seq<Frame>)
    requires |dry| == |wet|
    ensures |out| == |dry|
    ensures forall i :: 0 <= i < |dry| ==>
              out[i] == Frame(MixSample(dry[i].left, wet[i].left, w), MixSample(dry[i].right, wet[i].right, w))
  {
    seq(|dry|, i requires 0 <= i < |dry| =>
      Frame(MixSample(dry[i].left, wet[i].left, w), MixSample(dry[i].right, wet[i].right, w)))
  }

  /** The mix is convex: at w = 0 it is the dry signal, at w = 1 the wet
      one, and mixing a signal with itself changes nothing. */
  lemma MixEndpoints(dry: seq<Frame>, wet: seq<Frame>)
    requires |dry| == |wet|
    ensures Mix(dry, wet, 0.0) == dry
    ensures Mix(dry, wet, 1.0) == wet
    ensures forall w :: Mix(dry, dry, w) == dry
  {
    assert forall i :: 0 <= i < |dry| ==> Mix(dry, wet, 0.0)[i] == dry[i];
    assert forall i :: 0 <= i < |dry| ==> Mix(dry, wet, 1.0)[i] == wet[i];
    forall w
      ensures Mix(dry, dry, w) == dry
    {
      assert forall i :: 0 <= i < |dry| ==> Mix(dry, dry, w)[i] == dry[i];
    }
  }

  /** Each mixed sample lies between its dry and its wet value. */
  lemma MixBetween(dry: seq<Frame>, wet: seq<Frame>, w: real, i: nat)
    requires |dry| == |wet| && 0.0 <= w <= 1.0 && i < |dry|
    ensures var o := Mix(dry, wet, w)[i];
            && (dry[i].left <= o.left <= wet[i].left || wet[i].left <= o.left <= dry[i].left)
            && (dry[i].right <= o.right <= wet[i].right || wet[i].right <= o.right <= dry[i].right)
  {
    MixSampleBetween(dry[i].left, wet[i].left, w);
    MixSampleBetween(dry[i].right, wet[i].right, w);
  }

  lemma MixSampleBetween(dry: real, wet: real, w: real)
    requires 0.0 <= w <= 1.0
    ensures var o := MixSample(dry, wet, w);
            dry <= o <= wet || wet <= o <= dry
  {
    MixSampleOffsets(dry, wet, w);
    if dry <= wet {
      MulNonneg(w, wet - dry);
      MulNonneg(1.0 - w, wet - dry);
    } else {
      MulNonneg(w, dry - wet);
      MulNonneg(1.0 - w, dry - wet);
    }
  }

  /** A mixed sample sits `w` of the way from the dry value to the wet one,
      and `1 - w` of the way back from the wet one. */
  lemma MixSampleOffsets(dry: real, wet: real, w: real)
    ensures MixSample(dry, wet, w) - dry == w * (wet - dry)
    ensures wet - MixSample(dry, wet, w) == (1.0 - w) * (wet - dry)
  {
  }

  lemma MulNonneg(a: real, b: real)
    requires a >= 0.0 && b >= 0.0
    ensures a * b >= 0.0
  {
  }

  /** `applyReverb`. Absent or disabled, the buffer is untouched. Enabled,
      the input is copied into `interleavedTemp`, the reverb renders into it
      (or leaves the copy when it writes nothing), and the buffer becomes the
      mix with the wet amount clamped to [0, 1]. The reverb keeps its tail
      for the next callback. */
  function ApplyReverb(c: Chain, x: seq<Frame>, p: Primitives): (r: Stage)
    requires Valid(c) && LengthPreserving(p)
    ensures |r.out| == |x|
    ensures Valid(r.chain)
    ensures r.chain == c.(scratch := r.chain.scratch, reverb := r.chain.reverb)
    ensures |x| <= c.scratch.maxFrames ==> r.chain.scratch == c.scratch
    ensures !c.reverbEnabled ==> r == Stage(c, x)
    ensures c.reverbEnabled ==>
              var render := p.reverb(c.reverb.value.sampleRate, c.reverb.value.memory, x);
              && r.chain.reverb == Some(c.reverb.value.(memory := render.0))
              && r.out == Mix(x, if render.1.Some? then render.1.value else x, Clamp(c.reverbWet, 0.0, 1.0))
  {
    if c.reverb.None? || !c.reverbEnabled then Stage(c, x)
    else
      var s := EnsureCapacity(c.scratch, |x|);
      var render := p.reverb(c.reverb.value.sampleRate, c.reverb.value.memory, x);
      var wet := if render.1.Some? then render.1.value else x;
      Stage(c.(scratch := s, reverb := Some(c.reverb.value.(memory := render.0))),
            Mix(x, wet, Clamp(c.reverbWet, 0.0, 1.0)))
  }

  /** A reverb that writes nothing leaves the buffer as it was. */
  lemma ReverbSilentRenderIsIdentity(c: Chain, x: seq<Frame>, p: Primitives)
    requires Valid(c) && LengthPreserving(p)
    requires p.reverb(c.reverb.value.sampleRate, c.reverb.value.memory, x).1.None?
    ensures ApplyReverb(c, x, p).out == x
  {
    MixEndpoints(x, x);
  }

  /** The rate bookkeeping at the top of `process`: a new stream rate is
      recorded and handed to the reverb; filters and spatializers keep the
      rate they were built with. */
  function Retune(c: Chain, sampleRate: nat): (c': Chain)
    requires Valid(c)
    ensures Valid(c')
    ensures c'.sampleRate == sampleRate
    ensures c'.reverb == Some(c.reverb.value.(sampleRate := sampleRate))
    ensures c' == c.(sampleRate := c'.sampleRate, reverb := c'.reverb)
  {
    if sampleRate != c.sampleRate then
      c.(sampleRate := sampleRate, reverb := Some(c.reverb.value.(sampleRate := sampleRate)))
    else c
  }

  /** What no stage of `process` changes: everything the setters own. */
  predicate SameSettings(c: Chain, c': Chain) {
    && c'.eqGainsDb == c.eqGainsDb
    && c'.reverbEnabled == c.reverbEnabled && c'.reverbWet == c.reverbWet
    && c'.spatialEnabled == c.spatialEnabled && c'.headTrackingEnabled == c.headTrackingEnabled
    && c'.headYawDeg == c.headYawDeg && c'.azimuthDeg == c.azimuthDeg
    && c'.elevationDeg == c.elevationDeg && c'.distanceMeters == c.distanceMeters
    && c'.comp.threshold == c.comp.threshold && c'.comp.ratio == c.comp.ratio
    && c'.comp.attackMs == c.comp.attackMs && c'.comp.releaseMs == c.comp.releaseMs
    && c'.comp.makeup == c.comp.makeup
  }

  /** The result of `process`: the chain afterwards and the buffer (None for a null buffer). */
  datatype Processed = Processed(chain: Chain, buffer: Option<seq<Frame>>)

  /** `process`: nothing for a null buffer or zero frames; otherwise grow
      the scratch, record the rate, then EQ, compressor, spatial (into
      scratch, copied back) and reverb, in that order. */
  function Process(c: Chain, buf: Option<seq<Frame>>, sampleRate: nat, p: Primitives): (r: Processed)
    requires Valid(c) && LengthPreserving(p)
    ensures buf.None? ==> r == Processed(c, buf)
    ensures buf.Some? && |buf.value| == 0 ==> r == Processed(c, buf)
    ensures Valid(r.chain) && SameSettings(c, r.chain)
    ensures r.chain.comp == c.comp.(env := r.chain.comp.env) && r.chain.bandRate == c.bandRate
    ensures buf.Some? ==> r.buffer.Some? && |r.buffer.value| == |buf.value|
    ensures buf.Some? && |buf.value| > 0 ==>
              && r.chain.sampleRate == sampleRate
              && r.chain.scratch == EnsureCapacity(c.scratch, |buf.value|)
              && r.chain.scratch.spatialOutLen >= 2 * |buf.value|
  {
    if buf.None? || |buf.value| == 0 then Processed(c, buf)
    else
      var x := buf.value;
      var c1 := Retune(c.(scratch := EnsureCapacity(c.scratch, |x|)), sampleRate);
      var st := Stages(c1, x, p);
      Processed(st.chain, Some(st.out))
  }

  /** The four stages in order on a chain whose scratch already covers the
      buffer: EQ, compressor, spatial, reverb. Only run-time state changes. */
  function Stages(c: Chain, x: seq<Frame>, p: Primitives): (r: Stage)
    requires Valid(c) && LengthPreserving(p) && |x| <= c.scratch.maxFrames
    ensures |r.out| == |x|
    ensures Valid(r.chain) && SameSettings(c, r.chain)
    ensures r.chain.comp == c.comp.(env := r.chain.comp.env)
    ensures r.chain.bandRate == c.bandRate && r.chain.sampleRate == c.sampleRate
    ensures r.chain.scratch == c.scratch
  {
    var eq := ApplyEQ(c, x, p);
    var comp := ApplyCompressor(eq.chain.comp, eq.out, p);
    var spatial := ApplySpatial(eq.chain.(comp := comp.comp), comp.out, p);
    ApplyReverb(spatial.chain, spatial.out, p)
  }

  // ---------------------------------------------------------------------
  // Setters

  /** `setEQBand`: stores the gain for a band index in [0, 5); any other index is ignored. */
  function SetEQBand(c: Chain, bandIndex: int, gainDb: real): (c': Chain)
    requires Valid(c)
    ensures Valid(c')
    ensures 0 <= bandIndex < NumBands ==> c'.eqGainsDb[bandIndex] == gainDb
    ensures forall i :: 0 <= i < NumBands && i != bandIndex ==> c'.eqGainsDb[i] == c.eqGainsDb[i]
    ensures c' == c.(eqGainsDb := c'.eqGainsDb)
    ensures !(0 <= bandIndex < NumBands) ==> c' == c
  {
    if bandIndex < 0 || bandIndex >= NumBands then c
    else c.(eqGainsDb := c.eqGainsDb[bandIndex := gainDb])
  }

  /** The time floor: at least 0.1 ms. */
  function FloorMs(ms: real): (r: real)
    ensures r >= MinTimeMs
    ensures ms > MinTimeMs ==> r == ms
    ensures ms <= MinTimeMs ==> r == MinTimeMs
  {
    if ms <= MinTimeMs then MinTimeMs else ms
  }

  /** The one-pole smoothing coefficient `expf(-1 / (0.001 * ms * sr))`.
      At a zero rate the float division gives minus infinity and the
      coefficient is 0. */
  function SmoothingCoeff(num: Numerics, ms: real, sampleRate: nat): (k: real)
    requires ms >= MinTimeMs
    ensures sampleRate == 0 ==> k == 0.0
    ensures sampleRate > 0 ==> exists t :: t < 0.0 && k == num.exp(t)
  {
    if sampleRate == 0 then 0.0
    else
      var secs := 0.001 * ms;
      var denom := secs * sampleRate as real;
      assert denom > 0.0 by { assert secs > 0.0; }
      var t := -1.0 / denom;
      assert t < 0.0;
      num.exp(t)
  }

  /** `setCompressor`: threshold and makeup from dB, a ratio below 1 raised
      to 1, attack and release floored at 0.1 ms, and the coefficients
      recomputed at the current rate. The envelope is kept. */
  function SetCompressor(c: Chain, num: Numerics, thresholdDb: real, ratio: real,
                         attackMs: real, releaseMs: real, makeupDb: real): (c': Chain)
    requires Valid(c)
    ensures Valid(c')
    ensures c'.comp.ratio >= 1.0 && (ratio > 1.0 ==> c'.comp.ratio == ratio) && (ratio <= 1.0 ==> c'.comp.ratio == 1.0)
    ensures c'.comp.attackMs == FloorMs(attackMs) && c'.comp.releaseMs == FloorMs(releaseMs)
    ensures c'.comp.attackCoeff == SmoothingCoeff(num, FloorMs(attackMs), c.sampleRate)
    ensures c'.comp.releaseCoeff == SmoothingCoeff(num, FloorMs(releaseMs), c.sampleRate)
    ensures c'.comp.threshold == num.dbToLinear(thresholdDb) && c'.comp.makeup == num.dbToLinear(makeupDb)
    ensures c'.comp.env == c.comp.env
    ensures c' == c.(comp := c'.comp)
  {
    var atk := FloorMs(attackMs);
    var rel := FloorMs(releaseMs);
    c.(comp := Compressor(
      num.dbToLinear(thresholdDb), if ratio <= 1.0 then 1.0 else ratio, atk, rel,
      SmoothingCoeff(num, atk, c.sampleRate), SmoothingCoeff(num, rel, c.sampleRate),
      num.dbToLinear(makeupDb), c.comp.env))
  }

  /** `setReverb`: the flag goes to both the atomic and the reverb object, the wet amount is clamped. */
  function SetReverb(c: Chain, enabled: bool, wet: real): (c': Chain)
    requires Valid(c)
    ensures Valid(c')
    ensures c'.reverbEnabled == enabled && c'.reverb.value.enabled == enabled
    ensures c'.reverbWet == Clamp(wet, 0.0, 1.0)
    ensures 0.0 <= wet <= 1.0 ==> c'.reverbWet == wet
    ensures c' == c.(reverbEnabled := enabled, reverb := c'.reverb, reverbWet := c'.reverbWet)
    ensures c'.reverb.value.sampleRate == c.reverb.value.sampleRate
  {
    c.(reverbEnabled := enabled,
       reverb := Some(c.reverb.value.(enabled := enabled)),
       reverbWet := Clamp(wet, 0.0, 1.0))
  }

  function SetSpatialEnabled(c: Chain, enabled: bool): (c': Chain)
    requires Valid(c)
    ensures Valid(c') && c'.spatialEnabled == enabled
    ensures c' == c.(spatialEnabled := enabled)
  {
    c.(spatialEnabled := enabled)
  }

  /** `setSpatialPosition`: stored as given, with no validation. */
  function SetSpatialPosition(c: Chain, azimuthDeg: real, elevationDeg: real, distanceMeters: real): (c': Chain)
    requires Valid(c)
    ensures Valid(c')
    ensures c'.azimuthDeg == azimuthDeg && c'.elevationDeg == elevationDeg && c'.distanceMeters == distanceMeters
    ensures c' == c.(azimuthDeg := azimuthDeg, elevationDeg := elevationDeg, distanceMeters := distanceMeters)
  {
    c.(azimuthDeg := azimuthDeg, elevationDeg := elevationDeg, distanceMeters := distanceMeters)
  }

  /** `setHeadTrackingYaw`: clamped (not wrapped) into [-180, 180]. */
  function SetHeadTrackingYaw(c: Chain, yawDeg: real): (c': Chain)
    requires Valid(c)
    ensures Valid(c')
    ensures -180.0 <= c'.headYawDeg <= 180.0
    ensures -180.0 <= yawDeg <= 180.0 ==> c'.headYawDeg == yawDeg
    ensures yawDeg > 180.0 ==> c'.headYawDeg == 180.0
    ensures yawDeg < -180.0 ==> c'.headYawDeg == -180.0
    ensures c' == c.(headYawDeg := c'.headYawDeg)
  {
    c.(headYawDeg := Clamp(yawDeg, -180.0, 180.0))
  }

  function SetHeadTrackingEnabled(c: Chain, enabled: bool): (c': Chain)
    requires Valid(c)
    ensures Valid(c') && c'.headTrackingEnabled == enabled
    ensures c' == c.(headTrackingEnabled := enabled)
  {
    c.(headTrackingEnabled := enabled)
  }

  /** The `(unsigned int)` cast of a JNI `int`. */
  function AsUnsigned32(x: int): (u: nat)
    requires IsInt32(x)
    ensures x >= 0 ==> u == x
    ensures x < 0 ==> u == x + Int32Modulus
  {
    if x < 0 then x + Int32Modulus else x
  }

  /** `prepare`: a zero or unchanged rate does nothing. A new rate rebuilds
      the bands (keeping the stored gains) and the spatializers (input volume
      0.5), all with fresh memory, moves the reverb object (tail included)
      to the new rate with the stored enabled flag,
      and recomputes the compressor coefficients from the stored times,
      floored at 0.1 ms. Threshold, ratio, makeup and envelope are kept. */
  function Prepare(c: Chain, sampleRate: int, num: Numerics): (c': Chain)
    requires Valid(c) && IsInt32(sampleRate)
    ensures Valid(c') && SameSettings(c, c') && c'.comp.env == c.comp.env
    ensures AsUnsigned32(sampleRate) == 0 || AsUnsigned32(sampleRate) == c.sampleRate ==> c' == c
    ensures AsUnsigned32(sampleRate) != 0 && AsUnsigned32(sampleRate) != c.sampleRate ==>
              var sr := AsUnsigned32(sampleRate);
              && c'.sampleRate == sr && c'.bandRate == sr
              && c'.reverb == Some(ReverbUnit(sr, c.reverbEnabled, c.reverb.value.memory))
              && (forall i :: 0 <= i < NumBands ==> c'.bands[i].decibel == c.eqGainsDb[i])
              && c'.eqMemory == FreshBandMemory()
              && c'.spatialL == FreshSpatializer(sr) && c'.spatialR == FreshSpatializer(sr)
              && c'.comp.attackCoeff == SmoothingCoeff(num, FloorMs(c.comp.attackMs), sr)
              && c'.comp.releaseCoeff == SmoothingCoeff(num, FloorMs(c.comp.releaseMs), sr)
              && c'.scratch == c.scratch
  {
    var sr := AsUnsigned32(sampleRate);
    if sr == 0 || sr == c.sampleRate then c
    else
      c.(sampleRate := sr,
         reverb := Some(c.reverb.value.(sampleRate := sr, enabled := c.reverbEnabled)),
         bandRate := sr,
         bands := BuildBands(c.eqGainsDb),
         eqMemory := FreshBandMemory(),
         spatialL := FreshSpatializer(sr),
         spatialR := FreshSpatializer(sr),
         comp := c.comp.(attackCoeff := SmoothingCoeff(num, FloorMs(c.comp.attackMs), sr),
                         releaseCoeff := SmoothingCoeff(num, FloorMs(c.comp.releaseMs), sr)))
  }
}

=== FILE: dsp_chain_order.dfy ===
/** The stage order of `process` in the native effects chain
    (AudioDspChain.cpp): with some stages in their bypass state, the output
    is the remaining stages applied one after the other, in the source's
    order. Together these lemmas pin every adjacent pair of stages. */
module AudioDspChainOrder {
  import opened Audio
  import opened Wrappers
  import opened Externals
  import opened Numeric
  import opened AudioDspChain

  /** With every stage in its bypass state (flat EQ, compressor at ratio 1
      with unity makeup, spatial and reverb off), `process` hands the buffer
      back unchanged. */
  lemma ProcessBypassIsIdentity(c: Chain, x: seq<Frame>, sampleRate: nat, p: Primitives)
    requires Valid(c) && LengthPreserving(p) && FlatIsIdentity(p)
    requires forall i :: 0 <= i < NumBands ==> c.eqGainsDb[i] == 0.0
    requires c.comp.ratio <= 1.0 && UnityMakeup(c.comp.makeup)
    requires !c.spatialEnabled && !c.reverbEnabled
    ensures Process(c, Some(x), sampleRate, p).buffer == Some(x)
  {
    if |x| > 0 {
      var c1 := Retune(c.(scratch := EnsureCapacity(c.scratch, |x|)), sampleRate);
      EqFlatIsIdentity(c1, x, p);
    }
  }

  /** With spatial and reverb off, the output is the compressor applied to
      the EQ output: the two dynamic stages see the buffer in that order. */
  lemma ProcessDryPath(c: Chain, x: seq<Frame>, sampleRate: nat, p: Primitives)
    requires Valid(c) && LengthPreserving(p) && |x| > 0
    requires !c.spatialEnabled && !c.reverbEnabled
    ensures var c1 := Retune(c.(scratch := EnsureCapacity(c.scratch, |x|)), sampleRate);
            var eq := ApplyEQ(c1, x, p);
            Process(c, Some(x), sampleRate, p).buffer == Some(ApplyCompressor(c.comp, eq.out, p).out)
  {
  }

  /** With the EQ flat, the compressor bypassed and spatial off, the output
      is the reverb mix of the input: the reverb sees what the earlier
      stages hand it, last. */
  lemma ProcessReverbLast(c: Chain, x: seq<Frame>, sampleRate: nat, p: Primitives)
    requires Valid(c) && LengthPreserving(p) && FlatIsIdentity(p) && |x| > 0
    requires forall i :: 0 <= i < NumBands ==> c.eqGainsDb[i] == 0.0
    requires c.comp.ratio <= 1.0 && UnityMakeup(c.comp.makeup)
    requires !c.spatialEnabled && c.reverbEnabled
    ensures var render := p.reverb(sampleRate, c.reverb.value.memory, x);
            Process(c, Some(x), sampleRate, p).buffer
              == Some(Mix(x, if render.1.Some? then render.1.value else x, c.reverbWet))
  {
    var c1 := Retune(c.(scratch := EnsureCapacity(c.scratch, |x|)), sampleRate);
    EqFlatIsIdentity(c1, x, p);
  }

  /** `process` on a non-empty buffer is the stages run on the chain with
      its scratch grown and its rate recorded. */
  lemma ProcessIsStages(c: Chain, x: seq<Frame>, sampleRate: nat, p: Primitives)
    requires Valid(c) && LengthPreserving(p) && |x| > 0
    ensures var c1 := Retune(c.(scratch := EnsureCapacity(c.scratch, |x|)), sampleRate);
            && Valid(c1) && |x| <= c1.scratch.maxFrames
            && Process(c, Some(x), sampleRate, p).buffer == Some(Stages(c1, x, p).out)
  {
  }

  /** Two chains that differ at most in the scratch, the EQ and the compressor. */
  predicate SameAfterEq(a: Chain, b: Chain) {
    b.(scratch := a.scratch, bands := a.bands, eqMemory := a.eqMemory, comp := a.comp) == a
  }

  /** The spatial stage reads only its own settings and units: the scratch,
      the EQ and the compressor do not reach its output. */
  lemma SpatialIgnoresEarlierStages(a: Chain, b: Chain, x: seq<Frame>, p: Primitives)
    requires Valid(a) && Valid(b) && LengthPreserving(p) && SameAfterEq(a, b)
    ensures ApplySpatial(b, x, p).out == ApplySpatial(a, x, p).out
  {
  }

  /** With the EQ flat and the compressor bypassed, the stages are the
      spatializer and then the reverb, on the EQ's chain. */
  lemma StagesAfterBypass(c: Chain, x: seq<Frame>, p: Primitives)
    requires Valid(c) && LengthPreserving(p) && FlatIsIdentity(p) && |x| <= c.scratch.maxFrames
    requires forall i :: 0 <= i < NumBands ==> c.eqGainsDb[i] == 0.0
    requires c.comp.ratio <= 1.0 && UnityMakeup(c.comp.makeup)
    ensures var sp := ApplySpatial(ApplyEQ(c, x, p).chain, x, p);
            Stages(c, x, p) == ApplyReverb(sp.chain, sp.out, p)
  {
    EqFlatIsIdentity(c, x, p);
    var eq := ApplyEQ(c, x, p);
    var comp := ApplyCompressor(eq.chain.comp, eq.out, p);
    assert comp.out == x && comp.comp == eq.chain.comp;
    assert eq.chain.(comp := comp.comp) == eq.chain;
  }

  /** With the EQ flat and reverb off, the output is the spatializer
      applied to the compressor's output: spatial runs after the
      compressor. */
  lemma ProcessCompressorThenSpatial(c: Chain, x: seq<Frame>, sampleRate: nat, p: Primitives)
    requires Valid(c) && LengthPreserving(p) && FlatIsIdentity(p) && |x| > 0
    requires forall i :: 0 <= i < NumBands ==> c.eqGainsDb[i] == 0.0
    requires !c.reverbEnabled
    ensures var c1 := Retune(c.(scratch := EnsureCapacity(c.scratch, |x|)), sampleRate);
            Process(c, Some(x), sampleRate, p).buffer
              == Some(ApplySpatial(c1, ApplyCompressor(c.comp, x, p).out, p).out)
  {
    ProcessIsStages(c, x, sampleRate, p);
    var c1 := Retune(c.(scratch := EnsureCapacity(c.scratch, |x|)), sampleRate);
    EqFlatIsIdentity(c1, x, p);
    var eq := ApplyEQ(c1, x, p);
    var comp := ApplyCompressor(eq.chain.comp, eq.out, p);
    var cs := eq.chain.(comp := comp.comp);
    SpatialIgnoresEarlierStages(c1, cs, comp.out, p);
    var sp := ApplySpatial(cs, comp.out, p);
    assert Stages(c1, x, p) == ApplyReverb(sp.chain, sp.out, p);
  }

  /** With the EQ flat, the compressor bypassed and both spatial and
      reverb on, the reverb mixes the spatializer's output with its own
      render of that output: spatial runs before reverb, and the reverb
      renders from the tail it kept at the new stream rate. */
  lemma ProcessSpatialThenReverb(c: Chain, x: seq<Frame>, sampleRate: nat, p: Primitives)
    requires Valid(c) && LengthPreserving(p) && FlatIsIdentity(p) && |x| > 0
    requires forall i :: 0 <= i < NumBands ==> c.eqGainsDb[i] == 0.0
    requires c.comp.ratio <= 1.0 && UnityMakeup(c.comp.makeup)
    requires c.spatialEnabled && c.reverbEnabled
    ensures var c1 := Retune(c.(scratch := EnsureCapacity(c.scratch, |x|)), sampleRate);
            var s := ApplySpatial(c1, x, p).out;
            var render := p.reverb(sampleRate, c.reverb.value.memory, s);
            Process(c, Some(x), sampleRate, p).buffer
              == Some(Mix(s, if render.1.Some? then render.1.value else s, c.reverbWet))
  {
    ProcessIsStages(c, x, sampleRate, p);
    var c1 := Retune(c.(scratch := EnsureCapacity(c.scratch, |x|)), sampleRate);
    StagesAfterBypass(c1, x, p);
    var eqc := ApplyEQ(c1, x, p).chain;
    SpatialIgnoresEarlierStages(c1, eqc, x, p);
    var sp := ApplySpatial(eqc, x, p);
    assert sp.chain.reverb == Some(c.reverb.value.(sampleRate := sampleRate));
    assert Clamp(sp.chain.reverbWet, 0.0, 1.0) == c.reverbWet;
  }
}

=== FILE: externals.dfy ===
/** What the core calls but does not define: the Superpowered filter, reverb
    and spatializer objects, the locally written compressor envelope
    arithmetic, and the float math library (`sin`, `expf`, `powf`). Each is a
    function value handed in by the caller, so nothing is assumed about it
    beyond what the stated preconditions say. */
module Externals {
  import opened Audio
  import opened Wrappers

  /** The libm functions the core uses. `dbToLinear(db)` is `powf(10, db * 0.05)`. */
  datatype Numerics = Numerics(sin: real -> real, exp: real -> real, dbToLinear: real -> real)

  /** Parameters of one Superpowered parametric filter band. */
  datatype FilterParams = FilterParams(frequency: real, octave: real, decibel: real)

  /** Parameters written into a Superpowered spatializer before it renders. */
  datatype SpatialParams = SpatialParams(azimuth: real, elevation: real, reverbmix: real, inputVolume: real)

  /** Compressor settings read by the active (ratio > 1) branch. */
  datatype CompressorParams = CompressorParams(
    threshold: real, ratio: real, attackCoeff: real, releaseCoeff: real, makeup: real)

  /** The internal memory of one Superpowered unit between calls: a
      filter's history, the reverb's tail, a spatializer's delay lines. The
      model does not look inside it; it only carries it from one call to
      the next, so that a unit's output may depend on everything it has
      processed since it was built. */
  type Memory = seq<real>

  /** What a freshly constructed unit holds. */
  const FreshMemory: Memory := []

  /** The DSP primitives. Each takes the unit's memory and returns the
      memory it leaves together with its output:
      - `filter(p, sampleRate, m, x)`: one band processing a mono buffer in place;
      - `reverb(sampleRate, m, x)`: the wet render, or None when the library
        reports that it wrote nothing into the output;
      - `spatialize(p, sampleRate, m, mono, acc)`: one virtual source rendered and ADDED into `acc`;
      - `compress(p, env, x)`: the two envelope passes of the active compressor,
        returning the final envelope and the processed buffer. */
  datatype Primitives = Primitives(
    filter: (FilterParams, nat, Memory, seq<real>) -> (Memory, seq<real>),
    reverb: (nat, Memory, seq<Frame>) -> (Memory, Option<seq<Frame>>),
    spatialize: (SpatialParams, nat, Memory, seq<real>, seq<Frame>) -> (Memory, seq<Frame>),
    compress: (CompressorParams, real, seq<Frame>) -> (real, seq<Frame>))

  /** Each primitive processes exactly the frames it is given. */
  ghost predicate LengthPreserving(p: Primitives) {
    && (forall fp, sr, m, x :: |p.filter(fp, sr, m, x).1| == |x|)
    && (forall sr, m, x :: p.reverb(sr, m, x).1.Some? ==> |p.reverb(sr, m, x).1.value| == |x|)
    && (forall sp, sr, m, mono, acc :: |p.spatialize(sp, sr, m, mono, acc).1| == |acc|)
    && (forall cp, env, x :: |p.compress(cp, env, x).1| == |x|)
  }
}

=== FILE: head_tracker.dfy ===
/** The rotation-vector head tracker: a start/stop state machine around the
    sensor registration, and the wrap-aware smoothing of the yaw it reports.
    The sensor maths that turns a rotation vector into an azimuth is outside
    the model; each event arrives here as an azimuth in degrees. */
module HeadTracker {
  import opened Wrappers
  import Angles

  /** Sampling period and batching latency, in microseconds, per mode. */
  datatype Mode = Foreground | BackgroundLowPower {
    function SamplingPeriodUs(): nat {
      if Foreground? then 20_000 else 200_000
    }
    function MaxReportLatencyUs(): nat {
      if Foreground? then 0 else 2_000_000
    }
  }

  /** Calls made on the platform sensor manager. */
  datatype SensorCall = Register(mode: Mode) | Unregister

  const Alpha: real := 0.15
  const MinDeltaDeg: real := 0.2

  datatype Tracker = Tracker(
    hasSensor: bool,
    isTracking: bool,
    currentMode: Option<Mode>,
    lastYaw: real,
    hasLast: bool,
    calls: seq<SensorCall>)

  predicate Valid(t: Tracker) {
    && (t.isTracking <==> t.currentMode.Some?)
    && (t.isTracking ==> t.hasSensor)
    && -180.0 <= t.lastYaw <= 180.0
  }

  /** A newly constructed tracker on a device with or without a rotation
      sensor. */
  function NewTracker(hasSensor: bool): (t: Tracker)
    ensures Valid(t) && !t.isTracking && !t.hasLast && t.calls == []
  {
    Tracker(hasSensor, false, None, 0.0, false, [])
  }

  // ---------------------------------------------------------------- angles

  /** `normalizeDeg180`. */
  function NormalizeDeg180(deg: real): (r: real)
    ensures -180.0 <= r <= 180.0
    ensures Angles.IsWholeTurns(deg - r)
  {
    Angles.Normalize180(deg)
  }

  /** `shortestAngleDelta(from, to)`: the same two loops applied to `to - from`. */
  function ShortestAngleDelta(from: real, to: real): (d: real)
    ensures -180.0 <= d <= 180.0
    ensures Angles.IsWholeTurns((to - from) - d)
  {
    Angles.Normalize180(to - from)
  }

  /** Going the short way from `from` lands on `to` up to whole turns, and
      when `to` is strictly inside the range it lands exactly. */
  lemma DeltaReachesTarget(from: real, to: real)
    requires -180.0 < to < 180.0
    ensures NormalizeDeg180(from + ShortestAngleDelta(from, to)) == to
  {
    var d := ShortestAngleDelta(from, to);
    var r := NormalizeDeg180(from + d);
    var x := (from + d) - r;
    var y := (to - from) - d;
    Angles.WholeTurnsAdd(x, y);
    assert x + y == to - r;
    Angles.WholeTurnsNeg(to - r);
    assert -(to - r) == r - to;
    Angles.CongruentInRange(r, to);
  }

  // ---------------------------------------------------------------- start / stop

  /** `stop`: nothing when idle; otherwise unregister and forget the
      smoothing history. */
  function Stop(t: Tracker): (t': Tracker)
    requires Valid(t)
    ensures Valid(t') && !t'.isTracking && t'.currentMode.None?
    ensures !t.isTracking ==> t' == t
    ensures t.isTracking ==> !t'.hasLast && t'.calls == t.calls + [Unregister]
    ensures t'.lastYaw == t.lastYaw && t'.hasSensor == t.hasSensor
  {
    if !t.isTracking then t
    else t.(isTracking := false, hasLast := false, currentMode := None, calls := t.calls + [Unregister])
  }

  lemma StopIdempotent(t: Tracker)
    requires Valid(t)
    ensures Stop(Stop(t)) == Stop(t)
  {
  }

  /** `start(mode)`: `mode` is `None` for a missing or non-`Mode` argument,
      which means `FOREGROUND`. `registerOk` is the sensor manager's answer
      to the registration. */
  function Start(t: Tracker, mode: Option<Mode>, registerOk: bool): (t': Tracker)
    requires Valid(t)
    ensures Valid(t')
    ensures !t.hasSensor ==> t' == t
    ensures t.isTracking && t.currentMode == Some(mode.GetOr(Foreground)) ==> t' == t
    ensures t'.isTracking <==>
              (t.hasSensor && (registerOk || (t.isTracking && t.currentMode == Some(mode.GetOr(Foreground)))))
    ensures t'.isTracking ==> t'.currentMode == Some(mode.GetOr(Foreground))
    ensures t.hasSensor && t.isTracking && t.currentMode != Some(mode.GetOr(Foreground)) ==>
              t'.calls == t.calls + [Unregister, Register(mode.GetOr(Foreground))] && !t'.hasLast
    ensures t.hasSensor && !t.isTracking ==> t'.calls == t.calls + [Register(mode.GetOr(Foreground))]
  {
    var target := mode.GetOr(Foreground);
    if !t.hasSensor then t
    else if t.isTracking && t.currentMode == Some(target) then t
    else
      var stopped := if t.isTracking then Stop(t) else t;
      var registered := stopped.(calls := stopped.calls + [Register(target)]);
      if !registerOk then registered
      else registered.(isTracking := true, currentMode := Some(target))
  }

  /** Starting twice in the same mode registers once. */
  lemma StartTwiceRegistersOnce(t: Tracker, mode: Option<Mode>)
    requires Valid(t) && t.hasSensor && !t.isTracking
    ensures Start(Start(t, mode, true), mode, true) == Start(t, mode, true)
    ensures Start(t, mode, true).calls == t.calls + [Register(mode.GetOr(Foreground))]
  {
  }

  // ---------------------------------------------------------------- smoothing

  /** The value emitted for a new azimuth `yawDeg`: the first sample is only
      wrapped; later ones move 15% of the short way from the last value,
      unless that way is shorter than 0.2 degrees. */
  function Smooth(t: Tracker, yawDeg: real): (s: real)
    requires Valid(t)
    ensures -180.0 <= s <= 180.0
    ensures !t.hasLast ==> s == NormalizeDeg180(yawDeg)
    ensures t.hasLast && -MinDeltaDeg < ShortestAngleDelta(t.lastYaw, NormalizeDeg180(yawDeg)) < MinDeltaDeg ==>
              s == t.lastYaw
    ensures t.hasLast ==>
              Angles.IsWholeTurns(
                (t.lastYaw + (if -MinDeltaDeg < ShortestAngleDelta(t.lastYaw, NormalizeDeg180(yawDeg)) < MinDeltaDeg
                              then 0.0 else Alpha * ShortestAngleDelta(t.lastYaw, NormalizeDeg180(yawDeg)))) - s)
  {
    var yaw := NormalizeDeg180(yawDeg);
    if !t.hasLast then yaw
    else
      var delta := ShortestAngleDelta(t.lastYaw, yaw);
      if -MinDeltaDeg < delta < MinDeltaDeg then t.lastYaw
      else NormalizeDeg180(t.lastYaw + Alpha * delta)
  }

  /** `onSensorChanged`: events from other sensor types are ignored; a
      rotation-vector event emits the smoothed yaw and remembers it. */
  function OnSensorChanged(t: Tracker, isRotationVector: bool, yawDeg: real): (r: (Tracker, Option<real>))
    requires Valid(t)
    ensures Valid(r.0)
    ensures !isRotationVector ==> r == (t, None)
    ensures isRotationVector ==>
              r.1 == Some(Smooth(t, yawDeg)) && r.0 == t.(lastYaw := Smooth(t, yawDeg), hasLast := true)
  {
    if !isRotationVector then (t, None)
    else
      var s := Smooth(t, yawDeg);
      (t.(lastYaw := s, hasLast := true), Some(s))
  }

  /** The first event after `stop` is emitted unsmoothed. */
  lemma FirstEventAfterStopIsRaw(t: Tracker, yawDeg: real)
    requires Valid(t) && t.isTracking
    ensures OnSensorChanged(Stop(t), true, yawDeg).1 == Some(NormalizeDeg180(yawDeg))
  {
  }

  /** A smoothing step that is not cut as noise closes 15% of the gap: the
      short way from the emitted yaw to the target is 85% of the short way
      from the previous yaw. */
  lemma SmoothingClosesGap(t: Tracker, yawDeg: real)
    requires Valid(t) && t.hasLast
    requires var d := ShortestAngleDelta(t.lastYaw, NormalizeDeg180(yawDeg));
             d <= -MinDeltaDeg || d >= MinDeltaDeg
    ensures ShortestAngleDelta(Smooth(t, yawDeg), NormalizeDeg180(yawDeg)) ==
              (1.0 - Alpha) * ShortestAngleDelta(t.lastYaw, NormalizeDeg180(yawDeg))
  {
    var yaw := NormalizeDeg180(yawDeg);
    var d := ShortestAngleDelta(t.lastYaw, yaw);
    var s := Smooth(t, yawDeg);
    GapClosed(t.lastYaw, yaw, d, s, ShortestAngleDelta(s, yaw));
  }

  /** The angle arithmetic behind the step: yaw is last + d, s is
      last + 0.15 d and g is yaw - s, all up to whole turns, so g and
      0.85 d differ by whole turns and, both lying inside a half turn,
      are equal. */
  lemma GapClosed(last: real, yaw: real, d: real, s: real, g: real)
    requires Angles.IsWholeTurns((yaw - last) - d)
    requires Angles.IsWholeTurns((last + Alpha * d) - s)
    requires Angles.IsWholeTurns((yaw - s) - g)
    requires -180.0 <= d <= 180.0 && -180.0 <= g <= 180.0
    ensures g == (1.0 - Alpha) * d
  {
    var a := (yaw - last) - d;
    var b := (last + Alpha * d) - s;
    var c := (yaw - s) - g;
    Angles.WholeTurnsAdd(a, b);
    assert a + b == (yaw - s) - (1.0 - Alpha) * d;
    Angles.WholeTurnsNeg(c);
    Angles.WholeTurnsAdd(a + b, -c);
    assert (a + b) + (-c) == g - (1.0 - Alpha) * d;
    Angles.CongruentInRange(g, (1.0 - Alpha) * d);
  }

  /** Small moves are cut: the emitted yaw stays put. */
  lemma NoiseCutHoldsYaw(t: Tracker, yawDeg: real)
    requires Valid(t) && t.hasLast
    requires -MinDeltaDeg < ShortestAngleDelta(t.lastYaw, NormalizeDeg180(yawDeg)) < MinDeltaDeg
    ensures OnSensorChanged(t, true, yawDeg).1 == Some(t.lastYaw)
    ensures OnSensorChanged(t, true, yawDeg).0.lastYaw == t.lastYaw
  {
  }
}

=== FILE: last_played_media.dfy ===
/** The record the app saves to resume the last thing it played, with the
    checks its constructor makes. */
module LastPlayed {
  import opened Wrappers
  import opened PlaybackContent
  import Text

  datatype LastPlayedMedia = LastPlayedMedia(
    contentType: ContentType,
    id: string,
    positionMs: int,
    playWhenReady: bool,
    updatedAtMs: int)

  /** What the constructor's `require` checks guarantee. */
  predicate Valid(m: LastPlayedMedia) {
    !Text.IsBlank(m.id) && m.positionMs >= 0 && m.updatedAtMs > 0
  }

  /** The `IllegalArgumentException` of the first failing check. */
  datatype Rejected = BlankId | NegativePosition | NonPositiveUpdatedAt

  /** The primary constructor: the checks run in declaration order. */
  function Make(contentType: ContentType, id: string, positionMs: int, playWhenReady: bool, updatedAtMs: int)
    : (r: Result<LastPlayedMedia, Rejected>)
    ensures r.Ok? <==> Valid(LastPlayedMedia(contentType, id, positionMs, playWhenReady, updatedAtMs))
    ensures r.Ok? ==> r.value == LastPlayedMedia(contentType, id, positionMs, playWhenReady, updatedAtMs)
    ensures Text.IsBlank(id) ==> r == Err(BlankId)
    ensures !Text.IsBlank(id) && positionMs < 0 ==> r == Err(NegativePosition)
    ensures !Text.IsBlank(id) && positionMs >= 0 && updatedAtMs <= 0 ==> r == Err(NonPositiveUpdatedAt)
  {
    if Text.IsBlank(id) then Err(BlankId)
    else if positionMs < 0 then Err(NegativePosition)
    else if updatedAtMs <= 0 then Err(NonPositiveUpdatedAt)
    else Ok(LastPlayedMedia(contentType, id, positionMs, playWhenReady, updatedAtMs))
  }

  /** The constructor with its defaults: position 0, not playing, stamped
      with the clock reading `now`. */
  function MakeWithDefaults(contentType: ContentType, id: string, now: int): (r: Result<LastPlayedMedia, Rejected>)
    ensures r.Ok? ==> r.value.positionMs == 0 && !r.value.playWhenReady && r.value.updatedAtMs == now
    ensures r.Ok? <==> !Text.IsBlank(id) && now > 0
  {
    Make(contentType, id, 0, false, now)
  }
}

=== FILE: local_store.dfy ===
/** The in-memory list behind a local data store and its `addAll` upsert.
    Elements are compared by `equals`; here that comparison is a key
    function, so two elements are equal exactly when their keys are (the
    identity for a data class). */
module LocalStore {
  import opened Wrappers

  /** The keys of `s`, position by position. */
  function Keys<T(==), K(==)>(s: seq<T>, key: T -> K): (ks: seq<K>)
    ensures |ks| == |s| && forall i :: 0 <= i < |s| ==> ks[i] == key(s[i])
  {
    if s == [] then [] else [key(s[0])] + Keys(s[1..], key)
  }

  function SetOf<K(==)>(ks: seq<K>): set<K> {
    set k | k in ks
  }

  predicate Distinct<K(==)>(ks: seq<K>) {
    forall i, j :: 0 <= i < j < |ks| ==> ks[i] != ks[j]
  }

  /** `indexOf`: the first position whose element equals one with key `k`. */
  function IndexOf<T(==), K(==)>(s: seq<T>, key: T -> K, k: K): (r: Option<nat>)
    ensures r.Some? ==> r.value < |s| && key(s[r.value]) == k
    ensures r.Some? ==> forall j :: 0 <= j < r.value ==> key(s[j]) != k
    ensures r.None? ==> forall j :: 0 <= j < |s| ==> key(s[j]) != k
  {
    if s == [] then None
    else if key(s[0]) == k then Some(0)
    else match IndexOf(s[1..], key, k)
      case None => None
      case Some(i) => Some(i + 1)
  }

  /** One step of the loop: overwrite the first equal element, or append. */
  function Upsert<T(==), K(==)>(s: seq<T>, key: T -> K, e: T): (r: seq<T>)
    ensures key(e) in Keys(s, key) ==> |r| == |s| && e in r
    ensures key(e) !in Keys(s, key) ==> r == s + [e]
    ensures forall i :: 0 <= i < |s| ==> key(r[i]) == key(s[i])
    ensures forall i :: 0 <= i < |s| && key(s[i]) != key(e) ==> r[i] == s[i]
    ensures forall i :: 0 <= i < |s| && key(s[i]) == key(e) && (forall j :: 0 <= j < i ==> key(s[j]) != key(e)) ==>
              r == s[i := e]
  {
    match IndexOf(s, key, key(e))
    case None => s + [e]
    case Some(i) => assert s[i := e][i] == e; s[i := e]
  }

  /** `addAll`: every element of the argument upserted in order; a null
      argument leaves the list alone. */
  function AddAll<T(==), K(==)>(s: seq<T>, key: T -> K, dataList: Option<seq<T>>): (r: seq<T>)
    ensures dataList.None? ==> r == s
    ensures dataList.Some? ==> r == UpsertAll(s, key, dataList.value)
  {
    match dataList
    case None => s
    case Some(es) => UpsertAll(s, key, es)
  }

  function UpsertAll<T(==), K(==)>(s: seq<T>, key: T -> K, es: seq<T>): (r: seq<T>)
    ensures |s| <= |r| <= |s| + |es|
    ensures forall i :: 0 <= i < |s| ==> key(r[i]) == key(s[i])
    decreases |es|
  {
    if es == [] then s else UpsertAll(Upsert(s, key, es[0]), key, es[1..])
  }

  /** The keys of `ks` not in `seen`, each at its first appearance. */
  function NewKeys<K(==)>(seen: set<K>, ks: seq<K>): (r: seq<K>)
    decreases |ks|
  {
    if ks == [] then []
    else if ks[0] in seen then NewKeys(seen, ks[1..])
    else [ks[0]] + NewKeys(seen + {ks[0]}, ks[1..])
  }

  /** The new keys are distinct, unseen, and are exactly the unseen keys. */
  lemma {:induction false} NewKeysFresh<K>(seen: set<K>, ks: seq<K>)
    ensures Distinct(NewKeys(seen, ks))
    ensures forall k :: k in NewKeys(seen, ks) <==> k in ks && k !in seen
    decreases |ks|
  {
    if ks != [] {
      if ks[0] in seen {
        NewKeysFresh(seen, ks[1..]);
        assert forall k :: k in ks <==> k == ks[0] || k in ks[1..];
      } else {
        NewKeysFresh(seen + {ks[0]}, ks[1..]);
        assert forall k :: k in ks <==> k == ks[0] || k in ks[1..];
      }
    }
  }

  lemma KeysAppend<T, K>(s: seq<T>, key: T -> K, e: T)
    ensures Keys(s + [e], key) == Keys(s, key) + [key(e)]
  {
  }

  /** The keys after `addAll`: the old keys in place, then each new key in
      the order it first appears in the input. */
  lemma {:induction false} UpsertAllKeys<T, K>(s: seq<T>, key: T -> K, es: seq<T>)
    ensures Keys(UpsertAll(s, key, es), key) == Keys(s, key) + NewKeys(SetOf(Keys(s, key)), Keys(es, key))
    decreases |es|
  {
    if es != [] {
      var e := es[0];
      var s' := Upsert(s, key, e);
      UpsertAllKeys(s', key, es[1..]);
      assert Keys(es, key)[0] == key(e) && Keys(es, key)[1..] == Keys(es[1..], key);
      var seen := SetOf(Keys(s, key));
      if key(e) in Keys(s, key) {
        assert Keys(s', key) == Keys(s, key);
      } else {
        KeysAppend(s, key, e);
        assert (SetOf(Keys(s', key))) == seen + {key(e)};
      }
    }
  }

  /** The list grows by exactly the number of distinct input keys it did not
      hold, every input key ends up in it, and a list without duplicates
      keeps none. */
  lemma AddAllGrowth<T, K>(s: seq<T>, key: T -> K, es: seq<T>)
    ensures var r := UpsertAll(s, key, es);
            var added := NewKeys(SetOf(Keys(s, key)), Keys(es, key));
            && |r| == |s| + |added|
            && Distinct(added)
            && (forall k :: k in added <==> k in Keys(es, key) && k !in Keys(s, key))
            && (forall k :: k in Keys(es, key) ==> k in Keys(r, key))
            && (Distinct(Keys(s, key)) ==> Distinct(Keys(r, key)))
  {
    var seen := SetOf(Keys(s, key));
    UpsertAllKeys(s, key, es);
    NewKeysFresh(seen, Keys(es, key));
    var added := NewKeys(seen, Keys(es, key));
    ConcatMembers(Keys(s, key), added);
    if Distinct(Keys(s, key)) {
      DistinctConcat(Keys(s, key), added);
    }
  }

  lemma ConcatMembers<K>(a: seq<K>, b: seq<K>)
    ensures forall k :: k in a + b <==> k in a || k in b
  {
  }

  /** Two duplicate-free sequences with no common element concatenate to a
      duplicate-free one. */
  lemma DistinctConcat<K>(a: seq<K>, b: seq<K>)
    requires Distinct(a) && Distinct(b)
    requires forall k :: k in b ==> k !in a
    ensures Distinct(a + b)
  {
    forall i, j | 0 <= i < j < |a + b|
      ensures (a + b)[i] != (a + b)[j]
    {
      if j >= |a| && i < |a| {
        assert (a + b)[j] in b;
        assert (a + b)[i] in a;
      }
    }
  }

  /** An element whose key no input element shares keeps its position. */
  lemma {:induction false} UpsertAllKeepsOthers<T, K>(s: seq<T>, key: T -> K, es: seq<T>, i: nat)
    requires i < |s| && key(s[i]) !in Keys(es, key)
    ensures UpsertAll(s, key, es)[i] == s[i]
    decreases |es|
  {
    if es != [] {
      assert Keys(es, key)[0] == key(es[0]);
      assert Keys(es, key)[1..] == Keys(es[1..], key);
      var s' := Upsert(s, key, es[0]);
      UpsertAllKeepsOthers(s', key, es[1..], i);
    }
  }

  /** A key no later element repeats is missing from the keys of the rest. */
  lemma LaterKeysDiffer<T, K>(key: T -> K, es: seq<T>)
    requires |es| > 0
    requires forall k :: 0 < k < |es| ==> key(es[k]) != key(es[0])
    ensures key(es[0]) !in Keys(es[1..], key)
  {
    var ks := Keys(es[1..], key);
    forall m | 0 <= m < |ks|
      ensures ks[m] != key(es[0])
    {
      assert ks[m] == key(es[1..][m]) == key(es[m + 1]);
    }
  }

  /** The last input element with a given key is the one the list holds:
      present elements are overwritten, the last write wins. */
  lemma {:induction false} LastWriteWins<T, K>(s: seq<T>, key: T -> K, es: seq<T>, j: nat)
    requires j < |es|
    requires forall k :: j < k < |es| ==> key(es[k]) != key(es[j])
    ensures es[j] in UpsertAll(s, key, es)
    decreases |es|
  {
    var s' := Upsert(s, key, es[0]);
    assert UpsertAll(s, key, es) == UpsertAll(s', key, es[1..]);
    if j == 0 {
      assert es[0] in s' by {
        if key(es[0]) !in Keys(s, key) {
          assert s' == s + [es[0]] && s'[|s|] == es[0];
        }
      }
      var p :| 0 <= p < |s'| && s'[p] == es[0];
      LaterKeysDiffer(key, es);
      UpsertAllKeepsOthers(s', key, es[1..], p);
      var r := UpsertAll(s', key, es[1..]);
      assert p < |r| && r[p] == es[0];
    } else {
      LastWriteWins(s', key, es[1..], j - 1);
    }
  }
}

=== FILE: main_events.dfy ===
/** The notification events the main activity handles: play/pause and the
    skip-previous/skip-next index rules. */
module MainEvents {
  import opened Transport

  /** The target of SKIP_PREV: the previous index when it is valid, else the
      last track under repeat-all and the first otherwise. */
  function PrevIndex(current: int, count: nat, repeat: RepeatMode): (r: int)
    ensures count > 0 ==> 0 <= r < count
    ensures 1 <= current <= count ==> r == current - 1
    ensures current == 0 && count > 0 ==> (r == count - 1 <==> repeat == RepeatAll || count == 1)
    ensures r < 0 <==> count == 0 && repeat == RepeatAll
  {
    if 0 <= current - 1 < count then current - 1
    else if repeat == RepeatAll then count - 1
    else 0
  }

  /** The target of SKIP_NEXT: the next index when it is valid, else 0. */
  function NextIndex(current: int, count: nat): (r: int)
    ensures count > 0 ==> 0 <= r < count
    ensures -1 <= current < count - 1 ==> r == current + 1
    ensures current == count - 1 ==> r == 0
    ensures r >= 0
  {
    if 0 <= current + 1 < count then current + 1 else 0
  }

  /** Inside the queue, next and previous undo each other; under repeat-all
      they do so everywhere: the queue is a cycle. */
  lemma SkipInverse(current: int, count: nat, repeat: RepeatMode)
    requires 0 <= current < count
    ensures current < count - 1 ==> PrevIndex(NextIndex(current, count), count, repeat) == current
    ensures current > 0 ==> NextIndex(PrevIndex(current, count, repeat), count) == current
    ensures repeat == RepeatAll ==>
              PrevIndex(NextIndex(current, count), count, repeat) == current &&
              NextIndex(PrevIndex(current, count, repeat), count) == current
  {
  }

  /** Without repeat-all, skipping back from the first track stays on it. */
  lemma PrevStopsAtFirst(count: nat, repeat: RepeatMode)
    requires count > 0 && repeat != RepeatAll
    ensures PrevIndex(0, count, repeat) == 0
  {
  }

  /** `doEvent`: the new player state and whether the playback service is
      (re)started. PLAY and PAUSE both toggle on `isPlaying`, so a player
      that wants to play but is not playing yet is told to play again.
      SKIP_PREV on an empty queue under repeat-all seeks to -1, which Media3
      rejects with an exception that ends the handler before the service
      restart. Unknown events change nothing. */
  function DoEvent(t: Transport, event: string): (r: (Transport, bool))
    ensures r.1 <==> event in {"PLAY_NEW_MUSIC", "PLAY", "PAUSE", "SKIP_PREV", "SKIP_NEXT"} &&
                     !(event == "SKIP_PREV" && Count(t) == 0 && t.repeat == RepeatAll)
    ensures event == "PLAY" || event == "PAUSE" ==> r.0.playWhenReady == !IsPlaying(t)
    ensures event == "SKIP_PREV" && r.1 ==>
              r.0.index == PrevIndex(t.index, Count(t), t.repeat) && r.0.positionMs == 0
    ensures event == "SKIP_NEXT" ==>
              r.0.index == NextIndex(t.index, Count(t)) && r.0.positionMs == 0
    ensures r.0.(index := t.index, positionMs := t.positionMs, playWhenReady := t.playWhenReady) == t
    ensures !(event == "PLAY" || event == "PAUSE") ==> r.0.playWhenReady == t.playWhenReady
    ensures !r.1 ==> r.0 == t
  {
    if event == "PLAY_NEW_MUSIC" then (t, true)
    else if event == "PLAY" || event == "PAUSE" then (if IsPlaying(t) then Pause(t) else Play(t), true)
    else if event == "SKIP_PREV" then
      var target := PrevIndex(t.index, Count(t), t.repeat);
      if target < 0 then (t, false) else (SeekTo(t, target, 0), true)
    else if event == "SKIP_NEXT" then (SeekTo(t, NextIndex(t.index, Count(t)), 0), true)
    else (t, false)
  }

  /** Two play/pause events in a row restore the player exactly when it
      wanted to play, or was ready and unsuppressed: from a pause while
      buffering, ended or suppressed, both events say play. */
  lemma PlayPauseTwice(t: Transport, e1: string, e2: string)
    requires e1 in {"PLAY", "PAUSE"} && e2 in {"PLAY", "PAUSE"}
    ensures DoEvent(DoEvent(t, e1).0, e2).0 == t <==> t.playWhenReady || (t.state == Ready && !t.suppressed)
  {
  }

  /** A player that wants to play but is not playing (buffering after a
      skip, say) is left wanting to play by PLAY or PAUSE. */
  lemma PlayPauseKeepsWaitingPlayer(t: Transport, e: string)
    requires e in {"PLAY", "PAUSE"} && t.playWhenReady && !IsPlaying(t)
    ensures DoEvent(t, e).0 == t
  {
  }

  /** Under repeat-all, SKIP_NEXT then SKIP_PREV returns to the same track at
      its start. */
  lemma NextThenPrevReturns(t: Transport)
    requires t.repeat == RepeatAll && 0 <= t.index < Count(t)
    ensures var t' := DoEvent(DoEvent(t, "SKIP_NEXT").0, "SKIP_PREV").0;
            t'.index == t.index && t'.positionMs == 0 && CurrentMediaId(t') == CurrentMediaId(t)
  {
    SkipInverse(t.index, Count(t), t.repeat);
  }
}

=== FILE: numeric.dfy ===
/** Arithmetic the source languages define differently from Dafny: clamps,
    division that truncates toward zero (C++ and Kotlin), and 32-bit signed
    wrap-around. */
module Numeric {

  /** `std::max(lo, std::min(v, hi))` / Kotlin `coerceIn(lo, hi)`. */
  function Clamp(v: real, lo: real, hi: real): (r: real)
    requires lo <= hi
    ensures lo <= r <= hi
    ensures lo <= v <= hi ==> r == v
    ensures v < lo ==> r == lo
    ensures v > hi ==> r == hi
  {
    if v < lo then lo else if v > hi then hi else v
  }

  function ClampInt(v: int, lo: int, hi: int): (r: int)
    requires lo <= hi
    ensures lo <= r <= hi
    ensures lo <= v <= hi ==> r == v
    ensures v < lo ==> r == lo
    ensures v > hi ==> r == hi
  {
    if v < lo then lo else if v > hi then hi else v
  }

  function Abs(x: int): (r: nat)
    ensures r == x || r == -x
  {
    if x < 0 then -x else x
  }

  /** Integer division truncating toward zero: the magnitude is the
      quotient of the magnitudes, the sign is the product of the signs. */
  function Quot(a: int, b: int): (q: int)
    requires b != 0
    ensures Abs(q) == Abs(a) / Abs(b)
    ensures q < 0 ==> (a < 0) != (b < 0)
    ensures q > 0 ==> (a < 0) == (b < 0)
  {
    var n := Abs(a);
    var d := Abs(b);
    DivNonneg(n, d);
    var m := n / d;
    if (a < 0) == (b < 0) then m else -m
  }

  lemma DivNonneg(x: nat, y: nat)
    requires y > 0
    ensures x / y >= 0
  {
    assert x == (x / y) * y + x % y;
  }

  /** The remainder that goes with `Quot`: it takes the sign of `a`. */
  function Rem(a: int, b: int): (r: int)
    requires b != 0
    ensures a == Quot(a, b) * b + r
    ensures Abs(r) < Abs(b)
    ensures a >= 0 ==> r >= 0
    ensures a <= 0 ==> r <= 0
  {
    var q := Quot(a, b);
    var r := a - q * b;
    QuotRemBounds(a, b);
    r
  }

  /** On a non-negative dividend and a positive divisor, truncating and
      Euclidean division agree. */
  lemma QuotOfNat(a: nat, b: int)
    requires b > 0
    ensures Quot(a, b) == a / b && Rem(a, b) == a % b
  {
    assert a == (a / b) * b + a % b;
  }

  /** The quotient is the one multiple that brackets the dividend. */
  lemma DivUnique(n: nat, d: int, q: int)
    requires d > 0 && q * d <= n < (q + 1) * d
    ensures q == n / d
  {
    var q' := n / d;
    assert q' * d <= n < q' * d + d;
    assert (q' + 1) * d == q' * d + d;
    if q < q' {
      MulMonotone(q + 1, q', d);
      assert false;
    }
    if q > q' {
      MulMonotone(q' + 1, q, d);
      assert false;
    }
  }

  /** Adding whole divisors adds to the quotient and leaves the remainder. */
  lemma DivShift(n: nat, k: nat, d: int)
    requires d > 0
    ensures (n + k * d) / d == n / d + k && (n + k * d) % d == n % d
  {
    var q := n / d;
    assert n == q * d + n % d;
    assert (q + k) * d <= n + k * d < (q + k + 1) * d;
    DivUnique(n + k * d, d, q + k);
  }

  lemma MulMonotone(x: int, y: int, d: int)
    requires x <= y && d > 0
    ensures x * d <= y * d
  {
    assert y * d - x * d == (y - x) * d;
  }

  /** A decomposition `c * d + b` with `0 <= b < d` is the quotient and
      remainder. */
  lemma DivModOf(n: nat, d: int, c: int, b: int)
    requires d > 0 && 0 <= b < d && n == c * d + b
    ensures n / d == c && n % d == b
  {
    assert (c + 1) * d == c * d + d;
    DivUnique(n, d, c);
  }

  /** Dropping whole multiples of `k * d` first does not change the digit
      `(n / d) % k`, nor the remainder modulo `d`. */
  lemma ModDiv(n: nat, d: int, k: int)
    requires d > 0 && k > 0
    ensures (n % (k * d)) / d == (n / d) % k
    ensures (n % (k * d)) % d == n % d
  {
    var kd := k * d;
    MulMonotone(1, k, d);
    var q := n / kd;
    var r := n % kd;
    var a := r / d;
    var b := r % d;
    assert r == a * d + b;
    if a >= k {
      MulMonotone(k, a, d);
      assert false;
    }
    var c := q * k + a;
    assert n == c * d + b by {
      assert n == q * kd + r;
      assert q * kd == (q * k) * d;
      assert c * d == (q * k) * d + a * d;
    }
    DivModOf(n, d, c, b);
    DivModOf(c, k, q, a);
  }

  lemma QuotRemBounds(a: int, b: int)
    requires b != 0
    ensures var r := a - Quot(a, b) * b;
            Abs(r) < Abs(b) && (a >= 0 ==> r >= 0) && (a <= 0 ==> r <= 0)
  {
    var qa := Abs(a) / Abs(b);
    var ra := Abs(a) % Abs(b);
    assert Abs(a) == qa * Abs(b) + ra;
    var q := Quot(a, b);
    if a >= 0 && b > 0 {
      assert a - q * b == ra;
    } else if a >= 0 {
      assert q * b == qa * Abs(b);
      assert a - q * b == ra;
    } else if b > 0 {
      assert q * b == -(qa * Abs(b));
      assert a - q * b == -ra;
    } else {
      assert q * b == -(qa * Abs(b));
      assert a - q * b == -ra;
    }
  }

  /** Conversion of a real to an integer toward zero (Kotlin `Float.toInt()`
      and a C++ cast, for values inside the integer range). */
  function Trunc(x: real): (r: int)
    ensures x >= 0.0 ==> 0 <= r && r as real <= x < r as real + 1.0
    ensures x < 0.0 ==> r <= 0 && r as real - 1.0 < x <= r as real
  {
    if x >= 0.0 then x.Floor else -((-x).Floor)
  }

  const Int32Modulus: int := 0x1_0000_0000

  predicate IsInt32(x: int) {
    -0x8000_0000 <= x < 0x8000_0000
  }

  /** A Kotlin `Int` or C++ `int32_t`. */
  type Int32 = x: int | IsInt32(x)

  /** The two's-complement 32-bit value of an exact product or sum. */
  function WrapInt32(x: int): (r: int)
    ensures IsInt32(r)
    ensures (x - r) % Int32Modulus == 0
    ensures IsInt32(x) ==> r == x
  {
    var m := x % Int32Modulus;
    if m >= 0x8000_0000 then m - Int32Modulus else m
  }
}

=== FILE: playback_content.dfy ===
/** The three kinds of playable content, each with its own three preference
    keys, and the two keys the store shares between them. */
module PlaybackContent {
  import opened Wrappers

  datatype ContentType = Music | Radio | Podcast {

    /** The enum constant's `name`. */
    function Name(): string {
      match this
      case Music => "MUSIC"
      case Radio => "RADIO"
      case Podcast => "PODCAST"
    }

    function IdKey(): string {
      match this
      case Music => "last_music_id"
      case Radio => "last_radio_id"
      case Podcast => "last_podcast_id"
    }

    function PositionKey(): string {
      match this
      case Music => "last_music_position_ms"
      case Radio => "last_radio_position_ms"
      case Podcast => "last_podcast_position_ms"
    }

    function PlayWhenReadyKey(): string {
      match this
      case Music => "last_music_play_when_ready"
      case Radio => "last_radio_play_when_ready"
      case Podcast => "last_podcast_play_when_ready"
    }

    /** The three keys this type owns. */
    function Keys(): set<string> {
      {IdKey(), PositionKey(), PlayWhenReadyKey()}
    }
  }

  const KeyLastType := "last_playback_type"
  const KeyLastUpdatedAt := "last_updated_at_ms"

  /** `PlaybackContentType.valueOf`: the type with that exact name, if any. */
  function ValueOf(name: string): (t: Option<ContentType>)
    ensures t.Some? ==> t.value.Name() == name
    ensures t.None? ==> forall c: ContentType :: c.Name() != name
  {
    if name == "MUSIC" then Some(Music)
    else if name == "RADIO" then Some(Radio)
    else if name == "PODCAST" then Some(Podcast)
    else None
  }

  /** Every type's name reads back as that type. */
  lemma ValueOfName(t: ContentType)
    ensures ValueOf(t.Name()) == Some(t)
  {
  }

  /** Within one type the three keys differ. */
  lemma KeysDistinct(t: ContentType)
    ensures t.IdKey() != t.PositionKey()
    ensures t.IdKey() != t.PlayWhenReadyKey()
    ensures t.PositionKey() != t.PlayWhenReadyKey()
    ensures |t.Keys()| == 3
  {
    assert |t.IdKey()| < |t.PositionKey()| < |t.PlayWhenReadyKey()|;
  }

  /** No key belongs to two types, and none is one of the shared keys. */
  lemma KeysDisjoint(t: ContentType, u: ContentType)
    ensures t != u ==> t.Keys() !! u.Keys()
    ensures KeyLastType !in t.Keys() && KeyLastUpdatedAt !in t.Keys()
  {
  }
}

=== FILE: playback_state_store.dfy ===
/** The persistent "last played" store over a string-keyed preferences
    file. Each content type writes its own three keys; the last type and the
    save time are shared. The clock is a parameter. */
module PlaybackStateStore {
  import opened Wrappers
  import opened PlaybackContent
  import opened LastPlayed
  import Text

  /** The preferences file: string, long and boolean entries. Every key is
      written with a single type, so the three maps never disagree. */
  datatype Store = Store(strings: map<string, string>, longs: map<string, int>, bools: map<string, bool>)

  const Empty := Store(map[], map[], map[])

  function GetLong(s: Store, key: string, default: int): int {
    if key in s.longs then s.longs[key] else default
  }

  function GetBoolean(s: Store, key: string, default: bool): bool {
    if key in s.bools then s.bools[key] else default
  }

  /** `m` holds `v` under `k`. */
  predicate Holds<V(==)>(m: map<string, V>, k: string, v: V) {
    k in m && m[k] == v
  }

  /** `a` and `b` agree on every key outside `keys`. */
  predicate SameOutside(a: Store, b: Store, keys: set<string>) {
    a.strings - keys == b.strings - keys && a.longs - keys == b.longs - keys && a.bools - keys == b.bools - keys
  }

  /** `saveLastPlayedId`: a blank id writes nothing; otherwise the type's id
      key and the two shared keys. */
  function SaveLastPlayedId(s: Store, t: ContentType, id: string, now: int): (s': Store)
    ensures Text.IsBlank(id) ==> s' == s
    ensures !Text.IsBlank(id) ==>
              && Holds(s'.strings, t.IdKey(), id)
              && Holds(s'.strings, KeyLastType, t.Name())
              && Holds(s'.longs, KeyLastUpdatedAt, now)
    ensures SameOutside(s, s', {t.IdKey(), KeyLastType, KeyLastUpdatedAt})
  {
    if Text.IsBlank(id) then s
    else Store(s.strings[t.IdKey() := id][KeyLastType := t.Name()], s.longs[KeyLastUpdatedAt := now], s.bools)
  }

  /** Saving an id keeps that type's position and play-when-ready entries. */
  lemma SaveIdKeepsPosition(s: Store, t: ContentType, id: string, now: int)
    ensures var s' := SaveLastPlayedId(s, t, id, now);
            GetLong(s', t.PositionKey(), 0) == GetLong(s, t.PositionKey(), 0) &&
            GetBoolean(s', t.PlayWhenReadyKey(), false) == GetBoolean(s, t.PlayWhenReadyKey(), false)
  {
    KeysDistinct(t);
    KeysDisjoint(t, t);
    var s' := SaveLastPlayedId(s, t, id, now);
    var keys := {t.IdKey(), KeyLastType, KeyLastUpdatedAt};
    assert t.PositionKey() !in keys && t.PlayWhenReadyKey() !in keys;
    assert t.PositionKey() in s'.longs <==> t.PositionKey() in (s'.longs - keys);
    assert t.PositionKey() in s.longs <==> t.PositionKey() in (s.longs - keys);
    assert t.PlayWhenReadyKey() in s'.bools <==> t.PlayWhenReadyKey() in (s'.bools - keys);
    assert t.PlayWhenReadyKey() in s.bools <==> t.PlayWhenReadyKey() in (s.bools - keys);
  }

  /** `saveLastPlayedMedia`: the record's time when positive, else `now`. */
  function SaveLastPlayedMedia(s: Store, m: LastPlayedMedia, now: int): (s': Store)
    ensures var t := m.contentType;
            && Holds(s'.strings, t.IdKey(), m.id)
            && Holds(s'.longs, t.PositionKey(), m.positionMs)
            && Holds(s'.bools, t.PlayWhenReadyKey(), m.playWhenReady)
            && Holds(s'.strings, KeyLastType, t.Name())
            && Holds(s'.longs, KeyLastUpdatedAt, (if m.updatedAtMs > 0 then m.updatedAtMs else now))
    ensures SameOutside(s, s', m.contentType.Keys() + {KeyLastType, KeyLastUpdatedAt})
  {
    var t := m.contentType;
    var stamp := if m.updatedAtMs > 0 then m.updatedAtMs else now;
    KeysDistinct(t);
    KeysDisjoint(t, t);
    Store(s.strings[t.IdKey() := m.id][KeyLastType := t.Name()],
          s.longs[t.PositionKey() := m.positionMs][KeyLastUpdatedAt := stamp],
          s.bools[t.PlayWhenReadyKey() := m.playWhenReady])
  }

  /** `loadLastPlayedMedia`: nothing without a known last type and an id for
      it; missing position and flag default to 0 and false, a missing or
      non-positive save time to `now`. The record's constructor can still
      reject what it is given. */
  function LoadLastPlayedMedia(s: Store, now: int): (r: Result<Option<LastPlayedMedia>, Rejected>)
    ensures KeyLastType !in s.strings ==> r == Ok(None)
    ensures KeyLastType in s.strings && ValueOf(s.strings[KeyLastType]).None? ==> r == Ok(None)
    ensures KeyLastType in s.strings && ValueOf(s.strings[KeyLastType]).Some? ==>
              (ValueOf(s.strings[KeyLastType]).value.IdKey() !in s.strings ==> r == Ok(None))
    ensures r.Ok? && r.value.Some? ==>
              var m := r.value.value;
              && Valid(m)
              && s.strings[KeyLastType] == m.contentType.Name()
              && s.strings[m.contentType.IdKey()] == m.id
              && m.positionMs == GetLong(s, m.contentType.PositionKey(), 0)
              && m.playWhenReady == GetBoolean(s, m.contentType.PlayWhenReadyKey(), false)
              && m.updatedAtMs == (if GetLong(s, KeyLastUpdatedAt, 0) > 0 then GetLong(s, KeyLastUpdatedAt, 0) else now)
    ensures (KeyLastType in s.strings && ValueOf(s.strings[KeyLastType]).Some? &&
             ValueOf(s.strings[KeyLastType]).value.IdKey() in s.strings) ==> r != Ok(None)
  {
    if KeyLastType !in s.strings then Ok(None)
    else
      match ValueOf(s.strings[KeyLastType])
      case None => Ok(None)
      case Some(t) =>
        if t.IdKey() !in s.strings then Ok(None)
        else
          var stored := GetLong(s, KeyLastUpdatedAt, 0);
          var made := Make(t, s.strings[t.IdKey()], GetLong(s, t.PositionKey(), 0),
                           GetBoolean(s, t.PlayWhenReadyKey(), false),
                           if stored > 0 then stored else now);
          match made
          case Ok(m) => Ok(Some(m))
          case Err(e) => Err(e)
  }

  /** `loadLastPlayedId`: whatever is stored under the type's id key. */
  function LoadLastPlayedId(s: Store, t: ContentType): (id: Option<string>)
    ensures id.Some? <==> t.IdKey() in s.strings
    ensures id.Some? ==> id.value == s.strings[t.IdKey()]
  {
    if t.IdKey() in s.strings then Some(s.strings[t.IdKey()]) else None
  }

  /** A valid record saved and loaded back is the same record, whatever the
      store held before and whatever the clock says. */
  lemma SaveLoadRoundTrip(s: Store, m: LastPlayedMedia, now1: int, now2: int)
    requires Valid(m)
    ensures LoadLastPlayedMedia(SaveLastPlayedMedia(s, m, now1), now2) == Ok(Some(m))
  {
    var t := m.contentType;
    var s' := SaveLastPlayedMedia(s, m, now1);
    ValueOfName(t);
    assert GetLong(s', KeyLastUpdatedAt, 0) == m.updatedAtMs;
    assert Make(t, m.id, m.positionMs, m.playWhenReady, m.updatedAtMs) == Ok(m);
  }

  /** Saving one type never disturbs what another type has stored. */
  lemma SaveLeavesOtherTypes(s: Store, m: LastPlayedMedia, now: int, u: ContentType)
    requires u != m.contentType
    ensures var s' := SaveLastPlayedMedia(s, m, now);
            LoadLastPlayedId(s', u) == LoadLastPlayedId(s, u) &&
            GetLong(s', u.PositionKey(), 0) == GetLong(s, u.PositionKey(), 0) &&
            GetBoolean(s', u.PlayWhenReadyKey(), false) == GetBoolean(s, u.PlayWhenReadyKey(), false)
  {
    KeysDisjoint(m.contentType, u);
    var keys := m.contentType.Keys() + {KeyLastType, KeyLastUpdatedAt};
    assert u.IdKey() in u.Keys() && u.PositionKey() in u.Keys() && u.PlayWhenReadyKey() in u.Keys();
    var s' := SaveLastPlayedMedia(s, m, now);
    StoreAgreesOutside(s, s', keys, u.IdKey());
    StoreAgreesOutside(s, s', keys, u.PositionKey());
    StoreAgreesOutside(s, s', keys, u.PlayWhenReadyKey());
  }

  /** Two stores equal outside `keys` agree on any key outside it. */
  lemma StoreAgreesOutside(a: Store, b: Store, keys: set<string>, k: string)
    requires SameOutside(a, b, keys) && k !in keys
    ensures (k in a.strings <==> k in b.strings) && (k in a.strings ==> a.strings[k] == b.strings[k])
    ensures (k in a.longs <==> k in b.longs) && (k in a.longs ==> a.longs[k] == b.longs[k])
    ensures (k in a.bools <==> k in b.bools) && (k in a.bools ==> a.bools[k] == b.bools[k])
  {
    AgreeOutside(a.strings, b.strings, keys, k);
    AgreeOutside(a.longs, b.longs, keys, k);
    AgreeOutside(a.bools, b.bools, keys, k);
  }

  /** Two maps equal outside `keys` agree on any key outside it. */
  lemma AgreeOutside<V>(a: map<string, V>, b: map<string, V>, keys: set<string>, k: string)
    requires a - keys == b - keys && k !in keys
    ensures k in a <==> k in b
    ensures k in a ==> a[k] == b[k]
  {
    assert k in a <==> k in a - keys;
    assert k in b <==> k in b - keys;
    if k in a {
      assert a[k] == (a - keys)[k];
    }
  }

  /** The id saved for a type is what `loadLastPlayedId` returns for it. */
  lemma SaveIdLoadId(s: Store, t: ContentType, id: string, now: int)
    requires !Text.IsBlank(id)
    ensures LoadLastPlayedId(SaveLastPlayedId(s, t, id, now), t) == Some(id)
  {
  }
}

=== FILE: player_audio_graph.dfy ===
/** The app-wide orchestrator of the native DSP chain: it creates and
    destroys the chain once, keeps the Media3 processing path and the
    settings preview from running together, and decides when the head
    tracker's sensor should run. Native calls are recorded in a log rather
    than performed. */
module PlayerAudioGraph {
  import opened Wrappers
  import HT = HeadTracker

  /** Calls made into the native side through the chain controller. */
  datatype NativeCall =
    | CreateChain(sampleRate: int)
    | DestroyChain
    | StartAudioIO(sampleRate: int, framesPerCallback: int)
    | StopAudioIO
    | SetHeadTrackingEnabled(on: bool)
    | AudioIOOnForeground
    | AudioIOOnBackground
    | SetTestToneEnabled(enabled: bool)
    | SetTestToneFrequency(hz: real)
    | SetTestToneLevel(level: real)

  /** A tracker handed in by the settings screen, with the identity that
      `detachHeadTracker` compares against. */
  datatype Attached = Attached(id: nat, tracker: HT.Tracker)

  datatype Graph = Graph(
    chainCreated: bool,
    previewRunning: bool,
    allowMedia3Processing: bool,
    headTrackingRuntimeEnabled: bool,
    headTracker: Option<Attached>,
    isInForeground: bool,
    keepHeadTrackingInBackground: bool,
    isPlaybackActive: bool,
    spatialEnabled: bool,
    headTrackingEnabled: bool,
    calls: seq<NativeCall>)

  /** The object's initial field values. */
  const Initial := Graph(false, false, true, false, None, true, false, false, false, false, [])

  /** What every reachable state satisfies. Media3 processing is allowed
      exactly when no preview runs, a preview needs the chain, and the two
      feature toggles, which nothing in the object ever sets, stay off. */
  predicate Valid(g: Graph) {
    && (g.allowMedia3Processing <==> !g.previewRunning)
    && (g.previewRunning ==> g.chainCreated)
    && !g.spatialEnabled && !g.headTrackingEnabled
    && TrackerValid(g)
  }

  predicate TrackerValid(g: Graph) {
    g.headTracker.Some? ==> HT.Valid(g.headTracker.value.tracker)
  }

  lemma InitialValid()
    ensures Valid(Initial) && !Initial.chainCreated && Initial.allowMedia3Processing
  {
  }

  /** The gate the Media3 adapter asks before handing audio to the chain. */
  predicate ShouldProcessFromMedia3(g: Graph) {
    g.chainCreated && g.allowMedia3Processing
  }

  /** Media3 processing and the preview never run together. */
  lemma Media3BlockedDuringPreview(g: Graph)
    requires Valid(g)
    ensures ShouldProcessFromMedia3(g) <==> g.chainCreated && !g.previewRunning
    ensures g.previewRunning ==> !ShouldProcessFromMedia3(g)
  {
  }

  // ---------------------------------------------------------------- chain

  /** `ensureChainCreated`: create the chain only if it does not exist. */
  function EnsureChainCreated(g: Graph, sampleRate: int): (g': Graph)
    requires Valid(g)
    ensures Valid(g') && g'.chainCreated
    ensures g.chainCreated ==> g' == g
    ensures !g.chainCreated ==> g' == g.(chainCreated := true, calls := g.calls + [CreateChain(sampleRate)])
  {
    if g.chainCreated then g
    else g.(chainCreated := true, calls := g.calls + [CreateChain(sampleRate)])
  }

  /** A second `ensureChainCreated`, at any rate, creates nothing. */
  lemma EnsureChainCreatedOnce(g: Graph, r1: int, r2: int)
    requires Valid(g)
    ensures EnsureChainCreated(EnsureChainCreated(g, r1), r2) == EnsureChainCreated(g, r1)
  {
  }

  // ---------------------------------------------------------------- preview

  /** `stopPreviewIfRunning`: stop native audio I/O and re-allow Media3. */
  function StopPreviewIfRunning(g: Graph): (g': Graph)
    requires Valid(g)
    ensures Valid(g') && !g'.previewRunning && g'.allowMedia3Processing
    ensures !g.previewRunning ==> g' == g
    ensures g.previewRunning ==> g'.calls == g.calls + [StopAudioIO]
    ensures g'.chainCreated == g.chainCreated && g'.headTracker == g.headTracker
  {
    if !g.previewRunning then g
    else g.(calls := g.calls + [StopAudioIO], previewRunning := false, allowMedia3Processing := true)
  }

  lemma StopPreviewIdempotent(g: Graph)
    requires Valid(g)
    ensures StopPreviewIfRunning(StopPreviewIfRunning(g)) == StopPreviewIfRunning(g)
  {
  }

  /** `startPreview`: make sure the chain exists, then, unless a preview
      already runs, block Media3 and start native audio I/O. */
  function StartPreview(g: Graph, sampleRate: int, framesPerCallback: int): (g': Graph)
    requires Valid(g)
    ensures Valid(g') && g'.chainCreated && g'.previewRunning && !g'.allowMedia3Processing
    ensures g.previewRunning ==> g' == g
    ensures !g.previewRunning ==>
              g'.calls == EnsureChainCreated(g, sampleRate).calls + [StartAudioIO(sampleRate, framesPerCallback)]
    ensures g'.headTracker == g.headTracker
  {
    var c := EnsureChainCreated(g, sampleRate);
    if c.previewRunning then c
    else c.(allowMedia3Processing := false,
            calls := c.calls + [StartAudioIO(sampleRate, framesPerCallback)],
            previewRunning := true)
  }

  /** Starting a running preview again changes nothing. */
  lemma StartPreviewTwice(g: Graph, r1: int, f1: int, r2: int, f2: int)
    requires Valid(g)
    ensures StartPreview(StartPreview(g, r1, f1), r2, f2) == StartPreview(g, r1, f1)
  {
  }

  /** `destroyChainIfNeeded`: preview first, then the tracker, then the
      chain; afterwards Media3 is allowed again. */
  function DestroyChainIfNeeded(g: Graph): (g': Graph)
    requires Valid(g)
    ensures Valid(g') && !g'.chainCreated && !g'.previewRunning && g'.allowMedia3Processing
    ensures !g.chainCreated ==> g' == g
    ensures g.chainCreated ==>
              && !g'.headTrackingRuntimeEnabled
              && g'.calls == StopPreviewIfRunning(g).calls + [DestroyChain]
              && (g'.headTracker.Some? <==> g.headTracker.Some?)
              && (g'.headTracker.Some? ==>
                    g'.headTracker.value.id == g.headTracker.value.id &&
                    !g'.headTracker.value.tracker.isTracking)
  {
    if !g.chainCreated then g
    else
      var s := StopPreviewIfRunning(g);
      var t := match s.headTracker
               case None => None
               case Some(a) => Some(a.(tracker := HT.Stop(a.tracker)));
      s.(headTracker := t, headTrackingRuntimeEnabled := false,
         calls := s.calls + [DestroyChain], chainCreated := false, allowMedia3Processing := true)
  }

  // ---------------------------------------------------------------- head tracking

  /** `setHeadTrackingActive`: the native toggle follows `spatial && head`;
      an attached tracker is started (default mode) or stopped to match. */
  function SetHeadTrackingActive(g: Graph, spatial: bool, head: bool, registerOk: bool): (g': Graph)
    requires Valid(g)
    ensures Valid(g')
    ensures g'.calls == g.calls + [SetHeadTrackingEnabled(spatial && head)]
    ensures g.headTracker.None? ==> g' == g.(calls := g'.calls)
    ensures g.headTracker.Some? ==>
              && g'.headTrackingRuntimeEnabled == (spatial && head)
              && g'.headTracker == Some(g.headTracker.value.(tracker :=
                   if spatial && head then HT.Start(g.headTracker.value.tracker, None, registerOk)
                   else HT.Stop(g.headTracker.value.tracker)))
    ensures g.headTracker.Some? && !(spatial && head) ==> !g'.headTracker.value.tracker.isTracking
  {
    var shouldRun := spatial && head;
    var g1 := g.(calls := g.calls + [SetHeadTrackingEnabled(shouldRun)]);
    match g1.headTracker
    case None => g1
    case Some(a) =>
      if shouldRun then
        g1.(headTrackingRuntimeEnabled := true,
            headTracker := Some(a.(tracker := HT.Start(a.tracker, None, registerOk))))
      else
        g1.(headTrackingRuntimeEnabled := false,
            headTracker := Some(a.(tracker := HT.Stop(a.tracker))))
  }

  /** The sensor is worth running only with both features on, and either in
      the foreground or, by product choice, during background playback. */
  predicate SensorShouldRun(g: Graph) {
    g.spatialEnabled && g.headTrackingEnabled &&
      (g.isInForeground || (g.keepHeadTrackingInBackground && g.isPlaybackActive))
  }

  function PolicyMode(g: Graph): HT.Mode {
    if g.isInForeground then HT.Foreground else HT.BackgroundLowPower
  }

  /** `applyHeadTrackingSensorPolicy`: stop the tracker, or start it (the
      source calls `start` twice in a row, the second time guarded) in the
      mode the foreground state picks. `registerOk` and `retryOk` are the
      sensor manager's answers to the two `start` calls. */
  function ApplySensorPolicy(g: Graph, registerOk: bool, retryOk: bool): (g': Graph)
    requires TrackerValid(g)
    ensures TrackerValid(g')
    ensures Valid(g) ==> Valid(g')
    ensures g.headTracker.None? ==> g' == g
    ensures g'.(headTracker := g.headTracker) == g
    ensures (g'.headTracker.Some? <==> g.headTracker.Some?)
    ensures g.headTracker.Some? ==> g'.headTracker.value.id == g.headTracker.value.id
    ensures g.headTracker.Some? && !SensorShouldRun(g) ==>
              g'.headTracker.value.tracker == HT.Stop(g.headTracker.value.tracker)
    ensures g.headTracker.Some? && SensorShouldRun(g) && g.headTracker.value.tracker.hasSensor ==>
              var t := g.headTracker.value.tracker;
              && (g'.headTracker.value.tracker.isTracking <==>
                    registerOk || retryOk || (t.isTracking && t.currentMode == Some(PolicyMode(g))))
              && (g'.headTracker.value.tracker.isTracking ==>
                    g'.headTracker.value.tracker.currentMode == Some(PolicyMode(g)))
  {
    match g.headTracker
    case None => g
    case Some(a) =>
      if !SensorShouldRun(g) then g.(headTracker := Some(a.(tracker := HT.Stop(a.tracker))))
      else
        var m := Some(PolicyMode(g));
        var once := HT.Start(a.tracker, m, registerOk);
        g.(headTracker := Some(a.(tracker := HT.Start(once, m, retryOk))))
  }

  /** Since nothing in the object turns the feature toggles on, the policy
      always leaves an attached tracker stopped. */
  lemma PolicyAlwaysStops(g: Graph, registerOk: bool, retryOk: bool)
    requires Valid(g) && g.headTracker.Some?
    ensures !ApplySensorPolicy(g, registerOk, retryOk).headTracker.value.tracker.isTracking
  {
  }

  /** `attachHeadTracker`: replace the tracker and apply the policy. */
  function AttachHeadTracker(g: Graph, id: nat, t: HT.Tracker, registerOk: bool, retryOk: bool): (g': Graph)
    requires Valid(g) && HT.Valid(t)
    ensures Valid(g') && g'.headTracker.Some? && g'.headTracker.value.id == id
  {
    ApplySensorPolicy(g.(headTracker := Some(Attached(id, t))), registerOk, retryOk)
  }

  /** `detachHeadTracker`: only the attached tracker itself is detached,
      after being stopped. */
  function DetachHeadTracker(g: Graph, id: nat): (r: (Graph, Option<HT.Tracker>))
    requires Valid(g)
    ensures Valid(r.0)
    ensures g.headTracker.None? || g.headTracker.value.id != id ==> r == (g, None)
    ensures g.headTracker.Some? && g.headTracker.value.id == id ==>
              r.0 == g.(headTracker := None) && r.1 == Some(HT.Stop(g.headTracker.value.tracker))
  {
    match g.headTracker
    case Some(a) =>
      if a.id == id then (g.(headTracker := None), Some(HT.Stop(a.tracker))) else (g, None)
    case None => (g, None)
  }

  function OnAppForeground(g: Graph, registerOk: bool, retryOk: bool): (g': Graph)
    requires Valid(g)
    ensures Valid(g') && g'.isInForeground
    ensures g'.calls == g.calls + [AudioIOOnForeground]
  {
    ApplySensorPolicy(g.(isInForeground := true, calls := g.calls + [AudioIOOnForeground]), registerOk, retryOk)
  }

  function OnAppBackground(g: Graph, registerOk: bool, retryOk: bool): (g': Graph)
    requires Valid(g)
    ensures Valid(g') && !g'.isInForeground
    ensures g'.calls == g.calls + [AudioIOOnBackground]
  {
    ApplySensorPolicy(g.(isInForeground := false, calls := g.calls + [AudioIOOnBackground]), registerOk, retryOk)
  }

  function SetKeepHeadTrackingInBackground(g: Graph, enabled: bool, registerOk: bool, retryOk: bool): (g': Graph)
    requires Valid(g)
    ensures Valid(g') && g'.keepHeadTrackingInBackground == enabled && g'.calls == g.calls
  {
    ApplySensorPolicy(g.(keepHeadTrackingInBackground := enabled), registerOk, retryOk)
  }

  function OnPlaybackActiveChanged(g: Graph, active: bool, registerOk: bool, retryOk: bool): (g': Graph)
    requires Valid(g)
    ensures Valid(g') && g'.isPlaybackActive == active && g'.calls == g.calls
  {
    ApplySensorPolicy(g.(isPlaybackActive := active), registerOk, retryOk)
  }

  // ---------------------------------------------------------------- test tone

  /** The three test-tone setters forward only while the chain exists. */
  function ForwardIfChain(g: Graph, call: NativeCall): (g': Graph)
    ensures g.chainCreated ==> g' == g.(calls := g.calls + [call])
    ensures !g.chainCreated ==> g' == g
  {
    if !g.chainCreated then g else g.(calls := g.calls + [call])
  }

  // ---------------------------------------------------------------- every path

  /** The object's public operations, with the external answers (sensor
      registration) they depend on. */
  datatype Op =
    | OpEnsureChain(sampleRate: int)
    | OpDestroyChain
    | OpStartPreview(sampleRate: int, frames: int)
    | OpStopPreview
    | OpSetHeadTrackingActive(spatial: bool, head: bool, registerOk: bool)
    | OpAttach(id: nat, hasSensor: bool, registerOk: bool, retryOk: bool)
    | OpDetach(id: nat)
    | OpForeground(registerOk: bool, retryOk: bool)
    | OpBackground(registerOk: bool, retryOk: bool)
    | OpKeepInBackground(enabled: bool, registerOk: bool, retryOk: bool)
    | OpPlaybackActive(active: bool, registerOk: bool, retryOk: bool)
    | OpTestTone(call: NativeCall)

  function Step(g: Graph, op: Op): (g': Graph)
    requires Valid(g)
    ensures Valid(g')
  {
    match op
    case OpEnsureChain(r) => EnsureChainCreated(g, r)
    case OpDestroyChain => DestroyChainIfNeeded(g)
    case OpStartPreview(r, f) => StartPreview(g, r, f)
    case OpStopPreview => StopPreviewIfRunning(g)
    case OpSetHeadTrackingActive(s, h, ok) => SetHeadTrackingActive(g, s, h, ok)
    case OpAttach(id, hasSensor, ok, retry) => AttachHeadTracker(g, id, HT.NewTracker(hasSensor), ok, retry)
    case OpDetach(id) => DetachHeadTracker(g, id).0
    case OpForeground(ok, retry) => OnAppForeground(g, ok, retry)
    case OpBackground(ok, retry) => OnAppBackground(g, ok, retry)
    case OpKeepInBackground(e, ok, retry) => SetKeepHeadTrackingInBackground(g, e, ok, retry)
    case OpPlaybackActive(a, ok, retry) => OnPlaybackActiveChanged(g, a, ok, retry)
    case OpTestTone(c) => ForwardIfChain(g, c)
  }

  function Run(g: Graph, ops: seq<Op>): (g': Graph)
    requires Valid(g)
    ensures Valid(g')
    decreases |ops|
  {
    if ops == [] then g else Run(Step(g, ops[0]), ops[1..])
  }

  /** After any sequence of calls from the initial state, Media3 processing
      and the preview are never both on, and the preview never runs without
      a chain. */
  lemma {:induction false} NeverBothPaths(ops: seq<Op>)
    ensures var g := Run(Initial, ops);
            !(ShouldProcessFromMedia3(g) && g.previewRunning) && (g.previewRunning ==> g.chainCreated)
  {
    InitialValid();
    var g := Run(Initial, ops);
    Media3BlockedDuringPreview(g);
  }
}

=== FILE: player_model.dfy ===
/** The play queue held by the player screen: a list of tracks and the
    track currently shown, which can be switched by id. */
module PlayerModel {
  import opened Wrappers

  /** `MusicModel`: a track row; `id` is its primary key. */
  datatype Music = Music(
    id: string,
    musicTitle: Option<string>,
    musicArtist: Option<string>,
    albumId: Option<string>,
    duration: Option<int>,
    isPlaying: bool)

  datatype Player = Player(playMusicList: seq<Music>, currentMusic: Option<Music>)

  /** A new player: an empty queue and no current track. */
  const Initial := Player([], None)

  /** Kotlin `find`: the first element with the given id. */
  function FindById(list: seq<Music>, key: string): (r: Option<nat>)
    ensures r.Some? ==> r.value < |list| && list[r.value].id == key
    ensures r.Some? ==> forall j :: 0 <= j < r.value ==> list[j].id != key
    ensures r.None? ==> forall j :: 0 <= j < |list| ==> list[j].id != key
    decreases |list|
  {
    if list == [] then None
    else if list[0].id == key then Some(0)
    else match FindById(list[1..], key)
      case None => None
      case Some(i) => Some(i + 1)
  }

  /** `replaceMusicList`: the queue becomes a copy of the argument. */
  function ReplaceMusicList(p: Player, musicList: seq<Music>): (p': Player)
    ensures p'.playMusicList == musicList && p'.currentMusic == p.currentMusic
  {
    p.(playMusicList := musicList)
  }

  function UpdateCurrentMusic(p: Player, m: Music): (p': Player)
    ensures p'.currentMusic == Some(m) && p'.playMusicList == p.playMusicList
  {
    p.(currentMusic := Some(m))
  }

  /** `changedMusic`: switch to the first queued track with that id; an
      unknown id changes nothing. */
  function ChangedMusic(p: Player, key: string): (p': Player)
    ensures p'.playMusicList == p.playMusicList
    ensures (forall j :: 0 <= j < |p.playMusicList| ==> p.playMusicList[j].id != key) ==> p' == p
    ensures (exists j :: 0 <= j < |p.playMusicList| && p.playMusicList[j].id == key) ==>
              p'.currentMusic.Some? && p'.currentMusic.value.id == key &&
              p'.currentMusic.value == p.playMusicList[FindById(p.playMusicList, key).value]
  {
    match FindById(p.playMusicList, key)
    case None => p
    case Some(i) => p.(currentMusic := Some(p.playMusicList[i]))
  }

  /** Switching to a queued track and then to its own id again is stable. */
  lemma ChangedMusicIdempotent(p: Player, key: string)
    ensures ChangedMusic(ChangedMusic(p, key), key) == ChangedMusic(p, key)
  {
  }

  /** With unique ids, switching by a queued track's id selects that track. */
  lemma ChangedMusicSelects(p: Player, i: nat)
    requires i < |p.playMusicList|
    requires forall a, b :: 0 <= a < b < |p.playMusicList| ==> p.playMusicList[a].id != p.playMusicList[b].id
    ensures ChangedMusic(p, p.playMusicList[i].id).currentMusic == Some(p.playMusicList[i])
  {
    var r := FindById(p.playMusicList, p.playMusicList[i].id);
    assert r.Some?;
    if r.value != i {
      assert false;
    }
  }
}

=== FILE: player_screen.dfy ===
/** The player screen's control rules: the repeat and shuffle buttons, which
    track is shown when the list arrives, jumping to a track by id, the
    end-of-list rewind, and the seek-bar and time-label arithmetic. */
module PlayerScreen {
  import opened Wrappers
  import opened Numeric
  import opened Transport
  import opened PlayerModel

  /** The repeat button: off, all, one, and back to off. */
  function NextRepeatMode(m: RepeatMode): (r: RepeatMode)
    ensures r != m
    ensures m == RepeatOff ==> r == RepeatAll
  {
    match m
    case RepeatOff => RepeatAll
    case RepeatAll => RepeatOne
    case RepeatOne => RepeatOff
  }

  /** Three presses return to the start, and no fewer do. */
  lemma RepeatCycle(m: RepeatMode)
    ensures NextRepeatMode(NextRepeatMode(NextRepeatMode(m))) == m
    ensures NextRepeatMode(NextRepeatMode(m)) != m
  {
  }

  function PressRepeat(t: Transport): (t': Transport)
    ensures t'.repeat == NextRepeatMode(t.repeat) && t'.(repeat := t.repeat) == t
  {
    t.(repeat := NextRepeatMode(t.repeat))
  }

  /** The shuffle button flips shuffling and touches nothing else. */
  function PressShuffle(t: Transport): (t': Transport)
    ensures t'.shuffle != t.shuffle && t'.(shuffle := t.shuffle) == t
  {
    t.(shuffle := !t.shuffle)
  }

  lemma ShuffleTwice(t: Transport)
    ensures PressShuffle(PressShuffle(t)) == t
  {
  }

  /** The track to show: the one the player is on, else the one the screen
      was opened for, else the first, else none. */
  function SelectShown(list: seq<Music>, currentMediaId: Option<string>, musicKey: string): (r: Option<Music>)
    ensures r.Some? ==> r.value in list
    ensures r.None? <==> list == []
    ensures currentMediaId.Some? && (exists j :: 0 <= j < |list| && list[j].id == currentMediaId.value) ==>
              r.value.id == currentMediaId.value
    ensures (currentMediaId.None? || forall j :: 0 <= j < |list| ==> list[j].id != currentMediaId.value) ==>
              ((exists j :: 0 <= j < |list| && list[j].id == musicKey) ==> r.value.id == musicKey)
    ensures (currentMediaId.None? || forall j :: 0 <= j < |list| ==> list[j].id != currentMediaId.value) ==>
              ((forall j :: 0 <= j < |list| ==> list[j].id != musicKey) && list != [] ==> r == Some(list[0]))
  {
    var byCurrent := if currentMediaId.Some? then FindById(list, currentMediaId.value) else None;
    if byCurrent.Some? then Some(list[byCurrent.value])
    else match FindById(list, musicKey)
      case Some(i) => Some(list[i])
      case None => if list == [] then None else Some(list[0])
  }

  /** `List.indexOf`: the first position holding `m`, or -1. */
  function IndexOf(list: seq<Music>, m: Music): (i: int)
    ensures -1 <= i < |list|
    ensures i == -1 <==> m !in list
    ensures i >= 0 ==> list[i] == m && m !in list[..i]
  {
    if list == [] then -1
    else if list[0] == m then 0
    else
      var j := IndexOf(list[1..], m);
      if j == -1 then -1
      else
        assert list[..j + 1] == [list[0]] + list[1..][..j];
        j + 1
  }

  /** The media ids of a track list, in order. */
  function MediaIds(list: seq<Music>): (ids: seq<string>)
    ensures |ids| == |list| && forall i :: 0 <= i < |list| ==> ids[i] == list[i].id
  {
    if list == [] then [] else [list[0].id] + MediaIds(list[1..])
  }

  /** `playMusic`: record the track, queue the whole list and seek to the
      track's position, or to 0 when it is not in the list. */
  function PlayMusic(p: Player, t: Transport, list: seq<Music>, now: Music): (r: (Player, Transport))
    ensures r.0 == UpdateCurrentMusic(p, now)
    ensures r.1.mediaIds == MediaIds(list) && r.1.positionMs == 0
    ensures r.1.index >= 0
    ensures now in list ==> r.1.index < |list| && list[r.1.index] == now
    ensures now !in list ==> r.1.index == 0
  {
    var playIndex := IndexOf(list, now);
    (UpdateCurrentMusic(p, now), SeekTo(t.(mediaIds := MediaIds(list)), if playIndex >= 0 then playIndex else 0, 0))
  }

  /** The list observer: replace the model's list, show the selected track,
      and start playback only when the player has no current item. */
  function OnMusicList(p: Player, t: Transport, list: seq<Music>, musicKey: string): (r: (Player, Transport))
    ensures r.0.playMusicList == list
    ensures var now := SelectShown(list, CurrentMediaId(t), musicKey);
            && (now.Some? ==> r.0.currentMusic == now)
            && (now.None? ==> r.0.currentMusic == p.currentMusic)
    ensures CurrentMediaId(t).Some? || list == [] ==> r.1 == t
    ensures CurrentMediaId(t).None? && list != [] ==>
              CurrentMediaId(r.1) == Some(SelectShown(list, None, musicKey).value.id) && r.1.positionMs == 0
  {
    var p1 := ReplaceMusicList(p, list);
    var now := SelectShown(list, CurrentMediaId(t), musicKey);
    var p2 := if now.Some? then UpdateCurrentMusic(p1, now.value) else p1;
    if CurrentMediaId(t).None? && now.Some? then PlayMusic(p2, t, list, now.value)
    else (p2, t)
  }

  /** Once playback has started, the same list arriving again neither
      restarts the player nor changes the shown track. */
  lemma OnMusicListStable(p: Player, t: Transport, list: seq<Music>, musicKey: string)
    requires list != []
    ensures var r := OnMusicList(p, t, list, musicKey);
            var r' := OnMusicList(r.0, r.1, list, musicKey);
            r'.1 == r.1 && r'.0 == r.0
  {
    var r := OnMusicList(p, t, list, musicKey);
    var now := SelectShown(list, CurrentMediaId(t), musicKey).value;
    var id := CurrentMediaId(r.1).value;
    assert id in MediaIds(list) || id in t.mediaIds;
    if CurrentMediaId(t).None? {
      assert id == now.id;
      var k :| 0 <= k < |list| && list[k] == now;
      assert list[k].id == id;
      var again := SelectShown(list, Some(id), musicKey).value;
      var k' :| 0 <= k' < |list| && list[k'] == again;
      assert list[k'].id == id;
    } else {
      assert r.1 == t;
    }
  }

  /** `changeMusic`: seek to the first track of the screen's list with that
      id and play; an unknown id does nothing. The screen's list can be
      newer and longer than the queue, because the list observer does not
      reload a queue that has a current item; a seek past the queue's end is
      ignored, and only `play()` takes effect. */
  function ChangeMusic(t: Transport, list: seq<Music>, musicId: string): (t': Transport)
    ensures (forall j :: 0 <= j < |list| ==> list[j].id != musicId) ==> t' == t
    ensures (exists j :: 0 <= j < |list| && list[j].id == musicId) ==>
              t'.playWhenReady &&
              t'.(index := t.index, positionMs := t.positionMs, playWhenReady := t.playWhenReady) == t
    ensures forall i :: 0 <= i < |list| && list[i].id == musicId &&
                        (forall j :: 0 <= j < i ==> list[j].id != musicId) ==>
              && (SeekMoves(t, i) ==> t'.index == i && t'.positionMs == 0)
              && (!SeekMoves(t, i) ==> t'.index == t.index && t'.positionMs == t.positionMs)
  {
    match FindById(list, musicId)
    case None => t
    case Some(i) => Play(SeekTo(t, i, 0))
  }

  /** When the screen's list is what the player has queued, jumping to a
      track makes it the player's current item. */
  lemma ChangeMusicSelects(t: Transport, list: seq<Music>, i: nat)
    requires i < |list| && |t.mediaIds| == |list|
    requires forall k :: 0 <= k < |list| ==> t.mediaIds[k] == list[k].id
    requires forall a, b :: 0 <= a < b < |list| ==> list[a].id != list[b].id
    ensures CurrentMediaId(ChangeMusic(t, list, list[i].id)) == Some(list[i].id)
    ensures ChangeMusic(t, list, list[i].id).index == i
  {
    var t' := ChangeMusic(t, list, list[i].id);
    if t'.index != i {
      assert false;
    }
  }

  /** The listener is handed the player's new state. The end-of-list rule:
      with repeat off, the end of the last track rewinds to the first and
      pauses. */
  function OnPlaybackStateChanged(t: Transport, state: PlaybackState): (t': Transport)
    ensures t'.mediaIds == t.mediaIds && t'.repeat == t.repeat && t'.shuffle == t.shuffle
    ensures t'.state == state && t'.suppressed == t.suppressed
    ensures t.repeat == RepeatOff && t.index == Count(t) - 1 && state == Ended ==>
              t'.index == 0 && t'.positionMs == 0 && !t'.playWhenReady
    ensures !(t.repeat == RepeatOff && t.index == Count(t) - 1 && state == Ended) ==> t' == t.(state := state)
  {
    var t1 := t.(state := state);
    if t.repeat == RepeatOff && t.index == Count(t) - 1 && state == Ended then
      Pause(SeekTo(t1, 0, 0))
    else t1
  }

  /** After the rewind the first queued track is current again, and a second
      end event for it changes nothing unless it is also the last. */
  lemma RewindLandsOnFirst(t: Transport)
    requires t.repeat == RepeatOff && Count(t) > 0 && t.index == Count(t) - 1
    ensures var t' := OnPlaybackStateChanged(t, Ended);
            && CurrentMediaId(t') == Some(t.mediaIds[0])
            && (Count(t) > 1 ==> OnPlaybackStateChanged(t', Ended) == t')
  {
  }

  /** What the seek bar and the two time labels show. */
  datatype SeekUi = SeekUi(
    barMax: int,
    barProgress: int,
    currentMinutes: int,
    currentSeconds: int,
    totalMinutes: int,
    totalSeconds: int)

  /** `updateSeek`: a negative (unknown) duration counts as 0; the bar
      counts whole seconds (narrowed to `Int`); each label shows whole
      minutes and the seconds past them. */
  function UpdateSeek(durationMs: int, positionMs: int): (u: SeekUi)
    ensures durationMs < 0 ==> u.barMax == 0 && u.totalMinutes == 0 && u.totalSeconds == 0
    ensures durationMs >= 0 ==>
              && 0 <= u.totalSeconds < 60
              && u.totalMinutes * 60 + u.totalSeconds == durationMs / 1000
    ensures positionMs >= 0 ==>
              && 0 <= u.currentSeconds < 60
              && u.currentMinutes * 60 + u.currentSeconds == positionMs / 1000
    ensures 0 <= durationMs < 1000 * 0x8000_0000 ==> u.barMax == durationMs / 1000
    ensures 0 <= positionMs < 1000 * 0x8000_0000 ==> u.barProgress == positionMs / 1000
  {
    var duration := if durationMs >= 0 then durationMs else 0;
    LabelFields(duration);
    LabelFields(positionMs);
    SeekUi(
      WrapInt32(Quot(duration, 1000)),
      WrapInt32(Quot(positionMs, 1000)),
      Quot(positionMs, 60000), Rem(Quot(positionMs, 1000), 60),
      Quot(duration, 60000), Rem(Quot(duration, 1000), 60))
  }

  /** Minutes and seconds of a non-negative count recombine to its whole
      seconds. */
  lemma LabelFields(ms: int)
    ensures ms >= 0 ==> Quot(ms, 1000) == ms / 1000 && ms / 1000 >= 0
    ensures ms >= 0 ==> 0 <= Rem(Quot(ms, 1000), 60) < 60
    ensures ms >= 0 ==> Quot(ms, 60000) * 60 + Rem(Quot(ms, 1000), 60) == ms / 1000
  {
    if ms >= 0 {
      LabelFieldsOfNat(ms);
    }
  }

  lemma LabelFieldsOfNat(ms: nat)
    ensures Quot(ms, 1000) == ms / 1000 && ms / 1000 >= 0
    ensures 0 <= Rem(Quot(ms, 1000), 60) < 60
    ensures Quot(ms, 60000) * 60 + Rem(Quot(ms, 1000), 60) == ms / 1000
  {
    QuotOfNat(ms, 1000);
    QuotOfNat(ms, 60000);
    var s := ms / 1000;
    QuotOfNat(s, 60);
    assert ms == s * 1000 + ms % 1000;
    assert ms == (s / 60) * 60000 + (s % 60) * 1000 + ms % 1000;
    DivUnique(ms, 60000, s / 60);
  }

  /** A position inside the track never puts the bar past its end. */
  lemma ProgressWithinBar(durationMs: int, positionMs: int)
    requires 0 <= positionMs <= durationMs < 1000 * 0x8000_0000
    ensures 0 <= UpdateSeek(durationMs, positionMs).barProgress <= UpdateSeek(durationMs, positionMs).barMax
  {
    DivMonotone(positionMs, durationMs, 1000);
  }

  lemma DivMonotone(a: nat, b: nat, d: int)
    requires a <= b && d > 0
    ensures a / d <= b / d
  {
    var qa := a / d;
    var qb := b / d;
    if qa > qb {
      MulMonotone(qb + 1, qa, d);
      assert false;
    }
  }
}

=== FILE: preview_ring.dfy ===
/** The preview PCM ring of AudioIOEngine: a power-of-two array of stereo
    frames with unbounded write/read frame counters (position = counter mod
    capacity). The producer drops the oldest frames on overflow; the
    consumer pads an underflow with silence. Both copy in at most two
    contiguous chunks. */
module PreviewRing {
  import opened Audio

  /** `previewRing` (one slot per frame), `previewCapacityFrames`,
      `previewWriteIndex`, `previewReadIndex`. */
  datatype Ring = Ring(slots: seq<Frame>, capacity: nat, writeIndex: nat, readIndex: nat)

  /** The field initialisers of a fresh engine. */
  const Unallocated: Ring := Ring([], 0, 0, 0)

  /** The ring holds one slot per frame of capacity and never more than
      `capacity` unread frames. */
  predicate Valid(q: Ring) {
    && |q.slots| == q.capacity
    && q.readIndex <= q.writeIndex
    && q.writeIndex - q.readIndex <= q.capacity
  }

  /** The unread frames, oldest first: frame `j` lives in slot `(read + j) mod capacity`. */
  function Contents(q: Ring): (c: seq<Frame>)
    requires Valid(q)
    ensures |c| == q.writeIndex - q.readIndex
  {
    seq(q.writeIndex - q.readIndex,
        j requires 0 <= j < q.writeIndex - q.readIndex => q.slots[At(q.readIndex, j, q.capacity)])
  }

  // ---------------------------------------------------------------------
  // Modular arithmetic on slot positions

  lemma MulAtLeast(a: int, m: int)
    requires a >= 1 && m > 0
    ensures a * m >= m
  {
    assert a * m == m + (a - 1) * m;
  }

  lemma ModUnique(x: int, q: int, r: int, m: int)
    requires m > 0 && 0 <= r < m && x == q * m + r
    ensures x % m == r
  {
    var q' := x / m;
    var r' := x % m;
    assert x == q' * m + r';
    if q' > q {
      assert (q' - q) * m == r - r';
      MulAtLeast(q' - q, m);
    } else if q' < q {
      assert (q - q') * m == r' - r;
      MulAtLeast(q - q', m);
    }
  }

  /** Adding an offset to a slot position is adding it to the counter. */
  lemma ModAdd(a: nat, k: nat, m: nat)
    requires m > 0
    ensures (a % m + k) % m == (a + k) % m
  {
    var q := a / m;
    assert a == q * m + a % m;
    var t := a % m + k;
    var q2 := t / m;
    var r2 := t % m;
    assert t == q2 * m + r2;
    assert a + k == (q + q2) * m + r2;
    ModUnique(a + k, q + q2, r2, m);
  }

  lemma ModSmall(x: nat, m: nat)
    requires x < m
    ensures x % m == x
  {
    ModUnique(x, 0, x, m);
  }

  lemma ModMinusOne(x: nat, m: nat)
    requires m <= x < 2 * m
    ensures x % m == x - m
  {
    ModUnique(x, 1, x - m, m);
  }

  // ---------------------------------------------------------------------
  // The two-chunk copies

  /** The slot `k` frames after slot `pos`. */
  function At(pos: nat, k: nat, cap: nat): (s: nat)
    requires cap > 0
    ensures s < cap
  {
    (pos + k) % cap
  }

  /** The length of the first contiguous chunk of a wrapped copy. */
  function FirstChunk(pos: nat, len: nat, cap: nat): (first: nat)
    requires pos <= cap
    ensures first <= len && first <= cap - pos
    ensures first == len || first == cap - pos
  {
    if len < cap - pos then len else cap - pos
  }

  /** Copies `src` into the slots starting at `pos`, wrapping once: the
      first chunk at `pos..`, the rest at `0..`. Slots not written keep
      their contents. */
  method WriteChunks(slots: seq<Frame>, pos: nat, src: seq<Frame>) returns (out: seq<Frame>)
    requires pos < |slots| && |src| <= |slots|
    ensures |out| == |slots|
    ensures var first := FirstChunk(pos, |src|, |slots|);
            && (forall k :: 0 <= k < first ==> out[pos + k] == src[k])
            && (forall k :: 0 <= k < |src| - first ==> out[k] == src[first + k])
            && (forall s :: |src| - first <= s < pos ==> out[s] == slots[s])
            && (forall s :: pos + first <= s < |slots| ==> out[s] == slots[s])
  {
    var cap := |slots|;
    var first := FirstChunk(pos, |src|, cap);
    var second := |src| - first;
    out := slots;
    var i := 0;
    while i < first
      invariant 0 <= i <= first
      invariant |out| == cap
      invariant forall k :: 0 <= k < i ==> out[pos + k] == src[k]
      invariant forall s :: 0 <= s < pos ==> out[s] == slots[s]
      invariant forall s :: pos + i <= s < cap ==> out[s] == slots[s]
    {
      out := out[pos + i := src[i]];
      i := i + 1;
    }
    var j := 0;
    while j < second
      invariant 0 <= j <= second
      invariant second <= pos
      invariant |out| == cap
      invariant forall k :: 0 <= k < first ==> out[pos + k] == src[k]
      invariant forall k :: 0 <= k < j ==> out[k] == src[first + k]
      invariant forall s :: j <= s < pos ==> out[s] == slots[s]
      invariant forall s :: pos + first <= s < cap ==> out[s] == slots[s]
    {
      out := out[j := src[first + j]];
      j := j + 1;
    }
  }

  /** A two-chunk write puts frame `k` of the batch at `At(pos, k)` and
      leaves the other slots alone. */
  lemma ChunksAreOffsets(slots: seq<Frame>, pos: nat, src: seq<Frame>, out: seq<Frame>)
    requires pos < |slots| && |src| <= |slots| && |out| == |slots|
    requires var first := FirstChunk(pos, |src|, |slots|);
            && (forall k :: 0 <= k < first ==> out[pos + k] == src[k])
            && (forall k :: 0 <= k < |src| - first ==> out[k] == src[first + k])
            && (forall s :: |src| - first <= s < pos ==> out[s] == slots[s])
            && (forall s :: pos + first <= s < |slots| ==> out[s] == slots[s])
    ensures forall k :: 0 <= k < |src| ==> out[At(pos, k, |slots|)] == src[k]
    ensures forall k :: |src| <= k < |slots| ==> out[At(pos, k, |slots|)] == slots[At(pos, k, |slots|)]
  {
    var cap := |slots|;
    var first := FirstChunk(pos, |src|, cap);
    forall k | 0 <= k < |src|
      ensures out[At(pos, k, cap)] == src[k]
    {
      if k < first {
        ModSmall(pos + k, cap);
      } else {
        ModMinusOne(pos + k, cap);
        assert out[k - first] == src[first + (k - first)];
      }
    }
    forall k | |src| <= k < cap
      ensures out[At(pos, k, cap)] == slots[At(pos, k, cap)]
    {
      if pos + k < cap {
        ModSmall(pos + k, cap);
      } else {
        ModMinusOne(pos + k, cap);
      }
    }
  }

  /** Reads `take` frames starting at slot `pos`, wrapping once. */
  method ReadWrapped(slots: seq<Frame>, pos: nat, take: nat) returns (out: seq<Frame>)
    requires pos < |slots| && take <= |slots|
    ensures |out| == take
    ensures forall k :: 0 <= k < take ==> out[k] == slots[At(pos, k, |slots|)]
  {
    var cap := |slots|;
    var first := FirstChunk(pos, take, cap);
    var second := take - first;
    out := [];
    var i := 0;
    while i < first
      invariant 0 <= i <= first
      invariant |out| == i
      invariant forall k :: 0 <= k < i ==> out[k] == slots[pos + k]
    {
      out := out + [slots[pos + i]];
      i := i + 1;
    }
    var j := 0;
    while j < second
      invariant 0 <= j <= second
      invariant second <= pos
      invariant |out| == first + j
      invariant forall k :: 0 <= k < first ==> out[k] == slots[pos + k]
      invariant forall k :: 0 <= k < j ==> out[first + k] == slots[k]
    {
      out := out + [slots[j]];
      j := j + 1;
    }
    forall k | 0 <= k < take
      ensures out[k] == slots[At(pos, k, cap)]
    {
      if k < first {
        ModSmall(pos + k, cap);
      } else {
        ModMinusOne(pos + k, cap);
        assert out[first + (k - first)] == slots[k - first];
      }
    }
  }

  // ---------------------------------------------------------------------
  // Producer and consumer

  /** How far the read counter must move so that `inFrames` new frames fit. */
  function Overrun(q: Ring, inFrames: nat): (drop: nat)
    requires Valid(q)
    ensures drop <= inFrames
    ensures q.writeIndex - q.readIndex + inFrames - drop <= q.capacity || inFrames > q.capacity
    ensures drop > 0 ==> q.writeIndex - q.readIndex + inFrames - drop == q.capacity
  {
    var used := q.writeIndex - q.readIndex;
    var free := if used >= q.capacity then 0 else q.capacity - used;
    if inFrames > free then inFrames - free else 0
  }

  /** The body of `enqueuePreviewPcm` once its guards have passed: keep the
      newest `capacity` frames of the batch, advance the read counter past
      the oldest buffered frames if there is not room, copy in at the write
      slot (wrapping), and publish the new write counter. The unread frames
      afterwards are exactly the newest `capacity` of (old unread ++ batch). */
  method Push(q: Ring, src: seq<Frame>) returns (q': Ring)
    requires Valid(q) && q.capacity > 0
    ensures Valid(q')
    ensures q'.capacity == q.capacity
    ensures Contents(q') == LastN(Contents(q) + src, q.capacity)
    ensures q'.writeIndex == q.writeIndex + |LastN(src, q.capacity)|
    ensures q'.readIndex == q.readIndex + Overrun(q, |LastN(src, q.capacity)|)
  {
    var cap := q.capacity;
    var s := src;
    if |s| > cap {
      s := s[|s| - cap..];
    }
    assert s == LastN(src, cap);
    var n := |s|;
    var w := q.writeIndex;
    var r := q.readIndex;
    var used := w - r;
    var free := if used >= cap then 0 else cap - used;
    if n > free {
      r := r + (n - free);
    }
    var pos := w % cap;
    var slots := WriteChunks(q.slots, pos, s);
    ChunksAreOffsets(q.slots, pos, s, slots);
    q' := Ring(slots, cap, w + n, r);
    PushContents(q, s, q');
    LastNOfSuffix(Contents(q), src, cap);
  }

  /** The facts a wrapped write of `s` at the write counter leaves behind. */
  predicate WrittenAt(q: Ring, s: seq<Frame>, q': Ring)
    requires Valid(q) && q.capacity > 0 && |s| <= q.capacity
  {
    && q'.capacity == q.capacity && |q'.slots| == q.capacity
    && q'.writeIndex == q.writeIndex + |s|
    && q'.readIndex == q.readIndex + Overrun(q, |s|)
    && (forall k :: 0 <= k < |s| ==>
          q'.slots[At(q.writeIndex % q.capacity, k, q.capacity)] == s[k])
    && (forall k :: |s| <= k < q.capacity ==>
          q'.slots[At(q.writeIndex % q.capacity, k, q.capacity)]
            == q.slots[At(q.writeIndex % q.capacity, k, q.capacity)])
  }

  /** The unread frames after a wrapped write of `s` at the write counter. */
  lemma PushContents(q: Ring, s: seq<Frame>, q': Ring)
    requires Valid(q) && q.capacity > 0 && |s| <= q.capacity
    requires WrittenAt(q, s, q')
    ensures Valid(q')
    ensures Contents(q') == LastN(Contents(q) + s, q.capacity)
  {
    var t := Contents(q) + s;
    var l := LastN(t, q.capacity);
    assert Valid(q');
    assert |l| == |Contents(q')|;
    forall j | 0 <= j < |l|
      ensures Contents(q')[j] == l[j]
    {
      PushContentsAt(q, s, q', j);
    }
  }

  /** One unread frame after the write: an old frame that survived keeps its
      slot; a new frame sits at its offset from the old write slot. */
  lemma PushContentsAt(q: Ring, s: seq<Frame>, q': Ring, j: nat)
    requires Valid(q) && q.capacity > 0 && |s| <= q.capacity
    requires WrittenAt(q, s, q') && Valid(q')
    requires j < q'.writeIndex - q'.readIndex
    ensures |LastN(Contents(q) + s, q.capacity)| == q'.writeIndex - q'.readIndex
    ensures Contents(q')[j] == LastN(Contents(q) + s, q.capacity)[j]
  {
    var t := Contents(q) + s;
    var l := LastN(t, q.capacity);
    PushDropCount(q, s, q');
    var i := q'.readIndex + j;
    assert Contents(q')[j] == q'.slots[At(q'.readIndex, j, q.capacity)];
    assert l[j] == t[i - q.readIndex];
    if i < q.writeIndex {
      PushOldFrame(q, s, q', i);
    } else {
      PushNewFrame(q, s, q', i);
    }
  }

  /** The frames dropped from the front are exactly the read counter's
      advance. */
  lemma PushDropCount(q: Ring, s: seq<Frame>, q': Ring)
    requires Valid(q) && q.capacity > 0 && |s| <= q.capacity
    requires WrittenAt(q, s, q') && Valid(q')
    ensures |Contents(q) + s| - |LastN(Contents(q) + s, q.capacity)| == q'.readIndex - q.readIndex
  {
  }

  /** An unread frame from before the write is still in its slot. */
  lemma PushOldFrame(q: Ring, s: seq<Frame>, q': Ring, i: nat)
    requires Valid(q) && q.capacity > 0 && |s| <= q.capacity
    requires WrittenAt(q, s, q') && Valid(q')
    requires q'.readIndex <= i < q.writeIndex
    ensures q'.slots[At(q'.readIndex, i - q'.readIndex, q.capacity)] == (Contents(q) + s)[i - q.readIndex]
  {
    var cap := q.capacity;
    var w := q.writeIndex;
    var k := i + cap - w;
    assert |s| <= k < cap;
    ModAdd(w, k, cap);
    ModAddCap(i, cap);
    assert At(w % cap, k, cap) == i % cap;
    assert (Contents(q) + s)[i - q.readIndex] == q.slots[At(q.readIndex, i - q.readIndex, cap)];
  }

  /** A frame of the batch sits `k` slots after the old write position. */
  lemma PushNewFrame(q: Ring, s: seq<Frame>, q': Ring, i: nat)
    requires Valid(q) && q.capacity > 0 && |s| <= q.capacity
    requires WrittenAt(q, s, q') && Valid(q')
    requires q.writeIndex <= i < q'.writeIndex && q'.readIndex <= i
    ensures q'.slots[At(q'.readIndex, i - q'.readIndex, q.capacity)] == (Contents(q) + s)[i - q.readIndex]
  {
    var cap := q.capacity;
    var w := q.writeIndex;
    var k := i - w;
    ModAdd(w, k, cap);
    assert At(w % cap, k, cap) == i % cap;
    assert (Contents(q) + s)[i - q.readIndex] == s[k];
  }

  lemma ModAddCap(i: nat, m: nat)
    requires m > 0
    ensures (i + m) % m == i % m
  {
    var q := i / m;
    assert i == q * m + i % m;
    assert i + m == (q + 1) * m + i % m;
    ModUnique(i + m, q + 1, i % m, m);
  }

  /** The number of frames a callback of `n` frames takes from the ring. */
  function Take(q: Ring, n: nat): (take: nat)
    requires Valid(q)
    ensures take <= n && take <= q.writeIndex - q.readIndex
    ensures take == n || take == q.writeIndex - q.readIndex
  {
    var avail := q.writeIndex - q.readIndex;
    if avail < n then avail else n
  }

  /** The ring path of `onAudioReady`: take min(unread, n) frames in order,
      pad the rest of the output with silence, and advance the read counter
      by exactly the number taken. */
  method Pop(q: Ring, n: nat) returns (out: seq<Frame>, q': Ring)
    requires Valid(q) && q.capacity > 0
    ensures out == Contents(q)[..Take(q, n)] + Zeros(n - Take(q, n))
    ensures q' == q.(readIndex := q.readIndex + Take(q, n))
    ensures Valid(q')
    ensures Contents(q') == Contents(q)[Take(q, n)..]
  {
    var cap := q.capacity;
    var w := q.writeIndex;
    var r := q.readIndex;
    var avail := w - r;
    var take := if avail < n then avail else n;
    var pos := r % cap;
    var got := ReadWrapped(q.slots, pos, take);
    forall k | 0 <= k < take
      ensures got[k] == Contents(q)[k]
    {
      ModAdd(r, k, cap);
    }
    assert got == Contents(q)[..take];
    out := got + Zeros(n - take);
    q' := q.(readIndex := r + take);
    forall j | 0 <= j < w - (r + take)
      ensures Contents(q')[j] == Contents(q)[take + j]
    {
      ModAdd(r, take + j, cap);
      ModAdd(r + take, j, cap);
    }
  }

  /** First in, first out: without overflow, a push followed by a pop of
      everything yields the frames that were waiting, then the batch, with
      no padding, and leaves the ring empty. */
  method PushThenDrain(q: Ring, src: seq<Frame>) returns (out: seq<Frame>, q': Ring)
    requires Valid(q) && q.capacity > 0
    requires q.writeIndex - q.readIndex + |src| <= q.capacity
    ensures out == Contents(q) + src
    ensures Valid(q') && Contents(q') == []
  {
    var q1 := Push(q, src);
    assert Contents(q1) == Contents(q) + src;
    out, q' := Pop(q1, |Contents(q) + src|);
    assert Take(q1, |Contents(q) + src|) == |Contents(q) + src|;
    assert Contents(q1)[..|Contents(q1)|] == Contents(q1);
  }

  /** With overflow, the oldest frames are the ones lost: the ring then holds
      exactly `capacity` frames, the newest ones. */
  method PushOverflowKeepsNewest(q: Ring, src: seq<Frame>) returns (q': Ring)
    requires Valid(q) && q.capacity > 0
    requires q.writeIndex - q.readIndex + |src| > q.capacity
    ensures Valid(q') && q'.writeIndex - q'.readIndex == q.capacity
    ensures Contents(q') == (Contents(q) + src)[|Contents(q) + src| - q.capacity..]
  {
    q' := Push(q, src);
  }
}

=== FILE: processor_adapter.dfy ===
/** The Media3 `AudioProcessor` that routes player audio through the native
    DSP chain: stereo float or 16-bit input is cut into whole frames, turned
    into interleaved float samples, handed to the chain, and returned in the
    input's own encoding. One output buffer is pending at a time. */
module ProcessorAdapter {
  import opened Wrappers
  import opened Numeric

  /** Media3's `Format.NO_VALUE` and `C.ENCODING_*` codes. */
  const NoValue := -1
  const EncodingInvalid := 0
  const EncodingPcm16 := 2
  const EncodingPcmFloat := 4

  datatype AudioFormat = AudioFormat(sampleRate: int, channelCount: Int32, encoding: int)

  /** `AudioProcessor.AudioFormat.NOT_SET`. */
  const NotSet := AudioFormat(NoValue, NoValue, NoValue)

  type Byte = b: int | 0 <= b < 256

  /** A `ByteBuffer` seen from its reader: the bytes between `position` and
      `limit` are the ones still to be consumed. */
  datatype InputBuffer = InputBuffer(bytes: seq<Byte>, position: nat, limit: nat)

  /** Positions and limits are Java `int`s. */
  predicate ValidInput(b: InputBuffer) {
    b.position <= b.limit <= |b.bytes| && IsInt32(b.limit)
  }

  function Remaining(b: InputBuffer): nat
    requires ValidInput(b)
  {
    b.limit - b.position
  }

  /** The buffer handed back by `getOutput`: float samples for float input,
      16-bit samples for 16-bit input. */
  datatype Output = FloatOut(samples: seq<real>) | Pcm16Out(shorts: seq<int>)

  /** `output == None` is the shared `EMPTY_BUFFER`. */
  datatype Adapter = Adapter(
    pendingFormat: AudioFormat,
    inputEnded: bool,
    encoding: int,
    channelCount: Int32,
    output: Option<Output>)

  /** A newly constructed adapter, and the state `reset` returns to. */
  const Fresh := Adapter(NotSet, false, EncodingInvalid, 0, None)

  /** Where `queueInput` stops:
      - `DivideByZero`: Kotlin's integer division by zero, when a supported
        encoding is recorded with a channel count whose frame width in bytes
        is 0 as an `Int` (0 channels, or a multiple of 2^30 or 2^31);
      - `WidthOverflow`: the frame width overflowed an `Int` yet came out
        positive, so whole frames were counted; what follows depends on the
        capacity of the buffers earlier calls left behind, which the model
        does not carry, so the model stops here;
      - `FloatBytesOverflow`: the float byte count `samples * 4` overflowed an
        `Int` (16-bit input of 2^30 bytes or more). The float buffer is
        always direct, so the negative request keeps it, and no buffer it can
        hold has room for 2^29 floats: the conversion loop throws
        `IndexOutOfBoundsException` before any input is consumed. */
  datatype Fault = DivideByZero | WidthOverflow | FloatBytesOverflow

  /** `AudioProcessorChainController.processBuffer`: the native chain, which
      rewrites `samples` in place given the frame count and sample rate. */
  type DspCall = (seq<real>, int, int) -> seq<real>

  ghost predicate InPlace(dsp: DspCall) {
    forall x, frames, rate :: |dsp(x, frames, rate)| == |x|
  }

  /** IEEE-754 little-endian decoding of four bytes (not modelled). */
  type FloatDecoder = seq<Byte> -> real

  // ---------------------------------------------------------------- format

  predicate Supported(f: AudioFormat) {
    f.channelCount == 2 && (f.encoding == EncodingPcmFloat || f.encoding == EncodingPcm16)
  }

  /** `configure`: the format is recorded first and validated afterwards,
      so a rejected format stays recorded. The output format is the input
      format. */
  function Configure(a: Adapter, f: AudioFormat): (r: (Adapter, Result<AudioFormat, AudioFormat>))
    ensures r.0.pendingFormat == f && r.0.encoding == f.encoding && r.0.channelCount == f.channelCount
    ensures r.0.inputEnded == a.inputEnded && r.0.output == a.output
    ensures r.1.Ok? <==> Supported(f)
    ensures r.1 == Ok(f) || r.1 == Err(f)
  {
    var a' := a.(pendingFormat := f, encoding := f.encoding, channelCount := f.channelCount);
    if f.channelCount != 2 then (a', Err(f))
    else if f.encoding != EncodingPcmFloat && f.encoding != EncodingPcm16 then (a', Err(f))
    else (a', Ok(f))
  }

  predicate IsActive(a: Adapter) {
    a.pendingFormat != NotSet
  }

  /** After `configure`, the adapter is active exactly when the format is
      not `NOT_SET`, whether or not it was accepted. */
  lemma ConfigureActivates(a: Adapter, f: AudioFormat)
    ensures IsActive(Configure(a, f).0) <==> f != NotSet
  {
  }

  /** A mono format is rejected, yet leaves the adapter active. */
  lemma RejectedFormatStaysActive()
    ensures var f := AudioFormat(44100, 1, EncodingPcm16);
            Configure(Fresh, f).1.Err? && IsActive(Configure(Fresh, f).0)
  {
  }

  // ---------------------------------------------------------------- samples

  function BytesPerSample(encoding: int): nat {
    if encoding == EncodingPcmFloat then 4 else 2
  }

  predicate SupportedEncoding(encoding: int) {
    encoding == EncodingPcmFloat || encoding == EncodingPcm16
  }

  /** `channelCount * 4` or `channelCount * 2`: a Kotlin `Int` product, so it wraps. */
  function FrameWidth(encoding: int, channels: Int32): (w: int)
    ensures IsInt32(w)
    ensures IsInt32(channels * BytesPerSample(encoding)) ==> w == channels * BytesPerSample(encoding)
    ensures (w - channels * BytesPerSample(encoding)) % Int32Modulus == 0
  {
    WrapInt32(channels * BytesPerSample(encoding))
  }

  /** The product wraps: 2^30 float channels or -2^31 16-bit channels make
      a zero-byte frame, and 2^30 + 1 float channels a four-byte one. */
  lemma FrameWidthWraps()
    ensures FrameWidth(EncodingPcmFloat, 0x4000_0000) == 0
    ensures FrameWidth(EncodingPcm16, -0x8000_0000) == 0
    ensures FrameWidth(EncodingPcmFloat, 0x4000_0001) == 4
  {
  }

  /** The number of whole frames in `remaining` bytes: Kotlin division,
      truncating toward zero, by the wrapped frame width; zero for any other
      encoding. */
  function FrameCount(encoding: int, channels: Int32, remaining: nat): (r: Result<int, Fault>)
    ensures r.Err? <==> SupportedEncoding(encoding) && FrameWidth(encoding, channels) == 0
    ensures r.Err? ==> r.error == DivideByZero
    ensures !SupportedEncoding(encoding) ==> r == Ok(0)
    ensures r.Ok? && SupportedEncoding(encoding) && FrameWidth(encoding, channels) < 0 ==> r.value <= 0
    ensures r.Ok? && SupportedEncoding(encoding) && FrameWidth(encoding, channels) > 0 ==>
              var width := FrameWidth(encoding, channels);
              0 <= r.value && r.value * width <= remaining < (r.value + 1) * width
  {
    if encoding == EncodingPcmFloat || encoding == EncodingPcm16 then
      var width := FrameWidth(encoding, channels);
      if width == 0 then Err(DivideByZero)
      else
        var q := Quot(remaining, width);
        FrameBounds(remaining, width);
        Ok(q)
    else Ok(0)
  }

  lemma FrameBounds(remaining: nat, width: int)
    requires width != 0
    ensures width < 0 ==> Quot(remaining, width) <= 0
    ensures width > 0 ==>
              (0 <= Quot(remaining, width) &&
               Quot(remaining, width) * width <= remaining < (Quot(remaining, width) + 1) * width)
  {
    var q := Quot(remaining, width);
    var r := Rem(remaining, width);
    assert remaining == q * width + r;
  }

  /** Two's-complement little-endian 16-bit decoding. */
  function DecodeS16(lo: Byte, hi: Byte): (s: int)
    ensures -32768 <= s <= 32767
  {
    var v := lo + 256 * hi;
    if v >= 32768 then v - 65536 else v
  }

  function EncodeS16(s: int): (b: (Byte, Byte))
    requires -32768 <= s <= 32767
  {
    var v := if s < 0 then s + 65536 else s;
    (v % 256, v / 256)
  }

  lemma DecodeEncodeS16(s: int)
    requires -32768 <= s <= 32767
    ensures DecodeS16(EncodeS16(s).0, EncodeS16(s).1) == s
  {
  }

  /** `s / 32768.0f`. */
  function FromPcm16(s: int): (x: real)
    requires -32768 <= s <= 32767
    ensures -1.0 <= x < 1.0
    ensures (x < 0.0) == (s < 0)
  {
    s as real / 32768.0
  }

  /** The largest float written back: just under one. */
  const OutputCeiling: real := 0.9999695

  /** `(min(0.9999695f, max(-1.0f, f)) * 32767.0f).toInt().toShort()`. */
  function ToPcm16(f: real): (s: int)
    ensures -32767 <= s <= 32766
    ensures f <= -1.0 ==> s == -32767
    ensures f >= OutputCeiling ==> s == 32766
  {
    var c := Clamp(f, -1.0, OutputCeiling);
    Trunc(c * 32767.0)
  }

  /** Larger floats never give smaller shorts. */
  lemma ToPcm16Monotone(f: real, g: real)
    requires f <= g
    ensures ToPcm16(f) <= ToPcm16(g)
  {
    var cf := Clamp(f, -1.0, OutputCeiling);
    var cg := Clamp(g, -1.0, OutputCeiling);
    assert cf * 32767.0 <= cg * 32767.0;
  }

  /** A 16-bit sample that passes through unchanged floats comes back one
      step closer to zero (zero stays zero): scaling down by 32768 and up by
      32767 shrinks it by less than one, and truncation does the rest. */
  lemma Pcm16RoundTrip(s: int)
    requires -32768 <= s <= 32767
    ensures ToPcm16(FromPcm16(s)) == if s > 0 then s - 1 else if s < 0 then s + 1 else 0
    ensures Abs(ToPcm16(FromPcm16(s)) - s) <= 1
  {
    var x := FromPcm16(s);
    var p := x * 32767.0;
    assert p == s as real - x;
    if s == -32768 {
      assert x == -1.0;
    } else if s > 0 {
      assert 0.0 < x < OutputCeiling;
      assert (s - 1) as real < p < s as real;
    } else if s < 0 {
      assert -1.0 < x < 0.0;
      assert s as real < p < (s + 1) as real;
    }
  }

  /** The interleaved 16-bit samples after the buffer's position. */
  function Shorts(b: InputBuffer, count: nat): (xs: seq<int>)
    requires ValidInput(b) && 2 * count <= Remaining(b)
    ensures |xs| == count
    ensures forall i :: 0 <= i < count ==> -32768 <= xs[i] <= 32767
  {
    seq(count, i requires 0 <= i < count =>
      DecodeS16(b.bytes[b.position + 2 * i], b.bytes[b.position + 2 * i + 1]))
  }

  /** The interleaved float samples after the buffer's position. */
  function Floats(b: InputBuffer, count: nat, decode: FloatDecoder): (xs: seq<real>)
    requires ValidInput(b) && 4 * count <= Remaining(b)
    ensures |xs| == count
  {
    seq(count, i requires 0 <= i < count =>
      decode(b.bytes[b.position + 4 * i .. b.position + 4 * i + 4]))
  }

  /** The float samples the chain sees: a copy for float input, `s/32768`
      for 16-bit input. */
  function InputSamples(a: Adapter, b: InputBuffer, count: nat, decode: FloatDecoder): (xs: seq<real>)
    requires ValidInput(b) && count * BytesPerSample(a.encoding) <= Remaining(b)
    ensures |xs| == count
    ensures a.encoding != EncodingPcmFloat ==>
              forall i :: 0 <= i < count ==> -1.0 <= xs[i] < 1.0
  {
    if a.encoding == EncodingPcmFloat then Floats(b, count, decode)
    else
      var s := Shorts(b, count);
      seq(count, i requires 0 <= i < count => FromPcm16(s[i]))
  }

  // ---------------------------------------------------------------- queueInput

  datatype Queued = Queued(adapter: Adapter, input: InputBuffer)

  /** The sample rate passed to the chain: the provider's when positive,
      else the configured format's. */
  function DspRate(a: Adapter, providedRate: int): (rate: int)
    ensures providedRate > 0 ==> rate == providedRate
    ensures providedRate <= 0 ==> rate == a.pendingFormat.sampleRate
  {
    if providedRate > 0 then providedRate else a.pendingFormat.sampleRate
  }

  /** `queueInput`: skip an empty input or a pending output; consume
      everything when it holds no whole frame; otherwise consume the whole
      frames only, run them through the chain and make them the pending
      output in the input's encoding. The model stops with `WidthOverflow`
      where whole frames were counted by a frame width that wrapped, and with
      `FloatBytesOverflow` where the float byte count wraps. */
  function QueueInput(a: Adapter, b: InputBuffer, providedRate: int, dsp: DspCall, decode: FloatDecoder)
    : (r: Result<Queued, Fault>)
    requires ValidInput(b) && InPlace(dsp)
    ensures Remaining(b) == 0 || a.output.Some? ==> r == Ok(Queued(a, b))
    ensures r.Err? <==>
              (Remaining(b) > 0 && a.output.None? &&
               var fc := FrameCount(a.encoding, a.channelCount, Remaining(b));
               fc.Err? ||
               (fc.value > 0 &&
                (!IsInt32(a.channelCount * BytesPerSample(a.encoding)) || !IsInt32(fc.value * a.channelCount * 4))))
    ensures r.Err? ==>
              r.error == if FrameCount(a.encoding, a.channelCount, Remaining(b)).Err? then DivideByZero
                         else if !IsInt32(a.channelCount * BytesPerSample(a.encoding)) then WidthOverflow
                         else FloatBytesOverflow
    ensures r == Err(FloatBytesOverflow) ==> a.encoding == EncodingPcm16
    ensures r.Ok? ==>
              (ValidInput(r.value.input) && r.value.input.bytes == b.bytes &&
               r.value.input.limit == b.limit && r.value.input.position >= b.position)
    ensures r.Ok? ==> r.value.adapter.(output := a.output) == a
    ensures r.Ok? && Remaining(b) > 0 && a.output.None? ==>
              var frames := FrameCount(a.encoding, a.channelCount, Remaining(b)).value;
              if frames <= 0 then r.value == Queued(a, b.(position := b.limit))
              else
                var samples := frames * a.channelCount;
                var consumed := samples * BytesPerSample(a.encoding);
                && r.value.input.position == b.position + consumed
                && 0 <= Remaining(r.value.input) < a.channelCount * BytesPerSample(a.encoding)
                && r.value.adapter.output.Some?
                && (a.encoding == EncodingPcmFloat <==> r.value.adapter.output.value.FloatOut?)
  {
    if Remaining(b) == 0 || a.output.Some? then Ok(Queued(a, b))
    else
      var fc := FrameCount(a.encoding, a.channelCount, Remaining(b));
      if fc.Err? then Err(fc.error)
      else
        var frames := fc.value;
        if frames <= 0 then Ok(Queued(a, b.(position := b.limit)))
        else if !IsInt32(a.channelCount * BytesPerSample(a.encoding)) then Err(WidthOverflow)
        else
          PositiveWidth(a.channelCount, BytesPerSample(a.encoding));
          ProcessFrames(a, b, frames, providedRate, dsp, decode)
  }

  /** Frames were counted, so the width they were counted by is positive,
      and so is the channel count. */
  lemma PositiveWidth(channels: int, bytesPerSample: nat)
    requires channels * bytesPerSample > 0
    ensures channels > 0
  {
  }

  /** 2^30 float channels make a zero-byte frame, and Kotlin divides by
      zero; 2^30 + 1 float channels make a four-byte frame, and whole
      frames are counted in any four bytes. */
  lemma WrappedWidthFaults(a: Adapter, b: InputBuffer, providedRate: int, dsp: DspCall, decode: FloatDecoder)
    requires ValidInput(b) && InPlace(dsp) && a.output.None? && a.encoding == EncodingPcmFloat
    ensures a.channelCount == 0x4000_0000 && Remaining(b) > 0 ==>
              QueueInput(a, b, providedRate, dsp, decode) == Err(DivideByZero)
    ensures a.channelCount == 0x4000_0001 && Remaining(b) >= 4 ==>
              QueueInput(a, b, providedRate, dsp, decode) == Err(WidthOverflow)
  {
    FrameWidthWraps();
  }

  /** Steps 1 to 3 of `queueInput` for a positive number of whole frames:
      size the float buffer by `samples * 4`, consume the frames, run them
      through the chain, and hold the result as the pending output. Only
      16-bit input can make that byte count wrap, and then nothing is
      consumed. */
  function ProcessFrames(a: Adapter, b: InputBuffer, frames: int, providedRate: int, dsp: DspCall, decode: FloatDecoder)
    : (r: Result<Queued, Fault>)
    requires ValidInput(b) && InPlace(dsp)
    requires a.channelCount > 0 && (a.encoding == EncodingPcmFloat || a.encoding == EncodingPcm16)
    requires var width := a.channelCount * BytesPerSample(a.encoding);
             0 < frames && frames * width <= Remaining(b) < (frames + 1) * width
    ensures r.Err? <==> !IsInt32(frames * a.channelCount * 4)
    ensures r.Err? ==> r.error == FloatBytesOverflow && a.encoding == EncodingPcm16
    ensures r.Ok? ==> ValidInput(r.value.input) && r.value.input.bytes == b.bytes && r.value.input.limit == b.limit
    ensures r.Ok? ==> r.value.input.position == b.position + frames * a.channelCount * BytesPerSample(a.encoding)
    ensures r.Ok? ==> 0 <= Remaining(r.value.input) < a.channelCount * BytesPerSample(a.encoding)
    ensures r.Ok? ==> r.value.adapter.(output := a.output) == a && r.value.adapter.output.Some?
    ensures r.Ok? ==> (a.encoding == EncodingPcmFloat <==> r.value.adapter.output.value.FloatOut?)
  {
    var samples := frames * a.channelCount;
    var width := BytesPerSample(a.encoding);
    assert samples * width == frames * (a.channelCount * width);
    if !IsInt32(samples * 4) then Err(FloatBytesOverflow)
    else
      var processed := dsp(InputSamples(a, b, samples, decode), frames, DspRate(a, providedRate));
      var out := Render(a.encoding, processed);
      Ok(Queued(a.(output := Some(out)), b.(position := b.position + samples * width)))
  }

  /** Step 3 of `queueInput`: float input leaves as the processed floats,
      16-bit input as `ToPcm16` of each processed float. */
  function Render(encoding: int, processed: seq<real>): (out: Output)
    ensures encoding == EncodingPcmFloat ==> out == FloatOut(processed)
    ensures encoding != EncodingPcmFloat ==> out.Pcm16Out? && |out.shorts| == |processed|
    ensures out.Pcm16Out? ==> forall i :: 0 <= i < |out.shorts| ==> -32767 <= out.shorts[i] <= 32766
  {
    if encoding == EncodingPcmFloat then FloatOut(processed)
    else Pcm16Out(seq(|processed|, i requires 0 <= i < |processed| => ToPcm16(processed[i])))
  }

  /** The pending output is exactly the chain applied to the consumed
      frames, at the chosen rate, rendered in the input's encoding, unless
      the float byte count wraps, which only 16-bit input can make it do. */
  lemma QueueInputOutput(a: Adapter, b: InputBuffer, providedRate: int, dsp: DspCall, decode: FloatDecoder)
    requires ValidInput(b) && InPlace(dsp)
    requires Remaining(b) > 0 && a.output.None?
    requires a.channelCount > 0 && (a.encoding == EncodingPcmFloat || a.encoding == EncodingPcm16)
    requires Remaining(b) >= a.channelCount * BytesPerSample(a.encoding)
    ensures var frames := Remaining(b) / (a.channelCount * BytesPerSample(a.encoding));
            var samples := frames * a.channelCount;
            samples * BytesPerSample(a.encoding) <= Remaining(b) &&
            (a.encoding == EncodingPcmFloat ==> IsInt32(samples * 4)) &&
            (IsInt32(samples * 4) ==>
               QueueInput(a, b, providedRate, dsp, decode).Ok? &&
               QueueInput(a, b, providedRate, dsp, decode).value.adapter.output ==
                 Some(Render(a.encoding, dsp(InputSamples(a, b, samples, decode), frames, DspRate(a, providedRate))))) &&
            (!IsInt32(samples * 4) ==> QueueInput(a, b, providedRate, dsp, decode) == Err(FloatBytesOverflow))
  {
    QueueInputIsProcessFrames(a, b, providedRate, dsp, decode);
    var width := a.channelCount * BytesPerSample(a.encoding);
    var frames := Remaining(b) / width;
    SampleBytes(frames, a.channelCount, BytesPerSample(a.encoding));
    var samples := frames * a.channelCount;
    if IsInt32(samples * 4) {
      var out := Render(a.encoding, dsp(InputSamples(a, b, samples, decode), frames, DspRate(a, providedRate)));
      assert ProcessFrames(a, b, frames, providedRate, dsp, decode).value.adapter.output == Some(out);
    }
  }

  /** The bytes of `frames` frames, counted sample by sample. */
  lemma SampleBytes(frames: int, channels: int, bytesPerSample: int)
    ensures frames * channels * bytesPerSample == frames * (channels * bytesPerSample)
  {
  }

  /** With at least one whole frame, `queueInput` is `ProcessFrames` of the
      exact quotient. */
  lemma QueueInputIsProcessFrames(a: Adapter, b: InputBuffer, providedRate: int, dsp: DspCall, decode: FloatDecoder)
    requires ValidInput(b) && InPlace(dsp)
    requires Remaining(b) > 0 && a.output.None?
    requires a.channelCount > 0 && (a.encoding == EncodingPcmFloat || a.encoding == EncodingPcm16)
    requires Remaining(b) >= a.channelCount * BytesPerSample(a.encoding)
    ensures var width := a.channelCount * BytesPerSample(a.encoding);
            var frames := Remaining(b) / width;
            0 < frames && frames * width <= Remaining(b) < (frames + 1) * width &&
            QueueInput(a, b, providedRate, dsp, decode) == ProcessFrames(a, b, frames, providedRate, dsp, decode)
  {
    WholeFrames(a.encoding, a.channelCount, Remaining(b));
    var width := a.channelCount * BytesPerSample(a.encoding);
    var frames := Remaining(b) / width;
    assert frames * width <= Remaining(b) < (frames + 1) * width;
  }

  /** Stereo 16-bit input: `samples * 4` fits an `Int` exactly when the
      input holds fewer than 2^30 bytes. */
  lemma StereoPcm16FloatBytes(remaining: nat)
    ensures IsInt32(remaining / 4 * 2 * 4) <==> remaining < 0x4000_0000
  {
    var frames := remaining / 4;
    assert frames * 4 <= remaining < frames * 4 + 4;
    if remaining >= 0x4000_0000 {
      assert frames >= 0x1000_0000;
    } else {
      assert frames < 0x1000_0000;
    }
  }

  /** Mono 16-bit input: likewise. */
  lemma MonoPcm16FloatBytes(remaining: nat)
    ensures IsInt32(remaining / 2 * 1 * 4) <==> remaining < 0x4000_0000
  {
    var frames := remaining / 2;
    assert frames * 2 <= remaining < frames * 2 + 2;
    if remaining >= 0x4000_0000 {
      assert frames >= 0x2000_0000;
    } else {
      assert frames < 0x2000_0000;
    }
  }

  /** 16-bit input with one or two channels and at least one whole frame:
      `queueInput` faults with `FloatBytesOverflow` exactly when the input
      holds 2^30 bytes or more, and otherwise leaves a 16-bit output. */
  lemma LargePcm16InputFaults(a: Adapter, b: InputBuffer, providedRate: int, dsp: DspCall, decode: FloatDecoder)
    requires ValidInput(b) && InPlace(dsp) && a.output.None? && a.encoding == EncodingPcm16
    requires (a.channelCount == 1 || a.channelCount == 2) && Remaining(b) >= 2 * a.channelCount
    ensures QueueInput(a, b, providedRate, dsp, decode) == Err(FloatBytesOverflow) <==> Remaining(b) >= 0x4000_0000
    ensures Remaining(b) < 0x4000_0000 ==>
              QueueInput(a, b, providedRate, dsp, decode).Ok? &&
              QueueInput(a, b, providedRate, dsp, decode).value.adapter.output.value.Pcm16Out?
  {
    QueueInputOutput(a, b, providedRate, dsp, decode);
    if a.channelCount == 2 {
      StereoPcm16FloatBytes(Remaining(b));
    } else {
      MonoPcm16FloatBytes(Remaining(b));
    }
  }

  /** At least one whole frame of a width that fits an `Int`: the count is
      the exact quotient and positive. */
  lemma WholeFrames(encoding: int, channels: Int32, remaining: nat)
    requires channels > 0 && SupportedEncoding(encoding)
    requires channels * BytesPerSample(encoding) <= remaining < 0x8000_0000
    ensures IsInt32(channels * BytesPerSample(encoding))
    ensures FrameCount(encoding, channels, remaining) == Ok(remaining / (channels * BytesPerSample(encoding)))
    ensures remaining / (channels * BytesPerSample(encoding)) > 0
  {
    var width := channels * BytesPerSample(encoding);
    var frames := FrameCount(encoding, channels, remaining).value;
    assert frames * width <= remaining < (frames + 1) * width;
    DivUnique(remaining, width, frames);
  }

  /** End to end for 16-bit input and a chain that leaves samples alone:
      below 2^30 bytes every sample comes back within one step of where it
      went in; from 2^30 bytes on the float byte count wraps. */
  lemma Pcm16PassThrough(a: Adapter, b: InputBuffer, providedRate: int, decode: FloatDecoder, i: nat)
    requires ValidInput(b) && Remaining(b) >= 4
    requires a.output.None? && a.channelCount == 2 && a.encoding == EncodingPcm16
    requires i < 2 * (Remaining(b) / 4)
    ensures var identity: DspCall := (x, frames, rate) => x;
            var r := QueueInput(a, b, providedRate, identity, decode);
            var s := DecodeS16(b.bytes[b.position + 2 * i], b.bytes[b.position + 2 * i + 1]);
            (Remaining(b) < 0x4000_0000 ==>
               r.Ok? && r.value.adapter.output.Some? && r.value.adapter.output.value.Pcm16Out? &&
               i < |r.value.adapter.output.value.shorts| &&
               Abs(r.value.adapter.output.value.shorts[i] - s) <= 1) &&
            (Remaining(b) >= 0x4000_0000 ==> r == Err(FloatBytesOverflow))
  {
    var identity: DspCall := (x, frames, rate) => x;
    QueueInputOutput(a, b, providedRate, identity, decode);
    var frames := Remaining(b) / 4;
    StereoPcm16FloatBytes(Remaining(b));
    var xs := InputSamples(a, b, frames * 2, decode);
    var s := DecodeS16(b.bytes[b.position + 2 * i], b.bytes[b.position + 2 * i + 1]);
    assert xs[i] == FromPcm16(s);
    Pcm16RoundTrip(s);
  }

  // ---------------------------------------------------------------- output state

  /** `getOutput`: hand over the pending buffer and leave `EMPTY_BUFFER`. */
  function GetOutput(a: Adapter): (r: (Adapter, Option<Output>))
    ensures r.0.output.None?
    ensures r.1 == a.output
    ensures r.0.(output := a.output) == a
  {
    (a.(output := None), a.output)
  }

  function QueueEndOfStream(a: Adapter): (a': Adapter)
    ensures a'.inputEnded
    ensures a'.(inputEnded := a.inputEnded) == a
  {
    a.(inputEnded := true)
  }

  predicate IsEnded(a: Adapter) {
    a.inputEnded && a.output.None?
  }

  function Flush(a: Adapter): (a': Adapter)
    ensures !IsEnded(a') && a'.output.None? && !a'.inputEnded
    ensures a'.(output := a.output, inputEnded := a.inputEnded) == a
  {
    a.(output := None, inputEnded := false)
  }

  function Reset(a: Adapter): (a': Adapter)
    ensures a' == Fresh
    ensures !IsActive(a') && !IsEnded(a')
  {
    Flush(a).(pendingFormat := NotSet, encoding := EncodingInvalid, channelCount := 0)
  }

  /** Once the output is taken, a second `getOutput` returns nothing and a
      following `queueInput` is no longer blocked. */
  lemma GetOutputDrains(a: Adapter)
    ensures GetOutput(GetOutput(a).0).1.None?
    ensures GetOutput(a).0.output.None?
  {
  }

  /** After end of stream, the adapter reports ended exactly when the
      pending output has been taken. */
  lemma EndedOnceDrained(a: Adapter)
    ensures IsEnded(QueueEndOfStream(a)) <==> a.output.None?
    ensures IsEnded(GetOutput(QueueEndOfStream(a)).0)
  {
  }

  /** A pending output blocks `queueInput` until `getOutput` is called. */
  lemma PendingOutputBlocksInput(a: Adapter, b: InputBuffer, providedRate: int, dsp: DspCall, decode: FloatDecoder)
    requires ValidInput(b) && InPlace(dsp)
    requires a.output.Some?
    ensures QueueInput(a, b, providedRate, dsp, decode) == Ok(Queued(a, b))
  {
  }
}

=== FILE: shared_preference.dfy ===
/** The string-list helpers over the app's preferences file: a list is kept
    under a key as a JSON array, and `addList` moves an item to the end. */
module SharedPreference {
  import opened Wrappers

  /** What a list key holds: the JSON text of an array, or the text `null`
      that the JSON writer produces for a null list. */
  datatype Json = JsonList(items: seq<string>) | JsonNull

  type Prefs = map<string, Json>

  /** Reading `null` back into a non-null array type fails Kotlin's null
      check. */
  datatype Fault = NullCheckFailed

  /** No key holds the JSON `null`. */
  predicate WellFormed(p: Prefs) {
    forall k :: k in p ==> p[k].JsonList?
  }

  /** `storeList`: the list's JSON under `key`, `null` for a null list. */
  function StoreList(p: Prefs, key: string, list: Option<seq<string>>): (p': Prefs)
    ensures key in p' && p' - {key} == p - {key}
    ensures p'[key] == (if list.Some? then JsonList(list.value) else JsonNull)
  {
    p[key := if list.Some? then JsonList(list.value) else JsonNull]
  }

  /** `loadList`: null for an absent key, else the stored array. */
  function LoadList(p: Prefs, key: string): (r: Result<Option<seq<string>>, Fault>)
    ensures key !in p ==> r == Ok(None)
    ensures key in p && p[key].JsonList? ==> r == Ok(Some(p[key].items))
    ensures r.Err? <==> key in p && p[key].JsonNull?
  {
    if key !in p then Ok(None)
    else match p[key]
      case JsonList(items) => Ok(Some(items))
      case JsonNull => Err(NullCheckFailed)
  }

  /** Nothing ever fails to load from a well-formed file. */
  lemma LoadWellFormed(p: Prefs, key: string)
    requires WellFormed(p)
    ensures LoadList(p, key).Ok?
  {
  }

  /** The position of the first `x` in `s`. */
  function FirstIndex(s: seq<string>, x: string): (i: nat)
    requires x in s
    ensures i < |s| && s[i] == x && x !in s[..i]
  {
    if s[0] == x then 0
    else
      var j := FirstIndex(s[1..], x);
      assert s[1..][..j] == s[1..j + 1];
      assert s[..j + 1] == [s[0]] + s[1..][..j];
      j + 1
  }

  /** `MutableList.remove`: drops the first occurrence, if there is one. */
  function RemoveFirst(s: seq<string>, x: string): (r: seq<string>)
    ensures x !in s ==> r == s
    ensures x in s ==> r == s[..FirstIndex(s, x)] + s[FirstIndex(s, x) + 1..]
  {
    if x !in s then s
    else
      var i := FirstIndex(s, x);
      s[..i] + s[i + 1..]
  }

  /** Removing an item present once leaves none of it, and one fewer
      elements. */
  lemma RemoveFirstOnce(s: seq<string>, x: string)
    requires multiset(s)[x] == 1
    ensures x !in RemoveFirst(s, x) && |RemoveFirst(s, x)| == |s| - 1
  {
    var i := FirstIndex(s, x);
    assert s == s[..i] + [x] + s[i + 1..];
    assert multiset(s) == multiset(s[..i]) + multiset{x} + multiset(s[i + 1..]);
  }

  /** `addList`: load (an absent key reads as empty), drop the first earlier
      copy of the item, append it, and store. */
  function AddList(p: Prefs, key: string, item: string): (r: Result<Prefs, Fault>)
    ensures r.Err? <==> LoadList(p, key).Err?
    ensures r.Ok? ==> key in r.value && r.value - {key} == p - {key}
    ensures r.Ok? && key !in p ==> r.value[key] == JsonList([item])
    ensures r.Ok? && key in p ==> r.value[key] == JsonList(RemoveFirst(p[key].items, item) + [item])
  {
    match LoadList(p, key)
    case Err(e) => Err(e)
    case Ok(loaded) =>
      var favorites := if loaded.Some? then loaded.value else [];
      Ok(StoreList(p, key, Some(RemoveFirst(favorites, item) + [item])))
  }

  /** After `addList` the item is the last element; the others keep their
      order; the list grows by one exactly when the item was new. */
  lemma AddListMovesToEnd(p: Prefs, key: string, item: string)
    requires LoadList(p, key).Ok?
    ensures var r := AddList(p, key, item);
            var old_ := if key in p then p[key].items else [];
            && r.Ok? && LoadList(r.value, key).Ok?
            && var l := LoadList(r.value, key).value.value;
            && |l| > 0 && l[|l| - 1] == item
            && l[..|l| - 1] == RemoveFirst(old_, item)
            && (item !in old_ ==> l == old_ + [item])
            && (multiset(old_)[item] == 1 ==> |l| == |old_| && item !in l[..|l| - 1])
  {
    var old_ := if key in p then p[key].items else [];
    var l := RemoveFirst(old_, item) + [item];
    assert l[..|l| - 1] == RemoveFirst(old_, item);
    if multiset(old_)[item] == 1 {
      RemoveFirstOnce(old_, item);
    }
  }

  /** `removeList`: an absent key writes nothing; otherwise the first copy of
      the item is dropped and the list stored back. */
  function RemoveList(p: Prefs, key: string, item: string): (r: Result<Prefs, Fault>)
    ensures r.Err? <==> LoadList(p, key).Err?
    ensures key !in p ==> r == Ok(p)
    ensures r.Ok? && key in p ==> r.value == p[key := JsonList(RemoveFirst(p[key].items, item))]
  {
    match LoadList(p, key)
    case Err(e) => Err(e)
    case Ok(None) => Ok(p)
    case Ok(Some(favorites)) => Ok(StoreList(p, key, Some(RemoveFirst(favorites, item))))
  }

  /** `deleteList` as written: a null list from an absent key is stored too,
      which writes the JSON `null`. */
  function DeleteListAsWritten(p: Prefs, key: string): (r: Result<Prefs, Fault>)
    ensures r.Err? <==> LoadList(p, key).Err?
    ensures r.Ok? ==> key in r.value && r.value - {key} == p - {key}
    ensures r.Ok? && key in p ==> r.value[key] == JsonList([])
    ensures r.Ok? && key !in p ==> r.value[key] == JsonNull
  {
    match LoadList(p, key)
    case Err(e) => Err(e)
    case Ok(list) => Ok(StoreList(p, key, if list.Some? then Some([]) else None))
  }

  /** Deleting a list that was never stored breaks every later load and
      `addList` of that key. */
  lemma DeleteAbsentBreaksLoad(p: Prefs, key: string, item: string)
    requires key !in p
    ensures DeleteListAsWritten(p, key).Ok?
    ensures LoadList(DeleteListAsWritten(p, key).value, key) == Err(NullCheckFailed)
    ensures AddList(DeleteListAsWritten(p, key).value, key, item).Err?
  {
  }

  /** `deleteList` as intended: a present list is emptied, an absent key is
      left absent. */
  function DeleteList(p: Prefs, key: string): (r: Result<Prefs, Fault>)
    ensures r.Err? <==> LoadList(p, key).Err?
    ensures key !in p ==> r == Ok(p)
    ensures r.Ok? && key in p ==> r.value == p[key := JsonList([])]
  {
    match LoadList(p, key)
    case Err(e) => Err(e)
    case Ok(None) => Ok(p)
    case Ok(Some(_)) => Ok(StoreList(p, key, Some([])))
  }

  /** Every list operation of the corrected set keeps the file well formed,
      so loads from it never fail. */
  lemma OperationsKeepWellFormed(p: Prefs, key: string, item: string)
    requires WellFormed(p)
    ensures AddList(p, key, item).Ok? && WellFormed(AddList(p, key, item).value)
    ensures RemoveList(p, key, item).Ok? && WellFormed(RemoveList(p, key, item).value)
    ensures DeleteList(p, key).Ok? && WellFormed(DeleteList(p, key).value)
    ensures DeleteList(p, key).Ok? && LoadList(DeleteList(p, key).value, key) ==
              (if key in p then Ok(Some([])) else Ok(None))
  {
  }
}

=== FILE: sound_eq.dfy ===
/** The settings-side mirror of the native EQ: five band gains kept on the
    Kotlin side and forwarded to the chain, the mapping from a seek-bar
    progress to a gain in decibels, and the replay of stored preferences. */
module SoundEq {
  import opened Numeric
  import Text

  const BandCount := 5
  const KeySpatialEnabled := "SPATIAL_ENABLED"
  const KeyHeadTrackingEnabled := "HEAD_TRACKING_ENABLED"

  /** Calls forwarded to the native chain controller. */
  datatype ChainCall =
    | SetEqBand(index: int, gainDb: real)
    | SetSpatialEnabled(enabled: bool)
    | SetHeadTrackingEnabled(enabled: bool)

  datatype EqSettings = EqSettings(bandGainsDb: seq<real>, calls: seq<ChainCall>)

  predicate Valid(s: EqSettings) {
    |s.bandGainsDb| == BandCount
  }

  const Initial := EqSettings(seq(BandCount, _ => 0.0), [])

  /** A `SharedPreferences` snapshot: boolean and integer entries. */
  datatype Prefs = Prefs(bools: map<string, bool>, ints: map<string, int>)

  function GetBoolean(p: Prefs, key: string, default: bool): bool {
    if key in p.bools then p.bools[key] else default
  }

  function GetInt(p: Prefs, key: string, default: int): int {
    if key in p.ints then p.ints[key] else default
  }

  /** `setBandGain`: indices outside the array are ignored without a native
      call; otherwise only that band changes and the same gain is forwarded. */
  function SetBandGain(s: EqSettings, index: int, gainDb: real): (s': EqSettings)
    requires Valid(s)
    ensures Valid(s')
    ensures !(0 <= index < BandCount) ==> s' == s
    ensures 0 <= index < BandCount ==>
              && s'.bandGainsDb[index] == gainDb
              && (forall j :: 0 <= j < BandCount && j != index ==> s'.bandGainsDb[j] == s.bandGainsDb[j])
              && s'.calls == s.calls + [SetEqBand(index, gainDb)]
  {
    if 0 <= index < BandCount then
      EqSettings(s.bandGainsDb[index := gainDb], s.calls + [SetEqBand(index, gainDb)])
    else s
  }

  /** `mapEqProgressToDb`: the progress fraction, clamped to [0, 1], spread
      over [-12, +12] dB; a non-positive maximum gives 0 dB. */
  function MapEqProgressToDb(progress: int, max: int): (db: real)
    ensures max <= 0 ==> db == 0.0
    ensures -12.0 <= db <= 12.0
    ensures max > 0 && progress <= 0 ==> db == -12.0
    ensures max > 0 && progress >= max ==> db == 12.0
  {
    if max <= 0 then 0.0
    else
      var normalized := Clamp(progress as real / max as real, 0.0, 1.0);
      ProgressFraction(progress, max);
      normalized * 24.0 - 12.0
  }

  lemma ProgressFraction(progress: int, max: int)
    requires max > 0
    ensures progress <= 0 ==> progress as real / max as real <= 0.0
    ensures progress >= max ==> progress as real / max as real >= 1.0
  {
    var f := progress as real / max as real;
    assert f * max as real == progress as real;
    if progress <= 0 && f > 0.0 {
      MulPositive(f, max as real);
    }
  }

  lemma MulPositive(a: real, b: real)
    requires a > 0.0 && b > 0.0
    ensures a * b > 0.0
  {
  }

  /** More progress never lowers the gain. */
  lemma MapEqProgressMonotone(p1: int, p2: int, max: int)
    requires p1 <= p2
    ensures MapEqProgressToDb(p1, max) <= MapEqProgressToDb(p2, max)
  {
    if max > 0 {
      var m := max as real;
      var f1 := p1 as real / m;
      var f2 := p2 as real / m;
      assert f2 - f1 == (p2 - p1) as real / m;
      DivNonnegReal((p2 - p1) as real, m);
    }
  }

  lemma DivNonnegReal(a: real, b: real)
    requires a >= 0.0 && b > 0.0
    ensures a / b >= 0.0
  {
  }

  /** The middle of the bar is flat: 0 dB. */
  lemma MapEqMidpointIsFlat(progress: int, max: int)
    requires max > 0 && 2 * progress == max
    ensures MapEqProgressToDb(progress, max) == 0.0
  {
    assert progress as real / max as real == 0.5;
  }

  /** The preference key of a band: its index in decimal. */
  function BandKey(i: nat): string {
    Text.IntToString(i)
  }

  /** The gain a band gets from stored preferences; a missing entry counts
      as progress 0. */
  function StoredGain(p: Prefs, i: nat, eqMax: int): real {
    MapEqProgressToDb(GetInt(p, BandKey(i), 0), eqMax)
  }

  /** `applySettingsFromPrefs`: forward the spatial toggle, head tracking
      only together with it, then each band `0 until bandCount` from its
      stored progress. Bands past the fifth reach `setBandGain` and are
      dropped there. */
  method ApplySettingsFromPrefs(s: EqSettings, p: Prefs, bandCount: int, eqMax: int) returns (s': EqSettings)
    requires Valid(s)
    ensures Valid(s')
    ensures var spatial := GetBoolean(p, KeySpatialEnabled, false);
            var head := GetBoolean(p, KeyHeadTrackingEnabled, false);
            var applied := Min(Max(bandCount, 0), BandCount);
            && s'.calls == s.calls + [SetSpatialEnabled(spatial), SetHeadTrackingEnabled(spatial && head)]
                 + seq(applied, i requires 0 <= i < applied => SetEqBand(i, StoredGain(p, i, eqMax)))
            && (forall i :: 0 <= i < applied ==> s'.bandGainsDb[i] == StoredGain(p, i, eqMax))
            && (forall i :: applied <= i < BandCount ==> s'.bandGainsDb[i] == s.bandGainsDb[i])
  {
    var spatial := GetBoolean(p, KeySpatialEnabled, false);
    var head := GetBoolean(p, KeyHeadTrackingEnabled, false);
    var prefix := s.calls + [SetSpatialEnabled(spatial), SetHeadTrackingEnabled(spatial && head)];
    s' := s.(calls := prefix);
    var applied := Min(Max(bandCount, 0), BandCount);
    var i := 0;
    while i < bandCount
      invariant 0 <= i <= Max(bandCount, 0)
      invariant Valid(s')
      invariant var done := Min(i, BandCount);
                && s'.calls == prefix + seq(done, j requires 0 <= j < done => SetEqBand(j, StoredGain(p, j, eqMax)))
                && (forall j :: 0 <= j < done ==> s'.bandGainsDb[j] == StoredGain(p, j, eqMax))
                && (forall j :: done <= j < BandCount ==> s'.bandGainsDb[j] == s.bandGainsDb[j])
    {
      var gain := MapEqProgressToDb(GetInt(p, Text.IntToString(i), 0), eqMax);
      ghost var before := s'.calls;
      s' := SetBandGain(s', i, gain);
      if i < BandCount {
        assert s'.calls == before + [SetEqBand(i, StoredGain(p, i, eqMax))];
      }
      i := i + 1;
    }
  }

  function Min(a: int, b: int): int { if a <= b then a else b }
  function Max(a: int, b: int): int { if a >= b then a else b }
}

=== FILE: text.dfy ===
/** Decimal rendering of integers and Kotlin's `isBlank`, as used by the
    timer label, the per-band preference keys and the playback store. */
module Text {

  function DigitChar(d: nat): (c: char)
    requires d < 10
    ensures '0' <= c <= '9'
  {
    "0123456789"[d]
  }

  /** Decimal digits of `n` without leading zeros (Kotlin `Int.toString` for n >= 0). */
  function NatToString(n: nat): (s: string)
    ensures |s| >= 1
    ensures forall i :: 0 <= i < |s| ==> '0' <= s[i] <= '9'
    ensures n < 10 <==> |s| == 1
    decreases n
  {
    if n < 10 then [DigitChar(n)] else NatToString(n / 10) + [DigitChar(n % 10)]
  }

  /** Kotlin `Int.toString`: a leading '-' for negative values. */
  function IntToString(n: int): (s: string)
    ensures |s| >= 1
    ensures n >= 0 ==> s == NatToString(n)
    ensures n < 0 ==> s[0] == '-'
  {
    if n >= 0 then NatToString(n) else "-" + NatToString(-n)
  }

  /** Reads back a string of decimal digits. */
  function ParseDigits(s: string): (n: nat)
    requires forall i :: 0 <= i < |s| ==> '0' <= s[i] <= '9'
    decreases |s|
  {
    if |s| == 0 then 0 else 10 * ParseDigits(s[..|s| - 1]) + (s[|s| - 1] as int - '0' as int)
  }

  /** Rendering a natural number and reading it back gives the number: the
      rendering is injective, so distinct band indices get distinct keys. */
  lemma {:induction false} NatToStringRoundTrip(n: nat)
    ensures ParseDigits(NatToString(n)) == n
    decreases n
  {
    var d := n % 10;
    DigitValue(d);
    if n < 10 {
      ParseAppend([], DigitChar(n));
      assert [] + [DigitChar(n)] == NatToString(n);
    } else {
      var q := n / 10;
      NatToStringRoundTrip(q);
      ParseAppend(NatToString(q), DigitChar(d));
      assert n == 10 * q + d;
    }
  }

  /** Appending a digit multiplies the value read so far by ten and adds it. */
  lemma ParseAppend(p: string, c: char)
    requires forall i :: 0 <= i < |p| ==> '0' <= p[i] <= '9'
    requires '0' <= c <= '9'
    ensures ParseDigits(p + [c]) == 10 * ParseDigits(p) + (c as int - '0' as int)
  {
    var s := p + [c];
    assert s[..|s| - 1] == p;
  }

  /** A digit character reads back as its digit. */
  lemma DigitValue(d: nat)
    requires d < 10
    ensures DigitChar(d) as int - '0' as int == d
  {
  }

  lemma NatToStringInjective(a: nat, b: nat)
    requires NatToString(a) == NatToString(b)
    ensures a == b
  {
    NatToStringRoundTrip(a);
    NatToStringRoundTrip(b);
  }

  /** The whitespace characters recognised by Kotlin's `Char.isWhitespace`
      (Java whitespace or a space separator) in the Latin-1 range (the model does not cover the other Unicode separators). */
  predicate IsWhitespace(c: char) {
    c == ' ' || c == '\t' || c == '\n' || c == '\r' || c == '\U{B}' || c == '\U{C}'
    || c == '\U{1C}' || c == '\U{1D}' || c == '\U{1E}' || c == '\U{1F}' || c == '\U{A0}'
  }

  /** Kotlin `CharSequence.isBlank`: empty or only whitespace. */
  predicate IsBlank(s: string) {
    forall i :: 0 <= i < |s| ==> IsWhitespace(s[i])
  }
}

=== FILE: timer.dfy ===
/** The "m:ss" elapsed-time label of the now-playing screen. */
module Timer {
  import opened Numeric
  import opened Text

  const MsPerSecond := 1000
  const MsPerMinute := 1000 * 60
  const MsPerHour := 1000 * 60 * 60

  /** The minute and second fields of a `Long` millisecond count, with
      Kotlin's truncating `%` and `/`: whole hours are dropped first. */
  function TimerFields(ms: int): (f: (int, int))
    ensures ms >= 0 ==> 0 <= f.0 < 60 && 0 <= f.1 < 60
    ensures ms >= 0 ==> f.0 == (ms / MsPerMinute) % 60 && f.1 == (ms / MsPerSecond) % 60
  {
    var inHour := Rem(ms, MsPerHour);
    var minutes := Quot(inHour, MsPerMinute);
    var seconds := Quot(Rem(inHour, MsPerMinute), MsPerSecond);
    if ms >= 0 then
      FieldsOfNat(ms);
      (minutes, seconds)
    else (minutes, seconds)
  }

  lemma FieldsOfNat(ms: nat)
    ensures var inHour := Rem(ms, MsPerHour);
            && inHour >= 0
            && Quot(inHour, MsPerMinute) == (ms / MsPerMinute) % 60
            && Rem(inHour, MsPerMinute) >= 0
            && Quot(Rem(inHour, MsPerMinute), MsPerSecond) == (ms / MsPerSecond) % 60
  {
    QuotOfNat(ms, MsPerHour);
    var h := ms % MsPerHour;
    QuotOfNat(h, MsPerMinute);
    ModDiv(ms, MsPerMinute, 60);
    assert h % MsPerMinute == ms % MsPerMinute;
    QuotOfNat(ms % MsPerMinute, MsPerSecond);
    ModDiv(ms, MsPerSecond, 60);
  }

  predicate AllDigits(s: string) {
    forall i :: 0 <= i < |s| ==> '0' <= s[i] <= '9'
  }

  /** `s` is "m:ss" and its two parts read back as `minutes` and `seconds`. */
  predicate ReadsAs(s: string, minutes: nat, seconds: nat) {
    && |s| >= 4 && s[|s| - 3] == ':'
    && AllDigits(s[..|s| - 3]) && AllDigits(s[|s| - 2..])
    && ParseDigits(s[..|s| - 3]) == minutes && ParseDigits(s[|s| - 2..]) == seconds
  }

  /** Seconds below ten get a leading '0'; a negative field is rendered as
      `Int.toString` renders it. */
  function SecondsString(seconds: int): (s: string)
    ensures 0 <= seconds < 60 ==> |s| == 2 && AllDigits(s) && ParseDigits(s) == seconds
  {
    if seconds < 10 then
      if seconds >= 0 then
        NatToStringRoundTrip(seconds);
        assert ("0" + IntToString(seconds))[..1] == "0";
        "0" + IntToString(seconds)
      else "0" + IntToString(seconds)
    else
      if seconds < 60 then
        NatToStringRoundTrip(seconds);
        TwoDigitLength(seconds);
        IntToString(seconds)
      else IntToString(seconds)
  }

  lemma TwoDigitLength(n: nat)
    requires 10 <= n < 100
    ensures |NatToString(n)| == 2
  {
    assert NatToString(n) == NatToString(n / 10) + [DigitChar(n % 10)];
  }

  /** The label of two fields: the minutes as `Int.toString` writes them, a
      colon, the two-digit seconds. */
  function Label(minutes: int, seconds: int): (s: string)
    ensures minutes >= 0 && 0 <= seconds < 60 ==> ReadsAs(s, minutes, seconds)
  {
    var minutesString := IntToString(minutes);
    var secondsString := SecondsString(seconds);
    if minutes >= 0 && 0 <= seconds < 60 then
      NatToStringRoundTrip(minutes);
      LabelShape(minutesString, secondsString);
      minutesString + ":" + secondsString
    else minutesString + ":" + secondsString
  }

  /** The parts of "m:ss" can be read back off the joined label. */
  lemma LabelShape(m: string, sec: string)
    requires |m| >= 1 && |sec| == 2
    ensures var s := m + ":" + sec;
            && |s| >= 4 && s[|s| - 3] == ':'
            && s[..|s| - 3] == m && s[|s| - 2..] == sec
  {
    var s := m + ":" + sec;
    assert s[..|s| - 3] == m;
    assert s[|s| - 2..] == sec;
  }

  /** `milliSecondsToTimer`. For a non-negative count the label is the
      minute field, a colon, and exactly two second digits, and reading
      either part back gives the minute and second within the hour. */
  function MilliSecondsToTimer(ms: int): (s: string)
    ensures ms >= 0 ==> ReadsAs(s, (ms / MsPerMinute) % 60, (ms / MsPerSecond) % 60)
  {
    var f := TimerFields(ms);
    Label(f.0, f.1)
  }

  /** Whole hours never show: adding one changes nothing. */
  lemma HoursDiscarded(ms: nat)
    ensures MilliSecondsToTimer(ms + MsPerHour) == MilliSecondsToTimer(ms)
  {
    DivShift(ms, 60, MsPerMinute);
    DivShift(ms / MsPerMinute, 1, 60);
    DivShift(ms, 3600, MsPerSecond);
    DivShift(ms / MsPerSecond, 60, 60);
    assert TimerFields(ms + MsPerHour) == TimerFields(ms);
  }

  /** Two labels of non-negative counts are equal exactly when the counts
      fall on the same minute and second of their hours. */
  lemma TimerDeterminedByFields(a: nat, b: nat)
    ensures MilliSecondsToTimer(a) == MilliSecondsToTimer(b) <==>
              (a / MsPerMinute) % 60 == (b / MsPerMinute) % 60 && (a / MsPerSecond) % 60 == (b / MsPerSecond) % 60
  {
    var fa := TimerFields(a);
    var fb := TimerFields(b);
    if fa == fb {
      assert MilliSecondsToTimer(a) == MilliSecondsToTimer(b);
    }
  }

  lemma TimerExampleZero()
    ensures MilliSecondsToTimer(0) == "0:00"
  {
    assert TimerFields(0) == (0, 0);
    assert NatToString(0) == "0" by {
      assert DigitChar(0) == '0';
    }
    assert SecondsString(0) == "00";
    assert Label(0, 0) == "0:00";
  }

  lemma TimerExampleOneMinute()
    ensures MilliSecondsToTimer(65000) == "1:05"
  {
    assert TimerFields(65000) == (1, 5);
    assert NatToString(1) == "1" && NatToString(5) == "5" by {
      assert DigitChar(1) == '1' && DigitChar(5) == '5';
    }
    assert SecondsString(5) == "05";
    assert Label(1, 5) == "1:05";
  }
}

=== FILE: transport.dfy ===
/** The slice of the media player's state that the screens read and steer:
    the queued media ids, the current index and position, play-when-ready
    with the playback state and suppression that decide `isPlaying`, and
    the repeat and shuffle settings. */
module Transport {
  import opened Wrappers

  /** `Player.REPEAT_MODE_OFF`, `REPEAT_MODE_ONE`, `REPEAT_MODE_ALL`. */
  datatype RepeatMode = RepeatOff | RepeatOne | RepeatAll

  /** `Player.STATE_IDLE`, `STATE_BUFFERING`, `STATE_READY`, `STATE_ENDED`. */
  datatype PlaybackState = Idle | Buffering | Ready | Ended

  /** `playWhenReady` is what `play()` and `pause()` set; `state` and
      `suppressed` (a playback suppression reason other than none) are
      reported by the player. */
  datatype Transport = Transport(
    mediaIds: seq<string>,
    index: int,
    positionMs: int,
    playWhenReady: bool,
    state: PlaybackState,
    suppressed: bool,
    repeat: RepeatMode,
    shuffle: bool)

  /** `isPlaying`: the player wants to play, is ready, and nothing
      suppresses playback. */
  predicate IsPlaying(t: Transport) {
    t.playWhenReady && t.state == Ready && !t.suppressed
  }

  /** `play()` and `pause()`. */
  function Play(t: Transport): (t': Transport)
    ensures t'.playWhenReady && t'.(playWhenReady := t.playWhenReady) == t
    ensures IsPlaying(t') <==> t.state == Ready && !t.suppressed
  {
    t.(playWhenReady := true)
  }

  function Pause(t: Transport): (t': Transport)
    ensures !t'.playWhenReady && !IsPlaying(t') && t'.(playWhenReady := t.playWhenReady) == t
  {
    t.(playWhenReady := false)
  }

  /** `mediaItemCount`. */
  function Count(t: Transport): nat {
    |t.mediaIds|
  }

  /** `currentMediaItem?.mediaId`: nothing when no item is current. */
  function CurrentMediaId(t: Transport): (id: Option<string>)
    ensures id.Some? <==> 0 <= t.index < Count(t)
    ensures id.Some? ==> id.value in t.mediaIds
  {
    if 0 <= t.index < Count(t) then Some(t.mediaIds[t.index]) else None
  }

  /** Media3 moves to an index it holds, or to any index of an empty queue,
      where it waits for items; it ignores an index past the end of a
      non-empty queue. */
  predicate SeekMoves(t: Transport, index: int) {
    Count(t) == 0 || index < Count(t)
  }

  /** `seekTo(index, positionMs)`. Media3 rejects a negative index with an
      exception, so callers must not pass one. The queue, the settings and
      play-when-ready stay as they are. */
  function SeekTo(t: Transport, index: int, positionMs: int): (t': Transport)
    requires index >= 0
    ensures SeekMoves(t, index) ==> t'.index == index && t'.positionMs == positionMs
    ensures !SeekMoves(t, index) ==> t' == t
    ensures t'.(index := t.index, positionMs := t.positionMs) == t
  {
    if SeekMoves(t, index) then t.(index := index, positionMs := positionMs) else t
  }

  /** A seek never leaves a player that has a current item without one. */
  lemma SeekKeepsCurrentItem(t: Transport, index: int, positionMs: int)
    requires index >= 0 && 0 <= t.index < Count(t)
    ensures CurrentMediaId(SeekTo(t, index, positionMs)).Some?
    ensures index >= Count(t) ==> CurrentMediaId(SeekTo(t, index, positionMs)) == CurrentMediaId(t)
  {
  }
}

=== FILE: wrappers.dfy ===
/** Optional values and failures, standing in for Kotlin's nullable types,
    C++ null buffers and thrown exceptions. */
module Wrappers {

  /** A value that may be absent (Kotlin `T?`, a null C++ buffer). */
  datatype Option<+T> = None | Some(value: T) {
    function GetOr(default: T): T {
      match this
      case Some(v) => v
      case None => default
    }
  }

  /** Either a value or the exception that the source would throw. */
  datatype Result<+T, +E> = Ok(value: T) | Err(error: E)
}
